=== FILE: README.md ===
# GHIssuesAgent session core in Dafny

GHIssuesAgent sends GitHub issues to a remote coding agent (Devin).
- Agent 1 fetches a repository's issues.
- Agent 2 analyses how feasible an issue is.
- Agent 3 plans and executes the change.

Every remote step is a session. The code creates the session, polls it until it reaches a terminal status, and pulls a JSON result out of the final snapshot. The result comes from an attached file, from a marker in the agent's messages, or from a `{...}` span of message text. Results are cached on disk by repository and issue, so repeating a request costs nothing.

This project models that core as pure functions over immutable data:
- **Json.** JSON values are a datatype, with Python's truthiness, `.get`, `[...]`, iteration, `[0]` and `str()` written out, including the exceptions they raise.
- **Remote side.** Every request becomes a scripted reply: `nat -> reply` for the polls, plus a reply for creation and one for sending.
- **Time.** Time is a counter advanced by each request's latency and by the sleeps.
- **Cache directory.** The cache is a map from file name to stored document.
- **Parameters.** Downloading an attachment, `json.loads` and `extract_json_from_session` are parameters of the model. `extract_json_from_session` is imported from core.session_manager but not defined in the modelled files; the model lets it return a document or raise.
- **Exceptions.** Exceptions are values `Exc(kind, msg)` carried in a `Result`.

Modules follow the source files:
- `Text`, `Json` and `Wrappers` hold the shared vocabulary.
- `CacheKey`, `Markers`, `SessionData`, `JsonExtract` and `Cancel` model utils/utils.py.
- `CoreSession` models core/session_manager.py.
- `ApiSession` models api/session_manager.py.
- `RepositoryScanner`, with `Ranking` for Python's stable `sorted`, models api/repository_scanner.py.
- `IssueAnalyzer` models api/issue_analyzer.py.
- `AgentEnv` holds the cache-first flow that agents 2 and 3 share.
- `IssueFetcher`, `FeasibilityAnalyzer`, `PlanAgent` and `FileReviewer` model the agents.
- `Workflows` models core/workflows.py.
- `WorkflowCoordinator` models core/workflow_coordinator.py.

Behaviours of the code that the model keeps as written:
- **`expired` is not terminal.** The synchronous poller stops only on `completed`, `failed`, `stopped` and `blocked`. `expired`, `finished` and `working` keep it polling, although the status display knows all three. The web API poller stops only on `blocked` and `stopped`.
- **A malformed `structured_output` escapes the poller.** Merging the final snapshot's attachments raises TypeError when `structured_output` holds `attachments` that are not a list of strings. Only RequestException is caught, so the error ends `wait_for_session_completion`.
- **Cancellation never checks the status.** `cancel_session` sends the stop message without first reading the session's status.
- **Transport failures are swallowed until the deadline.** The synchronous poller has no threshold of consecutive transport failures.
- **The web API poller raises on timeout.** The synchronous poller returns `{"error": "timeout"}` as a value; the web API poller raises an exception instead.

A consequence the model makes visible: `execute_issue_plan` answers "No plan available" only when the plan is falsy. Every plan the plan agent returns is truthy (`Workflows.AgentPlansAreTruthy`). A plan read from the cache may be any truthy value; a plan from a session is a non-empty dict. So that branch can only be reached through `safe_devin_api_call`, which is not part of this model. For this reason `Workflows.PlanStage` takes the plan's outcome as a parameter.

## Model

| member | source | states |
|---|---|---|
| Json.FalsyValues | agents/agent1_issue_fetcher.py:65 | a value is falsy exactly when it is None, False, 0, `""`, `[]` or `{}` |
| Json.PyGet | api/repository_scanner.py:41-42 | `.get` succeeds exactly on a dict, giving the value or the default, and raises AttributeError otherwise |
| Json.PySubscript | api/repository_scanner.py:46 | `x["k"]` succeeds exactly on a dict holding the key; KeyError on a dict without it, TypeError on anything else |
| Json.PyContains | agents/agent3_file_reviewer.py:87 | `"k" in x` tests a dict's keys, a list's items and a string's substrings, and raises TypeError on None, booleans and numbers |
| Json.PyIter | utils/utils.py:91 | a list iterates its items, the result is empty exactly for a falsy value, and None, booleans and numbers raise TypeError |
| Json.PyIndex0 | core/workflow_coordinator.py:23-25 | `x[0]` succeeds exactly on a non-empty list or string; IndexError when empty, KeyError on a dict, TypeError otherwise |
| Json.PyStr | core/workflows.py:22 | `str` keeps a string and renders an integer so that `int` reads it back |
| CacheKey.GetCacheKey | utils/utils.py:11-13 | the cache key never contains `/` |
| CacheKey.GetCacheKeyIdempotent | utils/utils.py:11-13 | normalising a key a second time leaves it unchanged |
| CacheKey.GetCacheKeyOfGithubUrl | utils/utils.py:11-13 | `https://github.com/owner/repo` is keyed `owner_repo` when owner and repo contain no `/` |
| CacheKey.IssuesCacheFile | agents/agent1_issue_fetcher.py:86-89 | agent 1's cache file is `issues_` followed by the repository's cache key and `.json`, so repositories with different keys get different files |
| CacheKey.CacheFile | agents/agent2_feasibility_analyzer.py:25-29 | the per-issue cache file name starts with the category and `_` and ends in `.json` |
| Markers.MarkerUrlLength | utils/utils.py:59-60 | a marker is the literal `ATTACHMENT:"`, a non-empty quote-free url, then a closing quote |
| Markers.FindMarkers | utils/utils.py:59-60 | every url found is non-empty and contains no quote |
| Markers.FoundMarkersOccur | utils/utils.py:59-60 | every url found is written inside a complete marker in the message text |
| Markers.FindMarkersOfRender | utils/utils.py:59-60 | scanning text made of markers gives back exactly their urls, in order |
| Markers.PlainTextFindsNothing | utils/utils.py:59-60 | text without an `A` in front of a message adds no attachment reference |
| Markers.SplitAttachmentUrl | utils/utils.py:62-64 | a matched url ends in `/attachments/{uuid}/{name}`, with uuid and name non-empty and free of `/` |
| Markers.SplitAttachmentUrlComplete | utils/utils.py:62-64 | every url of the shape `.../attachments/{uuid}/{name}` is split into exactly that uuid and name |
| Markers.UrlAttachment | utils/utils.py:62-69 | a url yields one attachment exactly when it has the attachment shape, and none otherwise |
| Markers.UrlsToAttachments | utils/utils.py:61-69 | every attachment is well formed and comes from one of the urls; there are never more attachments than urls |
| Markers.UrlsToAttachmentsAppend | utils/utils.py:61-69 | urls are handled one at a time, in order, and a url that does not match is dropped without affecting the others |
| Markers.MessageAttachments | utils/utils.py:57 | a message that is not a `devin_message` contributes nothing |
| Markers.ExtractAttachmentUrlsFromMessages | utils/utils.py:52-72 | every entry is well formed and was found in the text of some `devin_message` |
| Markers.ExtractAttachmentUrlsAppend | utils/utils.py:56-70 | entries come in message order, then marker order within a message |
| SessionData.StructuredUrls | utils/utils.py:89-92 | a falsy output or one without `attachments` gives no urls; the strings of a dict's `attachments` list are read in order; TypeError exactly when `in` fails on a number or bool, a string or list holding `attachments` is subscripted, the value is None, a number or a bool, or a list item is not a string |
| SessionData.DictItemRaises | utils/utils.py:91-92 | an `attachments` item that is a dict makes the merge raise |
| SessionData.NullAttachmentsRaise | utils/utils.py:90-91 | `attachments: null` makes the merge raise |
| SessionData.TextMentioningAttachmentsRaises | utils/utils.py:90-91 | a structured output that is a string containing `attachments` makes the merge raise |
| SessionData.FirstWithUuid | utils/utils.py:95-102 | the first candidate carrying a uuid, and none only when no candidate carries it |
| SessionData.DedupKeepsNewUuids | utils/utils.py:95-102 | de-duplication keeps only candidates whose uuid was not already seen |
| SessionData.DedupUnique | utils/utils.py:95-102 | the kept entries have pairwise distinct uuids |
| SessionData.DedupCovers | utils/utils.py:95-102 | every candidate's uuid was either seen beforehand or appears among the kept entries |
| SessionData.DedupKeepsFirst | utils/utils.py:95-102 | each kept entry is the first candidate carrying its uuid |
| SessionData.DedupAppend | utils/utils.py:95-102 | de-duplicating two lists in a row equals de-duplicating the second against the uuids of the first |
| SessionData.ExtractAttachmentsFromSessionData | utils/utils.py:75-104 | it raises exactly when reading `structured_output` raises, always TypeError; otherwise the message attachments then the structured ones, first of each uuid kept |
| SessionData.MergedAttachmentsSpec | utils/utils.py:75-104 | the merged uuids are distinct, every uuid from either source appears, and the first occurrence wins |
| SessionData.MessageAttachmentsComeFirst | utils/utils.py:81-102 | message-derived entries come first; a structured-output entry survives only when no message named its uuid |
| JsonExtract.Fetch | utils/utils.py:41-45 | a non-empty download gives exactly its parse (a failed parse skips the candidate); a failed or empty download gives no document |
| JsonExtract.DownloadJsonAttachments | utils/utils.py:30-49 | every kept entry passes the prefix and `.json` tests and is the parsed download of an input candidate |
| JsonExtract.DownloadJsonAttachmentsAppend | utils/utils.py:34-49 | the result is an in-order subsequence of the input, and a failing candidate never aborts the later ones |
| JsonExtract.DownloadJsonAttachmentsStep | utils/utils.py:36-47 | a candidate that fails the filter, the download or the parse is skipped; one that passes all three adds exactly its document |
| JsonExtract.FetchRef | utils/utils.py:110-121 | an entry with a non-empty uuid and a non-empty `.json` name yields exactly the download-and-parse of that uuid and name; any other entry yields nothing |
| JsonExtract.ExtractJsonFromAttachments | utils/utils.py:107-123 | the document of the first entry that yields one; None exactly when no entry yields one |
| JsonExtract.BraceSpan | utils/utils.py:128-130 | the span runs from the first `{` to the last `}` after it; there is none exactly when no `}` follows any `{` |
| JsonExtract.ExtractJsonFromMessageContent | utils/utils.py:126-134 | the parse of exactly that span, and None when there is no span |
| Cancel.CancelSession | utils/utils.py:137-171 | True exactly when one of the first `max_attempts` sends is delivered; it stops at the first delivery and sleeps 10 s after each failure |
| Cancel.CancelFrom | utils/utils.py:153-168 | from attempt k, success means the last send was delivered and none before it from k; failure means every send up to `max_attempts` failed; 10 s were slept per failed send |
| Cancel.FailuresAreInterchangeable | utils/utils.py:153-168 | a send that raises counts the same as one that returns False |
| Cancel.NoAttemptsNoSend | utils/utils.py:153-171 | with `max_attempts <= 0`, the result is False with no send made |
| CoreSession.CreatePayload | core/session_manager.py:10-16 | the payload always holds `prompt`, and holds `repository_url` and `file_url` exactly when each argument is truthy |
| CoreSession.CreateSession | core/session_manager.py:20-26 | the new session id, a re-raised failure, or KeyError when the reply has no `session_id` |
| CoreSession.SendSessionMessage | core/session_manager.py:95-109 | True exactly on success, False exactly on a transport error, and other exceptions propagate |
| CoreSession.DisplayLiveMessages | core/session_manager.py:60-92 | with more messages than the mark, the new ones are emitted and the mark becomes the length; otherwise nothing is emitted and the mark stays |
| CoreSession.IsTerminal | core/session_manager.py:139 | a terminal status is present and is none of `working`, `expired` and `finished` |
| CoreSession.WithMessageAttachments | core/session_manager.py:139-144 | the merge fails exactly when reading `structured_output` fails; otherwise only `message_attachments` may change, and it is set exactly when the merged list is non-empty |
| CoreSession.LiveFoldEmitsEachOnce | core/session_manager.py:60-92 | over a growing conversation, repeated display calls emit every message once, in order, and the mark ends at the length |
| CoreSession.WaitLoop | core/session_manager.py:119-148 | the deadline is checked before every poll; the loop stops at the first terminal poll or at the first failed deadline check |
| CoreSession.WaitForSessionCompletion | core/session_manager.py:112-148 | polls stop at the first terminal snapshot, which is returned with its merged attachments or raises the merge's TypeError; otherwise the timeout value after a failed deadline check; a transport error never ends the loop |
| CoreSession.LiveDisplayShowsConversationOnce | core/session_manager.py:136-137 | with live display, each message of the final conversation is displayed exactly once, in order |
| CoreSession.QuietLoopShowsNothing | core/session_manager.py:136-137 | without live display, nothing is shown |
| CoreSession.ReturnsAfterFirstTerminalPoll | core/session_manager.py:119-144 | k non-terminal polls followed by a terminal one before the deadline end the loop after exactly k+1 polls, with that snapshot's merge outcome |
| CoreSession.TerminalMergeErrorEscapes | core/session_manager.py:119-148 | the same loop raises instead of returning exactly when the terminal snapshot's `structured_output` makes the merge raise |
| CoreSession.FinishFailsOnStructuredOutput | core/session_manager.py:139-145 | ending on a snapshot raises exactly when reading its `structured_output` raises |
| CoreSession.NeverTerminalTimesOut | core/session_manager.py:119-148 | a session that never reaches a terminal status gives the timeout value, never an error |
| CoreSession.ExpiredIsNotTerminal | core/session_manager.py:127-139 | `expired` and a missing status keep the loop polling |
| ApiSession.CreatePayload | api/session_manager.py:11-13 | the payload holds `prompt`, and holds `repository_url` exactly when the argument is truthy |
| ApiSession.CreateDevinSession | api/session_manager.py:9-20 | the reply's `session_id`; KeyError when the reply lacks it or `url`; request failures propagate |
| ApiSession.SleepAfter | api/session_manager.py:25-44 | every sleep lasts from 1 to 30 seconds |
| ApiSession.BackoffGrowsThenCaps | api/session_manager.py:25-44 | the sleeps are 1, 2, 4, 8 and 16 s, each twice the one before, then 30 s for ever, and never decrease |
| ApiSession.Pow2 | api/session_manager.py:43-44 | `2 ** k` is at least 1 and doubles with each step |
| ApiSession.ScheduleBackoff | api/session_manager.py:25-44 | the k-th sleep is min(2^k, 30) |
| ApiSession.ApiStepCases | api/session_manager.py:34-39 | a poll ends the loop exactly on status `blocked` or `stopped`, and raises exactly when the request fails or the status is missing |
| ApiSession.DeadlineChecksFollowSchedule | api/session_manager.py:28-44 | every poll made passed a deadline check at its scheduled time |
| ApiSession.PollsWereInTime | api/session_manager.py:29-34 | every request the loop sends was preceded by a deadline check that found the elapsed time within the timeout |
| ApiSession.TimeoutAtScheduledCheck | api/session_manager.py:31-44 | the timeout is raised at the clock the schedule of latencies and `min(backoff, 30)` sleeps gives for the poll that is not made |
| ApiSession.WaitForSessionCompletion | api/session_manager.py:23-44 | the snapshot of the poll that ended the loop, that poll's exception, or a timeout exception raised past the deadline |
| ApiSession.CompletedOnlyEndsTheSynchronousPoller | api/session_manager.py:37-39 | a session reporting `completed` ends the synchronous poll at once and makes this poller raise its timeout |
| Ranking.SortByScore | api/repository_scanner.py:45 | the sort is a permutation of the input, ordered by key descending (numbers by value, strings by code point) and position ascending |
| Ranking.SortIsStable | api/repository_scanner.py:45 | of two output entries the first has the strictly greater key, or the same key and the earlier input position |
| Ranking.TopNSpec | api/repository_scanner.py:45-46 | the slice keeps min(n, length) input entries in non-increasing key order and leaves out no entry with a strictly greater key than a kept one |
| Ranking.StrLessTotal | api/repository_scanner.py:45 | two different strings are ordered one way or the other by code point |
| Ranking.LessTransitive | api/repository_scanner.py:45 | the key order is transitive |
| RepositoryScanner.ScoreValues | api/repository_scanner.py:45 | each file's key is its `relevance_score`, defaulting to 0; a file that is not a dict raises AttributeError |
| RepositoryScanner.Paths | api/repository_scanner.py:46 | one `path` per kept file; the first file without one raises |
| RepositoryScanner.RankRelevantFiles | api/repository_scanner.py:45-46 | the only errors are AttributeError (exactly when a file is not a dict), TypeError (exactly when two or more keys mix numbers with strings or include other values) and KeyError |
| RepositoryScanner.StringScoresRankAsStrings | api/repository_scanner.py:45 | string scores `"10"` and `"9"` rank `"9"` first, by code point |
| RepositoryScanner.MixedScoresRaise | api/repository_scanner.py:45 | an integer score next to a string score raises TypeError |
| RepositoryScanner.RankingPaths | api/repository_scanner.py:45-46 | on dicts with paths and comparable keys, min(10, n) paths are returned, each the `path` of the input file at the matching kept position |
| RepositoryScanner.RankingOrder | api/repository_scanner.py:45 | kept files are in non-increasing key order, by number or by code-point string order, and equal keys keep input order |
| RepositoryScanner.RankingOmitsNoHigher | api/repository_scanner.py:45-46 | no omitted file has a strictly greater key than a kept one |
| RepositoryScanner.TopRelevantFiles | api/repository_scanner.py:41-46 | a result without `structured_output` gives no files; a result that is not a dict raises AttributeError; the only errors are AttributeError, TypeError and KeyError |
| RepositoryScanner.TopRelevantFilesOfStructuredOutput | api/repository_scanner.py:41-46 | missing `relevant_files` gives no files; otherwise the result is the top ranking of that list |
| RepositoryScanner.ScanRepositoryForRelevantFiles | api/repository_scanner.py:38-39 | creation errors and the 180 s timeout propagate to the caller |
| IssueAnalyzer.RelevantFilesOrEmpty | api/issue_analyzer.py:17-22 | a failed scan becomes the empty list |
| IssueAnalyzer.AnalysisTimeout | api/issue_analyzer.py:27-100 | 300 s exactly when files were found, 600 s exactly when none were |
| IssueAnalyzer.ShapeAnalysis | api/issue_analyzer.py:106-117 | the result has exactly the eight keys, in order; a structured output that is not a dict raises AttributeError |
| IssueAnalyzer.AnalysisKeysDistinct | api/issue_analyzer.py:106-117 | no key of the result is written twice |
| IssueAnalyzer.ShapeAnalysisScore | api/issue_analyzer.py:106-109 | `score` is `confidence_score`, defaulting to 0 |
| IssueAnalyzer.ShapeAnalysisAction | api/issue_analyzer.py:106-110 | `action` is `action_plan`, defaulting to "No action plan available" |
| IssueAnalyzer.ShapeAnalysisMethod | api/issue_analyzer.py:115 | `analysis_method` is `targeted` exactly when files were found, else `full_repository` |
| IssueAnalyzer.ShapeAnalysisFiles | api/issue_analyzer.py:116 | `files_analyzed` is the file list, or `full_repository` when there are no files |
| IssueAnalyzer.AnalyzeIssueWithDevinContext | api/issue_analyzer.py:12-117 | creation errors propagate; a non-string file breaks the prompt's join with TypeError |
| IssueAnalyzer.ScanFailureFallsBack | api/issue_analyzer.py:17-22 | a scan exception behaves exactly like a scan that found nothing |
| IssueAnalyzer.TimeoutFollowsScan | api/issue_analyzer.py:27-103 | a session that never finishes raises the timeout after 300 s with files found and 600 s without |
| IssueAnalyzer.FinishedAnalysisIsShaped | api/issue_analyzer.py:103-117 | a finished session without structured output gives the eight-key dict with score 0 and the default action; with a `structured_output`, the result is that output shaped into the eight-key dict (AttributeError when it is not a dict) |
| AgentEnv.CheckCache | agents/agent2_feasibility_analyzer.py:29-33 | a truthy cache read is the document stored under that path |
| AgentEnv.RunSession | agents/agent2_feasibility_analyzer.py:73-74 | a creation error propagates; otherwise the waited snapshot (or timeout value); it fails exactly when creation fails or the merge of the final snapshot raises |
| AgentEnv.Stamp | agents/agent2_feasibility_analyzer.py:77-81 | `issue_number` and `issue_title` are overwritten from the issue, all other keys are kept, and a non-dict raises AttributeError |
| AgentEnv.CachedDocument | agents/agent2_feasibility_analyzer.py:25-86 | every document returned is truthy; without a session nothing is written; a call that contacted the remote and succeeded writes the returned document to the checked file, and nothing else is ever written |
| AgentEnv.CachedDocumentHit | agents/agent2_feasibility_analyzer.py:29-33 | a truthy cached document is returned unchanged, with no session created and nothing written |
| AgentEnv.CachedDocumentMiss | agents/agent2_feasibility_analyzer.py:73-85 | on a miss, the stamped document is stored under the checked path |
| AgentEnv.ExtractorFailureWritesNothing | agents/agent2_feasibility_analyzer.py:73-85 | after a finished session, an extractor exception propagates and a non-dict result raises AttributeError, and nothing is written |
| AgentEnv.SecondCallHits | agents/agent2_feasibility_analyzer.py:29-85 | right after a successful call, a second call is a hit returning the same document |
| AgentEnv.MissingNumberIsUnknown | agents/agent2_feasibility_analyzer.py:25-79 | an issue without `number` is cached under `unknown`, while the stamped `issue_number` is None |
| IssueFetcher.IssuesOfDocument | agents/agent1_issue_fetcher.py:66-82 | a non-empty list is taken as it stands, a dict gives its `issues`, and anything else gives nothing |
| IssueFetcher.ExtractIssuesFromResult | agents/agent1_issue_fetcher.py:61-84 | when the first document parsed from `attachments` is a non-empty list, or a dict holding `issues`, that is the result, whatever `message_attachments` holds; otherwise the same reading of `message_attachments` gives the result, and `[]` when it too yields nothing |
| IssueFetcher.AttachedListIsReturned | agents/agent1_issue_fetcher.py:63-69 | a non-empty list attached to the result is returned unchanged |
| IssueFetcher.NothingDownloadedIsEmpty | agents/agent1_issue_fetcher.py:61-84 | when nothing can be downloaded, the extraction is `[]` |
| IssueFetcher.NormalizeIssue | agents/agent1_issue_fetcher.py:42-48 | a normalised issue has exactly the five keys, in order |
| IssueFetcher.NormalizedField | agents/agent1_issue_fetcher.py:42-48 | each field is the issue's own value, or "" or `[]` when it is missing |
| IssueFetcher.NormalizeIssues | agents/agent1_issue_fetcher.py:40-52 | normalisation succeeds exactly when every entry is a dict, and raises AttributeError otherwise |
| IssueFetcher.NormalizeSingle | agents/agent1_issue_fetcher.py:40-52 | a single issue is kept exactly when its `number` is truthy |
| IssueFetcher.StepsAppend | agents/agent1_issue_fetcher.py:40-52 | the per-issue loop over two lists is the loop over each, joined |
| IssueFetcher.NormalizeIssuesAppend | agents/agent1_issue_fetcher.py:40-52 | issues are kept in input order, each independently of the others |
| IssueFetcher.NormalizedIssuesHaveNumbers | agents/agent1_issue_fetcher.py:40-52 | every output issue is the normalisation of an input issue with a truthy `number` |
| IssueFetcher.KeptNumberIsTruthy | agents/agent1_issue_fetcher.py:42-49 | a kept issue's normalised `number` is truthy |
| IssueFetcher.FetchAndCacheIssues | agents/agent1_issue_fetcher.py:18-59 | without a session the cache is unchanged; the issues file is written only on a miss, with the returned list |
| IssueFetcher.CacheHitCreatesNoSession | agents/agent1_issue_fetcher.py:23-27 | on a cache hit, the stored list is returned and no session is created |
| IssueFetcher.WrittenIffExtracted | agents/agent1_issue_fetcher.py:39-57 | the file is written exactly when the extracted list is non-empty, even if normalisation empties it |
| IssueFetcher.SecondFetchHits | agents/agent1_issue_fetcher.py:23-56 | the file is read under the name it was written to, so a second fetch is a hit |
| IssueFetcher.GetCachedIssues | agents/agent1_issue_fetcher.py:90-96 | without a cache file, the result is `[]` |
| IssueFetcher.FirstWithNumber | agents/agent1_issue_fetcher.py:100-104 | None exactly when no issue has that number |
| IssueFetcher.FirstWithNumberIsFirst | agents/agent1_issue_fetcher.py:100-104 | the result is the first issue whose `number` equals the argument |
| IssueFetcher.GetSingleIssue | agents/agent1_issue_fetcher.py:98-104 | without cached issues, the result is None |
| IssueFetcher.SingleIssueSearchesFetchedList | agents/agent1_issue_fetcher.py:98-104 | after a fetch that wrote the list, the lookup searches exactly that list |
| FeasibilityAnalyzer.AnalyzeIssueFeasibility | agents/agent2_feasibility_analyzer.py:18-28 | a string issue gives `{"error": "Invalid issue format"}` without cache or session activity |
| FeasibilityAnalyzer.FeasibilityIsCacheFirst | agents/agent2_feasibility_analyzer.py:29-85 | a hit returns the cached analysis; a miss stamps the analysis and saves it under the checked path |
| FeasibilityAnalyzer.SecondAnalysisHits | agents/agent2_feasibility_analyzer.py:29-85 | an immediate second analysis is a cache hit with the same result |
| PlanAgent.ReviewFilesAndPlan | agents/agent3_plan.py:20-82 | after a successful call, the stored plan is the plan returned; a failure leaves it unchanged |
| PlanAgent.StoredPlanFollowsLastSuccess | agents/agent3_plan.py:17-86 | the stored plan is None before any call, and afterwards equals the last plan returned |
| PlanAgent.PlanIsCacheFirst | agents/agent3_plan.py:22-78 | a hit returns the cached plan and stores it; a miss stamps the plan and saves it under the checked path |
| FileReviewer.PlanFromMessages | agents/agent3_file_reviewer.py:68-78 | a plan taken from a message is truthy; the result is None exactly when no `devin_message` yields one |
| FileReviewer.PlanFromMessagesIsFirst | agents/agent3_file_reviewer.py:72-78 | messages are scanned oldest first, and the first that yields JSON wins |
| FileReviewer.ChoosePlan | agents/agent3_file_reviewer.py:63-83 | the only error is ValueError "No plan JSON found in Devin session result" |
| FileReviewer.PlanPrecedence | agents/agent3_file_reviewer.py:63-83 | a `plan` attachment wins and the messages are then ignored; otherwise a plan exists exactly when some message yields one |
| FileReviewer.ShowStep | agents/agent3_file_reviewer.py:88-91 | a step that is not a dict raises AttributeError; a dict step raises TypeError exactly when its truthy `files` is a number, a bool or a list holding a non-string |
| FileReviewer.ShowSteps | agents/agent3_file_reviewer.py:88-91 | the loop succeeds exactly when every step does, and otherwise raises the first failing step's error |
| FileReviewer.Displayed | agents/agent3_file_reviewer.py:86-93 | a plan that is not a dict raises TypeError exactly when it is None, a bool or a number, or a string or list holding `action_plan` that is then subscripted; a dict without `action_plan` is shown unchanged; a dict's `action_plan` raises TypeError when not iterable, succeeds for a list exactly when every step displays, and for a string or dict exactly when it is empty |
| FileReviewer.StepDisplay | agents/agent3_file_reviewer.py:86-91 | a step listing its files by name is displayed, while a step given as a bare string raises AttributeError |
| FileReviewer.ReviewFilesAndPlan | agents/agent3_file_reviewer.py:20-95 | a non-dict analysis raises AttributeError with nothing recorded; creation errors propagate; once the session is created its id is recorded, even if the review then raises |
| FileReviewer.ExecuteChanges | agents/agent3_file_reviewer.py:97-152 | raises without a session or on a failed send, and returns only after a delivered send |
| FileReviewer.ShowChanges | agents/agent3_file_reviewer.py:146-152 | without `changes_made` the reply is returned; a None, bool or number raises TypeError; a list succeeds exactly when every change is a dict, a string or dict exactly when empty, and otherwise AttributeError |
| FileReviewer.FileNameChangesRaise | agents/agent3_file_reviewer.py:118-150 | a reply listing changed files by name, the shape the request asks for, raises AttributeError at `change.get` |
| FileReviewer.ExecutionIsFirstAttachment | agents/agent3_file_reviewer.py:130-152 | an error raised while waiting propagates; ValueError when there is no `execution` attachment; a first document that is not a dict raises AttributeError, and a dict goes through the `changes_made` display |
| FileReviewer.ReviewOpensSessionForExecution | agents/agent3_file_reviewer.py:59-128 | after a review creates a session, execution passes the session check |
| FileReviewer.NewReviewerRefuses | agents/agent3_file_reviewer.py:101-102 | a reviewer that never reviewed refuses to execute |
| Workflows.FrontendIssue | core/workflows.py:21-28 | each frontend entry has exactly the six keys |
| Workflows.FrontendField | core/workflows.py:21-28 | `id` is `str(number)`; `title`, `state`, `body`, `created_at` and `updated_at` take their defaults when missing |
| Workflows.SortKeys | core/workflows.py:30 | each sort key is `int` of the entry's id |
| Workflows.SortOrder | core/workflows.py:30 | the sort order picks one input position per output entry |
| Workflows.SortOrderSpec | core/workflows.py:30 | the order has no repeats, sorts ascending by key, and keeps equal keys in input order |
| Workflows.SortOrderCovers | core/workflows.py:30 | every input position appears in the order |
| Workflows.ListIssues | core/workflows.py:21-30 | the only errors are TypeError, AttributeError and ValueError |
| Workflows.ListIssuesSpec | core/workflows.py:21-30 | one entry per issue, every issue present, sorted ascending by numeric id, stably |
| Workflows.FetchRepositoryIssues | core/workflows.py:15-31 | fetch errors propagate, and the cache is the one agent 1 leaves |
| Workflows.ErrorDict | core/workflows.py:70-73 | FileNotFoundError maps to "Issue not found", any other exception to `str(e)`; no `status` key |
| Workflows.RunStage | core/workflows.py:39-53 | an existing cache file is returned and the agent is not run |
| Workflows.CompletedField | core/workflows.py:63-68 | the success dict carries issue id, `completed`, analysis and plan |
| Workflows.RespondSpec | core/workflows.py:60-73 | status is `completed` exactly when both stages succeed; the first failing stage's error is reported otherwise |
| Workflows.ProcessIssueParallel | core/workflows.py:34-73 | an issue that cannot be loaded gives an error dict, and the cache is untouched |
| Workflows.StagePathIsAgentPath | core/workflows.py:40-48 | the stage checks the same file the agent writes |
| Workflows.StageFilesDiffer | core/workflows.py:40-48 | the feasibility and plan stages never share a cache file |
| Workflows.SecondProcessingUsesCache | core/workflows.py:39-68 | after a completed run, processing the issue again contacts nobody and returns the same dict |
| Workflows.StageLeavesTruthyFile | core/workflows.py:39-53 | after a successful stage, its cache file holds the truthy document it returned |
| Workflows.PlanStage | core/workflows.py:83-97 | a falsy plan gives "No plan available", and every answer carries the issue id |
| Workflows.FalsyPlanSkipsExecutor | core/workflows.py:85-86 | with a falsy plan, the executor does not affect the answer |
| Workflows.PrUrlOfResult | core/workflows.py:92-97 | `pr_url` is the result's `pr_url`, or None when the result is falsy; status is `completed` |
| Workflows.ExecuteIssuePlan | core/workflows.py:76-102 | an issue that cannot be loaded gives an error dict, and the cache is untouched |
| Workflows.AgentPlansAreTruthy | agents/agent3_plan.py:26-82 | every plan the plan agent returns is truthy |
| WorkflowCoordinator.SelectIssue | core/workflow_coordinator.py:22-25 | without a truthy number, the first issue is selected; a selection needs a non-empty list |
| WorkflowCoordinator.SelectIssueSpec | core/workflow_coordinator.py:22-25 | a requested number selects the first issue having it; no match, None or 0 selects the first issue |
| WorkflowCoordinator.UnmatchedNumberTakesFirst | core/workflow_coordinator.py:23 | a number no issue has selects the first issue |
| WorkflowCoordinator.PlanLength | core/workflow_coordinator.py:41 | a missing `action_plan` counts 0 steps; `len` fails on None, booleans and numbers |
| WorkflowCoordinator.WorkflowDict | core/workflow_coordinator.py:49-55 | the result has exactly the five keys, in order |
| WorkflowCoordinator.AnalyzePlanExecute | core/workflow_coordinator.py:27-55 | a successful run yields the five-key dict |
| WorkflowCoordinator.RunFullWorkflow | core/workflow_coordinator.py:11-55 | a fetch error propagates before any later agent runs |
| WorkflowCoordinator.NoIssuesStopsEarly | core/workflow_coordinator.py:17-19 | an empty issue list gives `{"error": "No issues found"}` and no later agent runs |
| WorkflowCoordinator.CompletedWorkflowParts | core/workflow_coordinator.py:32-55 | a success carries the analysis, review and execution that agents 2 and 3 produced |
| WorkflowCoordinator.CompletedWorkflowFields | core/workflow_coordinator.py:49-55 | the success dict has status `completed` and carries the selected issue and the execution |
| WorkflowCoordinator.FailedReviewStops | core/workflow_coordinator.py:39-45 | a failed review ends the run before any execution request is made |
| WorkflowCoordinator.OnlyFeasibilityWrites | core/workflow_coordinator.py:32-45 | after the fetch, only the feasibility analysis writes to the cache |
| Text.IntToStringRoundTrip | core/workflows.py:22-30 | `int(str(n)) == n` |

## Left out

- HTTP, authentication, the download of attachments and `json.loads` are parameters or scripted replies. Their real behaviour is outside the model.
- JsonExtract.Fetch: `download_attachment` decodes the body as UTF-8 outside its `except RequestException` (utils/utils.py:23-26), so a non-UTF-8 attachment raises UnicodeDecodeError and aborts the fetch, review or execution that asked for it. The `download` parameter returns text or nothing and cannot express that exception.
- Time is a counter. The model makes no claim about real timing.
- The sleeps are recorded only as clock advances (5 s, 10 s, and min(2^k, 30) s).
- Threads are not modelled. The ThreadPoolExecutor in core/workflows.py:56-61 runs the two stages one after the other, feasibility first. The stages share no state except files they never both write (`Workflows.StageFilesDiffer`).
- Rate limiting is not modelled. `safe_devin_api_call` is not part of this model, and calls through it are treated as direct calls.
- `check_cache`, `save_to_cache` and `get_cache_file_path` are imported from utils.utils but not defined in the modelled files. The model assumes that they:
  - read the stored document, None without a file;
  - overwrite the file;
  - name the file `{category}_{key}_{id}.json` (`CacheKey.CacheFile`).
- A `json.dump` followed by `json.load` is assumed to give the same document back.
- `extract_json_from_session`, `load_issue` and the executor agent are not part of this model. They are parameters.
- `prepare_issue_data`, `wait_for_execution_completion`, `extract_pr_url_from_session` and `get_issue_file_path` are not part of this model.
- Printing is left out. Where a print could raise, the exceptions are kept:
  - the plan display of agents/agent3_file_reviewer.py:86-93 (`FileReviewer.Displayed`);
  - the execution summary at agents/agent3_file_reviewer.py:143-150 (`FileReviewer.ShowChanges`);
  - the `.get` and `len` calls of core/workflow_coordinator.py:27-47.
- `display_session_status` and its emoji table are output only.
- Prompt text is left out, except that `', '.join` of the relevant files in api/issue_analyzer.py:35 raises TypeError on a non-string file.
- The messages of generic exceptions are fixed strings rather than Python's exact wording.
- Floating-point JSON numbers are not modelled; numbers are integers.
- `int()` is modelled only for an optional sign followed by ASCII digits (`Text.ParseInt`). Python also accepts surrounding whitespace and underscores.
- The CLI scripts, the web layer, the config modules and the tests are not part of this model.
- `api/issues_service.py` and `agents/agent4_executor.py` are thin wrappers over helpers that are not part of this model.
- RepositoryScanner.RankRelevantFiles: a `relevance_score` that is a list or a dict raises TypeError whenever two or more files are ranked. Python compares two lists item by item, so a ranking where every score is a list may succeed there. Whether it does depends on which pairs the sort compares, and the model does not follow that.
- RepositoryScanner.TopRelevantFiles: inherits the list-valued score gap of `RankRelevantFiles`.
- RepositoryScanner.ScanRepositoryForRelevantFiles: inherits the list-valued score gap of `RankRelevantFiles`.
- Markers.ExtractAttachmentUrlsFromMessages: messages are typed records with a type and a text. In Python, a message that is not a dict raises AttributeError, and so does a `messages` value whose items are not dicts. A `devin_message` whose `message` is None or a number raises TypeError. The model cannot represent those inputs.
- SessionData.ExtractAttachmentsFromSessionData: inherits the message typing of `ExtractAttachmentUrlsFromMessages`. Only `structured_output` is an arbitrary JSON value, and its TypeErrors are modelled.
- CoreSession.WaitForSessionCompletion: inherits the message typing of `ExtractAttachmentUrlsFromMessages`, so a malformed message never makes the merge raise in the model.
- IssueFetcher.ExtractIssuesFromResult: a session result's `attachments` entries are records whose `uuid` and `name` are optional strings. In Python a non-dict entry raises AttributeError at `attachment.get` (utils/utils.py:110), a truthy non-string `name` raises AttributeError at `name.lower()` (:113), a truthy string or dict `attachments` is iterated as characters or keys and raises AttributeError, and a number raises TypeError. The model cannot represent those inputs.
- JsonExtract.ExtractJsonFromAttachments: shares the entry typing above, so the AttributeError and TypeError cases of utils/utils.py:109-113 are not represented.
- CoreSession.WaitForSessionCompletion: a poll body is a typed snapshot. In Python a body that is not a dict raises AttributeError at `data.get` (core/session_manager.py:127); that is outside the `except RequestException`, so it escapes the loop. The model cannot represent that body.
- Json.PyStr: a list renders as `[...]` and a dict as `{...}` instead of Python's `str` of the contents, so two issues whose `number`s are different lists or dicts share one cache file in the model, while Python names them apart.
- Json.Lookup: returns the first binding of a repeated key, while `json.loads` keeps the last. The objects of the model are taken to have distinct keys.
- Cancel.CancelSession: concurrent cancellation against a running poll is not modelled. The loop is modelled on its own.
- CoreSession.WaitForSessionCompletion: a transport failure of the separate fetch made by `display_live_messages` shows no messages, and the model does not distinguish it further.
- IssueAnalyzer.AnalyzeIssueWithDevinContext: the targeted and full prompts differ only in text, so one path models both.

=== FILE: agent_env.dfy ===
/** What the cache-first agents share: the cache directory as a map from
    file name to stored document, the scripted remote side of one session,
    and the parameters standing for downloads, `json.loads` and
    `extract_json_from_session`. `check_cache`, `save_to_cache` and
    `get_cache_file_path` are imported from utils.utils but not defined in
    the modelled files; the model assumes that they read the stored
    document (None without a file), overwrite the file, and use the name
    `{category}_{key}_{id}.json`. */
module AgentEnv {
  import opened Wrappers
  import opened Json
  import opened SessionData
  import CoreSession
  import CacheKey

  /** The cache directory: file name to the document stored in it. A
      document written with `json.dump` reads back unchanged. */
  type Cache = map<string, Json>

  /** The scripted remote side of one session: the reply to the creation
      request and the replies to the polls. */
  datatype Remote = Remote(create: CoreSession.CreateReply, poll: nat -> CoreSession.PollReply)

  /** Downloading an attachment (`None` on failure), `json.loads` (`None`
      when the text is not JSON), and `extract_json_from_session(result,
      prefix)`, whose definition is not part of this model: it returns a
      document (None is `JNull`) or raises. */
  datatype Services = Services(
    download: (string, string) -> Option<string>,
    parse: string -> Option<Json>,
    fromSession: (Snapshot, string) -> Result<Json, Exc>)

  /** One agent call: what it returned or raised, the cache afterwards, and
      whether it sent a session creation request. */
  datatype AgentRun = AgentRun(result: Result<Json, Exc>, cache: Cache, contacted: bool)

  /** `check_cache(path)`: the stored document, or None without a file. */
  function CheckCache(cache: Cache, path: string): (r: Json)
    ensures path !in cache ==> !Truthy(r)
    ensures Truthy(r) ==> path in cache && cache[path] == r
  {
    if path in cache then cache[path] else JNull
  }

  /** `create_devin_session` followed by `wait_for_session_completion`: the
      snapshot the callers read (the timeout value when the deadline passed);
      a creation error, and an exception raised while the final snapshot's
      attachments are merged, propagate. */
  function RunSession(remote: Remote, timeout: int, showLive: bool): (r: Result<Snapshot, Exc>)
    ensures CoreSession.CreateSession(remote.create).Err? ==> r == Err(CoreSession.CreateSession(remote.create).error)
    ensures CoreSession.CreateSession(remote.create).Ok? ==>
      r == CoreSession.AsSnapshot(CoreSession.WaitForSessionCompletion(remote.poll, timeout, showLive).outcome)
    ensures r.Err? <==> CoreSession.CreateSession(remote.create).Err?
                        || CoreSession.WaitForSessionCompletion(remote.poll, timeout, showLive).outcome.Failed?
  {
    match CoreSession.CreateSession(remote.create)
    case Err(e) => Err(e)
    case Ok(_) => CoreSession.AsSnapshot(CoreSession.WaitForSessionCompletion(remote.poll, timeout, showLive).outcome)
  }

  /** The file a per-issue document is cached in: `issue.get("number",
      "unknown")` rendered with `str`. */
  function IssueDocumentFile(repoUrl: string, category: string, issue: seq<(string, Json)>): string {
    CacheKey.CacheFile(repoUrl, category, PyStr(GetOr(issue, "number", JStr("unknown"))))
  }

  /** The two stamped bindings over a dict's fields. */
  function StampFields(fields: seq<(string, Json)>, number: Json, title: Json): (r: seq<(string, Json)>)
    ensures |r| > 0
    ensures Lookup(r, "issue_number") == Some(number)
    ensures Lookup(r, "issue_title") == Some(title)
    ensures forall k :: k != "issue_number" && k != "issue_title" ==> Lookup(r, k) == Lookup(fields, k)
  {
    var once := Set(fields, "issue_number", number);
    var r := Set(once, "issue_title", title);
    assert Lookup(r, "issue_number") == Lookup(once, "issue_number");
    r
  }

  /** `doc.update({"issue_number": issue.get("number"), "issue_title":
      issue.get("title")})`; only a dict has `update`. */
  function Stamp(doc: Json, issue: seq<(string, Json)>): (r: Result<Json, Exc>)
    ensures r.Ok? <==> doc.JObj?
    ensures r.Err? ==> r.error.kind == AttributeError
    ensures r.Ok? ==> r.value.JObj? && Truthy(r.value)
    ensures r.Ok? ==> Lookup(r.value.fields, "issue_number") == Some(GetOr(issue, "number", JNull))
    ensures r.Ok? ==> Lookup(r.value.fields, "issue_title") == Some(GetOr(issue, "title", JNull))
    ensures r.Ok? ==> forall k :: k != "issue_number" && k != "issue_title" ==>
      Lookup(r.value.fields, k) == Lookup(doc.fields, k)
  {
    if doc.JObj? then Ok(JObj(StampFields(doc.fields, GetOr(issue, "number", JNull), GetOr(issue, "title", JNull))))
    else Err(Exc(AttributeError, "object has no attribute 'update'"))
  }

  /** The cache-first flow shared by the feasibility and plan agents: a
      truthy cached document is returned as it stands; otherwise one session
      runs, the document extracted with `prefix` is stamped with the issue's
      number and title, written to the file that was checked, and returned.
      An exception from the session or the extractor propagates, and so does
      the AttributeError of `.update` on an extracted value that is not a
      dict (None included); then nothing is written. */
  function CachedDocument(cache: Cache, issue: seq<(string, Json)>, repoUrl: string, category: string,
                          prefix: string, timeout: int, remote: Remote, svc: Services): (r: AgentRun)
    ensures !r.contacted ==> r.cache == cache && r.result.Ok?
    ensures r.result.Ok? ==> Truthy(r.result.value)
    ensures r.contacted && r.result.Ok? ==> r.cache == cache[IssueDocumentFile(repoUrl, category, issue) := r.result.value]
    ensures r.cache == cache
         || (r.result.Ok? && r.cache == cache[IssueDocumentFile(repoUrl, category, issue) := r.result.value])
  {
    var path := IssueDocumentFile(repoUrl, category, issue);
    var cached := CheckCache(cache, path);
    if Truthy(cached) then AgentRun(Ok(cached), cache, false)
    else
      match RunSession(remote, timeout, false)
      case Err(e) => AgentRun(Err(e), cache, true)
      case Ok(snap) =>
        match svc.fromSession(snap, prefix)
        case Err(e) => AgentRun(Err(e), cache, true)
        case Ok(extracted) =>
          match Stamp(extracted, issue)
          case Err(e) => AgentRun(Err(e), cache, true)
          case Ok(doc) => AgentRun(Ok(doc), cache[path := doc], true)
  }

  /** A truthy cached document is returned unchanged, with no session
      created and nothing written. */
  lemma CachedDocumentHit(cache: Cache, issue: seq<(string, Json)>, repoUrl: string, category: string,
                          prefix: string, timeout: int, remote: Remote, svc: Services)
    requires IssueDocumentFile(repoUrl, category, issue) in cache
    requires Truthy(cache[IssueDocumentFile(repoUrl, category, issue)])
    ensures CachedDocument(cache, issue, repoUrl, category, prefix, timeout, remote, svc)
         == AgentRun(Ok(cache[IssueDocumentFile(repoUrl, category, issue)]), cache, false)
  {
  }

  /** On a miss, a finished session's document comes back stamped with the
      issue's raw `number` and `title`, and is stored under the path that
      was checked. */
  lemma CachedDocumentMiss(cache: Cache, issue: seq<(string, Json)>, repoUrl: string, category: string,
                           prefix: string, timeout: int, remote: Remote, svc: Services)
    requires !Truthy(CheckCache(cache, IssueDocumentFile(repoUrl, category, issue)))
    ensures var r := CachedDocument(cache, issue, repoUrl, category, prefix, timeout, remote, svc);
      r.contacted
      && (r.result.Ok? ==>
            && r.cache == cache[IssueDocumentFile(repoUrl, category, issue) := r.result.value]
            && r.result.value.JObj?
            && Lookup(r.result.value.fields, "issue_number") == Some(GetOr(issue, "number", JNull))
            && Lookup(r.result.value.fields, "issue_title") == Some(GetOr(issue, "title", JNull)))
  {
  }

  /** An extractor that returns None (or any value that is not a dict)
      after a finished session makes the call raise AttributeError, and
      nothing is written; an extractor that raises passes its exception on. */
  lemma ExtractorFailureWritesNothing(cache: Cache, issue: seq<(string, Json)>, repoUrl: string, category: string,
                                      prefix: string, timeout: int, remote: Remote, svc: Services)
    ensures var r := CachedDocument(cache, issue, repoUrl, category, prefix, timeout, remote, svc);
      !Truthy(CheckCache(cache, IssueDocumentFile(repoUrl, category, issue)))
      && RunSession(remote, timeout, false).Ok? ==>
        var extracted := svc.fromSession(RunSession(remote, timeout, false).value, prefix);
        && (extracted.Err? ==> r == AgentRun(Err(extracted.error), cache, true))
        && (extracted.Ok? && !extracted.value.JObj? ==>
              r.result.Err? && r.result.error.kind == AttributeError && r.cache == cache)
  {
  }

  /** The document is written where it is looked up: a second call right
      after a successful one is a hit and returns the same document, whatever
      the remote side would have done. */
  lemma SecondCallHits(cache: Cache, issue: seq<(string, Json)>, repoUrl: string, category: string,
                       prefix: string, timeout: int, remote1: Remote, remote2: Remote, svc: Services)
    requires CachedDocument(cache, issue, repoUrl, category, prefix, timeout, remote1, svc).result.Ok?
    ensures var r1 := CachedDocument(cache, issue, repoUrl, category, prefix, timeout, remote1, svc);
      CachedDocument(r1.cache, issue, repoUrl, category, prefix, timeout, remote2, svc)
        == AgentRun(r1.result, r1.cache, false)
  {
    var path := IssueDocumentFile(repoUrl, category, issue);
    var r1 := CachedDocument(cache, issue, repoUrl, category, prefix, timeout, remote1, svc);
    assert path in r1.cache && r1.cache[path] == r1.result.value && Truthy(r1.result.value);
  }

  /** An issue without `number` is cached under the id `unknown`, while the
      stamped `issue_number` is None. */
  lemma MissingNumberIsUnknown(cache: Cache, issue: seq<(string, Json)>, repoUrl: string, category: string,
                               prefix: string, timeout: int, remote: Remote, svc: Services)
    requires "number" !in Keys(issue)
    ensures IssueDocumentFile(repoUrl, category, issue) == CacheKey.CacheFile(repoUrl, category, "unknown")
    ensures var r := CachedDocument(cache, issue, repoUrl, category, prefix, timeout, remote, svc);
      r.contacted && r.result.Ok? ==> Lookup(r.result.value.fields, "issue_number") == Some(JNull)
  {
    var path := IssueDocumentFile(repoUrl, category, issue);
    if !Truthy(CheckCache(cache, path)) {
      CachedDocumentMiss(cache, issue, repoUrl, category, prefix, timeout, remote, svc);
      assert GetOr(issue, "number", JNull) == JNull;
    }
  }
}

=== FILE: api_session.dfy ===
/** The asynchronous session manager of the web API: session creation and a
    polling loop with exponential backoff that ends only on `blocked` or
    `stopped` and raises on timeout. Each request is a scripted reply: the
    time it takes and the decoded JSON body, or the exception the request
    or the decoding raised. */
module ApiSession {
  import opened Wrappers
  import opened Json
  import Text
  import CoreSession
  import SessionData

  /** The body of `POST /sessions`: `prompt`, and `repository_url` when the
      argument is truthy. */
  function CreatePayload(prompt: string, repoUrl: Option<string>): (p: Json)
    ensures p.JObj?
    ensures Lookup(p.fields, "prompt") == Some(JStr(prompt))
    ensures CoreSession.Given(repoUrl) <==> "repository_url" in Keys(p.fields)
    ensures CoreSession.Given(repoUrl) ==> Lookup(p.fields, "repository_url") == Some(JStr(repoUrl.value))
    ensures |p.fields| == if CoreSession.Given(repoUrl) then 2 else 1
  {
    var withPrompt := [("prompt", JStr(prompt))];
    JObj(if CoreSession.Given(repoUrl) then Set(withPrompt, "repository_url", JStr(repoUrl.value)) else withPrompt)
  }

  /** `create_devin_session`: the reply's `session_id`; a reply without it,
      or without `url` (read for the log line), raises KeyError, and a
      failed request or decoding propagates. */
  function CreateDevinSession(reply: Result<Json, Exc>): (r: Result<Json, Exc>)
    ensures r.Ok? <==> reply.Ok? && reply.value.JObj?
                       && "session_id" in Keys(reply.value.fields) && "url" in Keys(reply.value.fields)
    ensures r.Ok? ==> Lookup(reply.value.fields, "session_id") == Some(r.value)
    ensures reply.Err? ==> r == reply
    ensures reply.Ok? && reply.value.JObj? && r.Err? ==> r.error.kind == KeyError
  {
    match reply
    case Err(e) => Err(e)
    case Ok(body) =>
      match PySubscript(body, "session_id")
      case Err(e) => Err(e)
      case Ok(id) =>
        match PySubscript(body, "url")
        case Err(e) => Err(e)
        case Ok(_) => Ok(id)
  }

  // ---------------------------------------------------------------------
  // The polling loop

  const MAX_BACKOFF: nat := 30

  /** `2 ** k`, the backoff before the cap. */
  function Pow2(k: nat): (p: nat)
    ensures p >= 1
    ensures k > 0 ==> p == 2 * Pow2(k - 1)
  {
    if k == 0 then 1 else Pow2(k - 1) + Pow2(k - 1)
  }

  /** The sleep after the `k`-th non-terminal poll: `min(backoff, 30)` with
      `backoff` doubling from 1. */
  function SleepAfter(k: nat): (t: nat)
    ensures 1 <= t <= MAX_BACKOFF
  {
    if Pow2(k) < MAX_BACKOFF then Pow2(k) else MAX_BACKOFF
  }

  /** The sleeps are 1, 2, 4, 8, 16 and then 30 for ever: they never
      decrease and never exceed 30 s. */
  lemma {:induction false} BackoffGrowsThenCaps(k: nat)
    ensures SleepAfter(k) <= SleepAfter(k + 1)
    ensures k < 5 ==> SleepAfter(k) == Pow2(k) == [1, 2, 4, 8, 16][k]
    ensures k >= 5 ==> SleepAfter(k) == MAX_BACKOFF
  {
    Pow2Grows(k);
    if k >= 5 {
      Pow2AtLeast32(k);
    } else {
      assert Pow2(k) <= 16 by {
        assert Pow2(0) == 1 && Pow2(1) == 2 && Pow2(2) == 4 && Pow2(3) == 8 && Pow2(4) == 16;
      }
    }
  }

  lemma Pow2Grows(k: nat)
    ensures Pow2(k) <= Pow2(k + 1)
  {
  }

  lemma {:induction false} Pow2AtLeast32(k: nat)
    requires k >= 5
    ensures Pow2(k) >= 32
  {
    if k > 5 {
      Pow2AtLeast32(k - 1);
    }
  }

  /** One scripted `GET /session/{id}`. */
  datatype ApiPollReply = ApiPollReply(latency: nat, body: Result<Json, Exc>)

  /** What one iteration does with its reply. */
  datatype Step = Continue | Finish(data: Json) | Raise(e: Exc)

  /** `response_json["status_enum"] in ["blocked", "stopped"]`, with the
      exceptions of the request, of the decoding and of the subscript
      propagating. */
  function ApiStep(reply: ApiPollReply): Step {
    match reply.body
    case Err(e) => Raise(e)
    case Ok(body) =>
      match PySubscript(body, "status_enum")
      case Err(e) => Raise(e)
      case Ok(status) => if status == JStr("blocked") || status == JStr("stopped") then Finish(body) else Continue
  }

  /** An iteration returns exactly the bodies whose `status_enum` is the
      string `blocked` or `stopped`, and raises exactly when the request
      failed or the body has no `status_enum` to subscript. */
  lemma ApiStepCases(reply: ApiPollReply)
    ensures ApiStep(reply).Finish? <==>
      (reply.body.Ok? && reply.body.value.JObj?
       && Lookup(reply.body.value.fields, "status_enum") in {Some(JStr("blocked")), Some(JStr("stopped"))})
    ensures ApiStep(reply).Finish? ==> reply.body == Ok(ApiStep(reply).data)
    ensures ApiStep(reply).Raise? <==>
      (reply.body.Err? || !reply.body.value.JObj? || "status_enum" !in Keys(reply.body.value.fields))
  {
  }

  /** What each poll of a script does, and how long each takes. */
  function Steps(poll: nat -> ApiPollReply): nat -> Step {
    (j: nat) => ApiStep(poll(j))
  }

  function Latencies(poll: nat -> ApiPollReply): nat -> nat {
    (j: nat) => poll(j).latency
  }

  /** The loop state at the deadline check before poll `k`: the clock
      (seconds since the start) and the backoff. */
  datatype Sched = Sched(clock: nat, backoff: nat)

  /** `min(backoff, 30)`. */
  function Capped(backoff: nat): nat {
    if backoff < MAX_BACKOFF then backoff else MAX_BACKOFF
  }

  /** The loop state before poll `k` when every earlier poll continued. */
  function Schedule(latency: nat -> nat, k: nat): (s: Sched)
    ensures s.backoff >= 1
  {
    if k == 0 then Sched(0, 1)
    else
      var p := Schedule(latency, k - 1);
      Sched(p.clock + latency(k - 1) + Capped(p.backoff), p.backoff * 2)
  }

  /** The clock at the deadline check before poll `k`. */
  function ApiClockAt(latency: nat -> nat, k: nat): nat {
    Schedule(latency, k).clock
  }

  /** The backoff before poll `k` is 2^k, so the sleep after poll `k` is
      `min(2^k, 30)`. */
  lemma {:induction false} ScheduleBackoff(latency: nat -> nat, k: nat)
    ensures Schedule(latency, k).backoff == Pow2(k)
    ensures k > 0 ==> ApiClockAt(latency, k) == ApiClockAt(latency, k - 1) + latency(k - 1) + SleepAfter(k - 1)
  {
    if k > 0 {
      ScheduleBackoff(latency, k - 1);
    }
  }

  /** The exception raised when the deadline passes. */
  function TimeoutError(sessionId: string, timeout: int): Exc {
    Exc(GenericException, "Session " + sessionId + " timed out after " + Text.IntToString(timeout) + " seconds")
  }

  /** None of the polls `k .. n-1` ends the loop. */
  predicate NoEndBetween(step: nat -> Step, k: nat, n: nat)
    decreases n - k
  {
    k >= n || (step(k).Continue? && NoEndBetween(step, k + 1, n))
  }

  lemma {:induction false} NoEndBetweenMeans(step: nat -> Step, k: nat, n: nat)
    ensures NoEndBetween(step, k, n) <==> forall j :: k <= j < n ==> step(j).Continue?
    decreases n - k
  {
    if k < n {
      NoEndBetweenMeans(step, k + 1, n);
    }
  }

  /** Where the loop stops: after `polls` polls, because the last of them
      returned or raised (`!timedOut`) or because the deadline check before
      the next one failed; `clock` is the time it stopped. */
  datatype LoopEnd = LoopEnd(polls: nat, timedOut: bool, clock: nat)

  /** The `while True` loop from poll `k` on, at time `now` and with the
      current `backoff`: check the deadline, poll, stop unless the poll
      continues, sleep `min(backoff, 30)`, double the backoff. */
  function ApiWaitFrom(step: nat -> Step, latency: nat -> nat, timeout: int, k: nat, now: nat, backoff: nat): (e: LoopEnd)
    requires backoff >= 1
    ensures e.polls >= k
    ensures e.timedOut ==> e.clock > timeout && NoEndBetween(step, k, e.polls)
    ensures !e.timedOut ==> e.polls > k && NoEndBetween(step, k, e.polls - 1) && !step(e.polls - 1).Continue?
    decreases timeout - now
  {
    if now > timeout then LoopEnd(k, true, now)
    else if !step(k).Continue? then LoopEnd(k + 1, false, now + latency(k))
    else ApiWaitFrom(step, latency, timeout, k + 1, now + latency(k) + Capped(backoff), backoff * 2)
  }

  /** The loop's clock follows the schedule: started at poll `k` in the
      scheduled state, every poll it makes was checked against the
      deadline, and a timeout is raised at the first check past it. */
  lemma DeadlineChecksFollowSchedule(step: nat -> Step, latency: nat -> nat, timeout: int, k: nat)
    ensures var e := ApiWaitFrom(step, latency, timeout, k, Schedule(latency, k).clock, Schedule(latency, k).backoff);
      && (e.polls > k ==> ApiClockAt(latency, e.polls - 1) <= timeout)
      && (e.timedOut ==> e.clock == ApiClockAt(latency, e.polls))
  {
    PollsWereInTime(step, latency, timeout, k);
    TimeoutAtScheduledCheck(step, latency, timeout, k);
  }

  /** Every poll made from poll `k` on passed its deadline check. */
  lemma {:induction false} PollsWereInTime(step: nat -> Step, latency: nat -> nat, timeout: int, k: nat)
    ensures var e := ApiWaitFrom(step, latency, timeout, k, Schedule(latency, k).clock, Schedule(latency, k).backoff);
      e.polls > k ==> ApiClockAt(latency, e.polls - 1) <= timeout
    decreases timeout - Schedule(latency, k).clock
  {
    var s := Schedule(latency, k);
    if s.clock <= timeout && step(k).Continue? {
      ContinueFollowsSchedule(step, latency, timeout, k);
      PollsWereInTime(step, latency, timeout, k + 1);
    }
  }

  /** A timeout is raised at the scheduled check of the poll not made. */
  lemma {:induction false} TimeoutAtScheduledCheck(step: nat -> Step, latency: nat -> nat, timeout: int, k: nat)
    ensures var e := ApiWaitFrom(step, latency, timeout, k, Schedule(latency, k).clock, Schedule(latency, k).backoff);
      e.timedOut ==> e.clock == ApiClockAt(latency, e.polls)
    decreases timeout - Schedule(latency, k).clock
  {
    var s := Schedule(latency, k);
    if s.clock <= timeout && step(k).Continue? {
      ContinueFollowsSchedule(step, latency, timeout, k);
      TimeoutAtScheduledCheck(step, latency, timeout, k + 1);
    }
  }

  /** A poll that asks to continue, made in time, hands the loop on to
      poll `k + 1` in the next scheduled state. */
  lemma ContinueFollowsSchedule(step: nat -> Step, latency: nat -> nat, timeout: int, k: nat)
    requires Schedule(latency, k).clock <= timeout && step(k).Continue?
    ensures Schedule(latency, k + 1).clock > Schedule(latency, k).clock
    ensures ApiWaitFrom(step, latency, timeout, k, Schedule(latency, k).clock, Schedule(latency, k).backoff)
         == ApiWaitFrom(step, latency, timeout, k + 1, Schedule(latency, k + 1).clock, Schedule(latency, k + 1).backoff)
  {
    var s := Schedule(latency, k);
    assert Schedule(latency, k + 1) == Sched(s.clock + latency(k) + Capped(s.backoff), s.backoff * 2);
  }

  /** The result of `wait_for_session_completion`, the number of polls
      made and whether it ended by the deadline. */
  datatype ApiWaitRun = ApiWaitRun(result: Result<Json, Exc>, polls: nat, timedOut: bool)

  /** `wait_for_session_completion(session, session_id, timeout)`: the first
      body whose status is `blocked` or `stopped`; the first request,
      decoding or subscript failure is raised; past the deadline the
      timeout exception is raised. */
  function WaitForSessionCompletion(poll: nat -> ApiPollReply, sessionId: string, timeout: int): (r: ApiWaitRun)
    ensures r.polls > 0 ==> ApiClockAt(Latencies(poll), r.polls - 1) <= timeout
    ensures r.timedOut ==> ApiClockAt(Latencies(poll), r.polls) > timeout
    ensures r.timedOut ==> r.result == Err(TimeoutError(sessionId, timeout))
    ensures r.timedOut ==> forall j :: 0 <= j < r.polls ==> ApiStep(poll(j)).Continue?
    ensures !r.timedOut ==> r.polls > 0 && forall j :: 0 <= j < r.polls - 1 ==> ApiStep(poll(j)).Continue?
    ensures !r.timedOut ==> match ApiStep(poll(r.polls - 1))
                            case Finish(data) => r.result == Ok(data)
                            case Raise(e) => r.result == Err(e)
                            case Continue => false
  {
    var e := ApiWaitFrom(Steps(poll), Latencies(poll), timeout, 0, 0, 1);
    LoopFromStart(poll, timeout);
    if e.timedOut then ApiWaitRun(Err(TimeoutError(sessionId, timeout)), e.polls, true)
    else
      match ApiStep(poll(e.polls - 1))
      case Finish(data) => ApiWaitRun(Ok(data), e.polls, false)
      case Raise(err) => ApiWaitRun(Err(err), e.polls, false)
  }

  /** The loop started at time 0 with backoff 1, read per poll. */
  lemma LoopFromStart(poll: nat -> ApiPollReply, timeout: int)
    ensures var e := ApiWaitFrom(Steps(poll), Latencies(poll), timeout, 0, 0, 1);
      && (e.polls > 0 ==> ApiClockAt(Latencies(poll), e.polls - 1) <= timeout)
      && (e.timedOut ==> ApiClockAt(Latencies(poll), e.polls) > timeout)
      && (e.timedOut ==> forall j :: 0 <= j < e.polls ==> ApiStep(poll(j)).Continue?)
      && (!e.timedOut ==> e.polls > 0 && !ApiStep(poll(e.polls - 1)).Continue?)
      && (!e.timedOut ==> forall j :: 0 <= j < e.polls - 1 ==> ApiStep(poll(j)).Continue?)
  {
    var step := Steps(poll);
    var e := ApiWaitFrom(step, Latencies(poll), timeout, 0, 0, 1);
    assert forall j: nat :: step(j) == ApiStep(poll(j));
    DeadlineChecksFollowSchedule(step, Latencies(poll), timeout, 0);
    NoEndBetweenMeans(step, 0, e.polls);
    NoEndBetweenMeans(step, 0, if e.polls > 0 then e.polls - 1 else 0);
  }

  /** A body carrying `status_enum`. */
  function StatusBody(status: string): Json {
    JObj([("status_enum", JStr(status))])
  }

  /** Unlike the synchronous poller, this one does not treat `completed`
      (or `failed`) as final: a session that reports `completed` on every
      poll makes the synchronous loop return after one poll and this loop
      raise its timeout. */
  lemma CompletedOnlyEndsTheSynchronousPoller(poll: nat -> ApiPollReply, corePoll: nat -> CoreSession.PollReply,
                                             sessionId: string, timeout: int, data: SessionData.Snapshot)
    requires timeout >= 0
    requires forall j :: poll(j).body == Ok(StatusBody("completed"))
    requires data.statusEnum == Some("completed")
    requires forall j :: corePoll(j).response == CoreSession.Body(data)
    ensures CoreSession.WaitForSessionCompletion(corePoll, timeout, false).polls == 1
    ensures WaitForSessionCompletion(poll, sessionId, timeout).timedOut
    ensures WaitForSessionCompletion(poll, sessionId, timeout).result == Err(TimeoutError(sessionId, timeout))
  {
    CoreSession.ReturnsAfterFirstTerminalPoll(corePoll, timeout, false, 0);
    forall j: nat
      ensures ApiStep(poll(j)) == Continue
    {
      assert PySubscript(StatusBody("completed"), "status_enum") == Ok(JStr("completed"));
    }
  }
}

=== FILE: cache_key.dfy ===
/** The repository-URL normaliser used to name cache entries
    (`get_cache_key`) and the cache file names built from it. */
module CacheKey {
  import Text

  const GITHUB_PREFIX: string := "https://github.com/"

  /** `repo_url.replace("https://github.com/", "").replace("/", "_")`. */
  function GetCacheKey(repoUrl: string): (key: string)
    ensures '/' !in key
  {
    var stripped := Text.ReplaceAll(repoUrl, GITHUB_PREFIX, "");
    Text.ReplaceCharRemovesIt(stripped, '/', '_');
    Text.ReplaceAll(stripped, "/", "_")
  }

  /** Normalising a key again changes nothing. */
  lemma GetCacheKeyIdempotent(repoUrl: string)
    ensures GetCacheKey(GetCacheKey(repoUrl)) == GetCacheKey(repoUrl)
  {
    var key := GetCacheKey(repoUrl);
    assert GITHUB_PREFIX[6] == '/';
    Text.ReplaceAbsentIsIdentity(key, GITHUB_PREFIX, "", '/');
    Text.ReplaceAbsentIsIdentity(key, "/", "_", '/');
  }

  /** The canonical GitHub URL of `owner/repo` maps to `owner_repo`. */
  lemma GetCacheKeyOfGithubUrl(owner: string, repo: string)
    requires '/' !in owner && '/' !in repo
    ensures GetCacheKey(GITHUB_PREFIX + owner + "/" + repo) == owner + "_" + repo
  {
    var rest := owner + "/" + repo;
    assert GITHUB_PREFIX + owner + "/" + repo == GITHUB_PREFIX + rest;
    StripLeadingPrefix(rest);
    NoDoubleSlash(owner, repo);
    ReplaceWithoutOccurrence(rest, GITHUB_PREFIX, "");
    SlashToUnderscore(owner, repo);
  }

  lemma StripLeadingPrefix(rest: string)
    ensures Text.ReplaceAll(GITHUB_PREFIX + rest, GITHUB_PREFIX, "")
         == Text.ReplaceAll(rest, GITHUB_PREFIX, "")
  {
    var url := GITHUB_PREFIX + rest;
    assert url[..|GITHUB_PREFIX|] == GITHUB_PREFIX;
    assert url[|GITHUB_PREFIX|..] == rest;
  }

  lemma SlashToUnderscore(owner: string, repo: string)
    requires '/' !in owner && '/' !in repo
    ensures Text.ReplaceAll(owner + "/" + repo, "/", "_") == owner + "_" + repo
  {
    var tail := "/" + repo;
    assert owner + "/" + repo == owner + tail;
    Text.ReplaceCharAppend(owner, tail, '/', "_");
    Text.ReplaceAbsentIsIdentity(owner, "/", "_", '/');
    assert Text.StartsWith(tail, "/");
    assert tail[1..] == repo;
    Text.ReplaceAbsentIsIdentity(repo, "/", "_", '/');
    assert Text.ReplaceAll(tail, "/", "_") == "_" + repo;
  }

  /** `owner/repo` never contains the prefix, whose "//" it lacks. */
  lemma NoDoubleSlash(owner: string, repo: string)
    requires '/' !in owner && '/' !in repo
    ensures forall i :: !Text.OccursAt(owner + "/" + repo, GITHUB_PREFIX, i)
  {
    var rest := owner + "/" + repo;
    forall j | 0 <= j < |rest|
      ensures rest[j] == '/' ==> j == |owner|
    {
      if j < |owner| {
        assert rest[j] == owner[j];
      } else if j > |owner| {
        assert rest[j] == repo[j - |owner| - 1];
      }
    }
    forall i
      ensures !Text.OccursAt(rest, GITHUB_PREFIX, i)
    {
      if 0 <= i <= |rest| - |GITHUB_PREFIX| {
        var w := rest[i..i + |GITHUB_PREFIX|];
        assert w[6] == rest[i + 6] && w[7] == rest[i + 7];
        assert rest[i + 6] != '/' || rest[i + 7] != '/';
        assert GITHUB_PREFIX[6] == '/' && GITHUB_PREFIX[7] == '/';
      }
    }
  }

  /** Replacement leaves a string without any occurrence of the pattern unchanged. */
  lemma {:induction false} ReplaceWithoutOccurrence(s: string, pat: string, rep: string)
    requires |pat| > 0
    requires forall i :: !Text.OccursAt(s, pat, i)
    ensures Text.ReplaceAll(s, pat, rep) == s
    decreases |s|
  {
    if |s| > 0 {
      assert !Text.OccursAt(s, pat, 0);
      forall i | Text.OccursAt(s[1..], pat, i)
        ensures false
      {
        assert s[1..][i..i + |pat|] == s[i + 1..i + 1 + |pat|];
        assert Text.OccursAt(s, pat, i + 1);
      }
      ReplaceWithoutOccurrence(s[1..], pat, rep);
      assert s == [s[0]] + s[1..];
    }
  }

  /** The agent-1 cache file for a repository (`issues_{key}.json`). */
  function IssuesCacheFile(repoUrl: string): (path: string)
    ensures Text.StartsWith(path, "issues_") && Text.EndsWith(path, ".json")
    ensures |path| >= 12 && path[7..|path| - 5] == GetCacheKey(repoUrl)
  {
    "issues_" + GetCacheKey(repoUrl) + ".json"
  }

  /** The per-issue cache file `{category}_{key}_{subId}.json`: the name
      this model assumes for `get_cache_file_path`, which is imported but
      not defined in the modelled files. */
  function CacheFile(repoUrl: string, category: string, subId: string): (path: string)
    ensures Text.StartsWith(path, category + "_") && Text.EndsWith(path, ".json")
  {
    category + "_" + GetCacheKey(repoUrl) + "_" + subId + ".json"
  }
}

=== FILE: cancel.dfy ===
/** `cancel_session`: send the stop message up to `max_attempts` times,
    sleeping 10 s after every failed attempt, whether the send returned
    False or raised. */
module Cancel {
  import opened Wrappers
  import opened CoreSession

  const RETRY_SLEEP: nat := 10

  /** Whether the send of attempt `k` reported success. */
  predicate Delivered(o: SendOutcome) {
    SendSessionMessage(o) == Ok(true)
  }

  /** The result, the number of sends made and the seconds slept. */
  datatype CancelRun = CancelRun(success: bool, attempts: nat, slept: nat)

  function CancelFrom(maxAttempts: int, send: nat -> SendOutcome, k: nat, slept: nat): (r: CancelRun)
    ensures r.attempts >= k
    ensures r.success ==> k < r.attempts <= maxAttempts && Delivered(send(r.attempts - 1))
    ensures r.success ==> forall j :: k <= j < r.attempts - 1 ==> !Delivered(send(j))
    ensures !r.success ==> r.attempts == if maxAttempts > k then maxAttempts else k
    ensures !r.success ==> forall j :: k <= j < maxAttempts ==> !Delivered(send(j))
    ensures r.slept == slept + RETRY_SLEEP * (r.attempts - k - (if r.success then 1 else 0))
    decreases maxAttempts - k
  {
    if k >= maxAttempts then CancelRun(false, k, slept)
    else if Delivered(send(k)) then CancelRun(true, k + 1, slept)
    else CancelFrom(maxAttempts, send, k + 1, slept + RETRY_SLEEP)
  }

  /** `cancel_session(session_id, max_attempts)`. */
  function CancelSession(maxAttempts: int, send: nat -> SendOutcome): (r: CancelRun)
    ensures r.success <==> exists j :: 0 <= j < maxAttempts && Delivered(send(j))
    ensures r.success ==> 0 < r.attempts <= maxAttempts && Delivered(send(r.attempts - 1))
    ensures r.success ==> forall j :: 0 <= j < r.attempts - 1 ==> !Delivered(send(j))
    ensures !r.success ==> r.attempts == if maxAttempts > 0 then maxAttempts else 0
    ensures r.slept == RETRY_SLEEP * (r.attempts - (if r.success then 1 else 0))
  {
    var r := CancelFrom(maxAttempts, send, 0, 0);
    assert r.success ==> Delivered(send(r.attempts - 1));
    r
  }

  /** Returning False and raising are handled alike: two scripts that agree
      on which attempts succeed give the same result. */
  lemma FailuresAreInterchangeable(maxAttempts: int, send1: nat -> SendOutcome, send2: nat -> SendOutcome)
    requires forall j :: Delivered(send1(j)) <==> Delivered(send2(j))
    ensures CancelSession(maxAttempts, send1) == CancelSession(maxAttempts, send2)
  {
  }

  /** With no attempts allowed, nothing is sent and the result is False. */
  lemma NoAttemptsNoSend(maxAttempts: int, send: nat -> SendOutcome)
    requires maxAttempts <= 0
    ensures CancelSession(maxAttempts, send) == CancelRun(false, 0, 0)
  {
  }
}

=== FILE: coordinator.dfy ===
/** `WorkflowCoordinator.run_full_workflow`: agent 1 fetches the issues,
    one issue is selected, agent 2 analyses it, agent 3 plans from the
    analysis and then executes the plan in the same session. The progress
    lines are printed only; the ones that call `.get` or `len` are kept for
    the exceptions they raise. */
module WorkflowCoordinator {
  import opened Wrappers
  import opened Json
  import opened AgentEnv
  import CoreSession
  import IssueFetcher
  import FeasibilityAnalyzer
  import FileReviewer

  /** The answer when agent 1 finds nothing. */
  const NO_ISSUES: Json := JObj([("error", JStr("No issues found"))])

  /** The keys of a completed workflow's dict, in order. */
  const WORKFLOW_KEYS: seq<string> := ["status", "selected_issue", "analysis", "review", "execution"]

  /** `if issue_number:` for an `int = None` parameter. */
  predicate Requested(issueNumber: Option<int>) {
    issueNumber.Some? && issueNumber.value != 0
  }

  /** The selection step. With a requested number, `next((issue for issue
      in issues if issue.get('number') == issue_number), issues[0])` first
      iterates `issues` (creating the generator), then evaluates the default
      `issues[0]`, then searches; without one, `issues[0]`. */
  function SelectIssue(issues: Json, issueNumber: Option<int>): (r: Result<Json, Exc>)
    ensures !Requested(issueNumber) ==> r == PyIndex0(issues)
    ensures r.Ok? ==> Truthy(issues)
  {
    if !Requested(issueNumber) then PyIndex0(issues)
    else
      match PyIter(issues)
      case Err(e) => Err(e)
      case Ok(items) =>
        match PyIndex0(issues)
        case Err(e) => Err(e)
        case Ok(first) =>
          match IssueFetcher.FirstWithNumber(items, issueNumber.value)
          case Err(e) => Err(e)
          case Ok(None) => Ok(first)
          case Ok(Some(issue)) => Ok(issue)
  }

  /** On a non-empty list: without a requested number the first issue is
      taken; with one, the first dict whose `number` equals it, and the first
      issue when no entry matches. */
  lemma SelectIssueSpec(items: seq<Json>, issueNumber: Option<int>)
    requires |items| > 0
    ensures !Requested(issueNumber) ==> SelectIssue(JArr(items), issueNumber) == Ok(items[0])
    ensures Requested(issueNumber) && IssueFetcher.FirstWithNumber(items, issueNumber.value) == Ok(None) ==>
      SelectIssue(JArr(items), issueNumber) == Ok(items[0])
    ensures Requested(issueNumber) && IssueFetcher.FirstWithNumber(items, issueNumber.value).Ok?
            && IssueFetcher.FirstWithNumber(items, issueNumber.value).value.Some? ==>
      SelectIssue(JArr(items), issueNumber).Ok?
      && exists i :: 0 <= i < |items| && items[i] == SelectIssue(JArr(items), issueNumber).value
                     && items[i].JObj? && IssueFetcher.HasNumber(items[i], issueNumber.value)
                     && forall k :: 0 <= k < i ==> items[k].JObj? && !IssueFetcher.HasNumber(items[k], issueNumber.value)
  {
    if Requested(issueNumber) && IssueFetcher.FirstWithNumber(items, issueNumber.value).Ok?
       && IssueFetcher.FirstWithNumber(items, issueNumber.value).value.Some? {
      IssueFetcher.FirstWithNumberIsFirst(items, issueNumber.value);
    }
  }

  /** A list of issue dicts none of which carries the requested number
      falls back to its first issue. */
  lemma UnmatchedNumberTakesFirst(items: seq<Json>, n: int)
    requires |items| > 0 && n != 0
    requires forall i :: 0 <= i < |items| ==> items[i].JObj? && !IssueFetcher.HasNumber(items[i], n)
    ensures SelectIssue(JArr(items), Some(n)) == Ok(items[0])
  {
    SelectIssueSpec(items, Some(n));
  }

  /** `len(review.get('action_plan', []))`: `.get` needs a dict and `len`
      a string, list or dict. */
  function PlanLength(review: Json): (r: Result<nat, Exc>)
    ensures r.Ok? <==> review.JObj? && !GetOr(review.fields, "action_plan", JArr([])).JNull?
                       && !GetOr(review.fields, "action_plan", JArr([])).JBool?
                       && !GetOr(review.fields, "action_plan", JArr([])).JInt?
    ensures review.JObj? && "action_plan" !in Keys(review.fields) ==> r == Ok(0)
  {
    match PyGet(review, "action_plan", JArr([]))
    case Err(e) => Err(e)
    case Ok(plan) =>
      match plan
      case JArr(items) => Ok(|items|)
      case JObj(fields) => Ok(|fields|)
      case JStr(s) => Ok(|s|)
      case _ => Err(Exc(TypeError, "object has no len()"))
  }

  function WorkflowValues(selected: Json, analysis: Json, review: Json, execution: Json): seq<Json> {
    [JStr("completed"), selected, analysis, review, execution]
  }

  /** The dict of a completed workflow. */
  function WorkflowDict(selected: Json, analysis: Json, review: Json, execution: Json): (r: Json)
    ensures r.JObj? && Keys(r.fields) == WORKFLOW_KEYS
  {
    JObj(Zip(WORKFLOW_KEYS, WorkflowValues(selected, analysis, review, execution)))
  }

  lemma WorkflowKeysDistinct()
    ensures forall i, j :: 0 <= i < j < |WORKFLOW_KEYS| ==> WORKFLOW_KEYS[i] != WORKFLOW_KEYS[j]
  {
    var ks := WORKFLOW_KEYS;
    assert |ks[0]| == 6 && |ks[1]| == 14 && |ks[2]| == 8 && |ks[3]| == 6 && |ks[4]| == 9;
    assert ks[0][0] != ks[3][0];
  }

  /** Each key of a completed workflow's dict is bound to its part: the
      text `completed`, the selected issue, the analysis, the plan and the
      execution result. */
  lemma WorkflowField(selected: Json, analysis: Json, review: Json, execution: Json, i: nat)
    requires i < |WORKFLOW_KEYS|
    ensures Lookup(WorkflowDict(selected, analysis, review, execution).fields, WORKFLOW_KEYS[i])
         == Some(WorkflowValues(selected, analysis, review, execution)[i])
  {
    WorkflowKeysDistinct();
    LookupZip(WORKFLOW_KEYS, WorkflowValues(selected, analysis, review, execution), i);
  }

  /** The remote sides of the three sessions the workflow may open, and the
      replies of the execution step. */
  datatype Remotes = Remotes(fetch: Remote, feasibility: Remote, review: Remote,
                             send: CoreSession.SendOutcome, executionPoll: nat -> CoreSession.PollReply)

  /** What the workflow returned or raised, and the cache afterwards. */
  datatype WorkflowRun = WorkflowRun(result: Result<Json, Exc>, cache: Cache)

  /** Steps 3 to 5 once an issue is selected: the feasibility analysis, the
      plan from a fresh agent 3, and its execution. */
  function AnalyzePlanExecute(cache: Cache, repoUrl: string, selected: Json, remotes: Remotes, svc: Services): (r: WorkflowRun)
    ensures r.result.Ok? ==> r.result.value.JObj? && Keys(r.result.value.fields) == WORKFLOW_KEYS
  {
    var a := FeasibilityAnalyzer.AnalyzeIssueFeasibility(cache, selected, repoUrl, remotes.feasibility, svc);
    match a.result
    case Err(e) => WorkflowRun(Err(e), a.cache)
    case Ok(analysis) =>
      match PyGet(analysis, "feasibility_score", JInt(0))
      case Err(e) => WorkflowRun(Err(e), a.cache)
      case Ok(_) =>
        var rv := FileReviewer.ReviewFilesAndPlan(FileReviewer.NEW_REVIEWER, analysis, remotes.review, svc);
        match rv.result
        case Err(e) => WorkflowRun(Err(e), a.cache)
        case Ok(review) =>
          match PlanLength(review)
          case Err(e) => WorkflowRun(Err(e), a.cache)
          case Ok(_) =>
            match FileReviewer.ExecuteChanges(rv.reviewer, remotes.send, remotes.executionPoll, svc)
            case Err(e) => WorkflowRun(Err(e), a.cache)
            case Ok(execution) =>
              match PyGet(execution, "status", JStr("unknown"))
              case Err(e) => WorkflowRun(Err(e), a.cache)
              case Ok(_) => WorkflowRun(Ok(WorkflowDict(selected, analysis, review, execution)), a.cache)
  }

  /** `run_full_workflow(repo_url, issue_number)`. */
  function RunFullWorkflow(cache: Cache, repoUrl: string, issueNumber: Option<int>, remotes: Remotes,
                           svc: Services): (r: WorkflowRun)
    ensures IssueFetcher.FetchAndCacheIssues(cache, repoUrl, remotes.fetch, svc).result.Err? ==>
      r == WorkflowRun(Err(IssueFetcher.FetchAndCacheIssues(cache, repoUrl, remotes.fetch, svc).result.error),
                       IssueFetcher.FetchAndCacheIssues(cache, repoUrl, remotes.fetch, svc).cache)
  {
    var fetched := IssueFetcher.FetchAndCacheIssues(cache, repoUrl, remotes.fetch, svc);
    match fetched.result
    case Err(e) => WorkflowRun(Err(e), fetched.cache)
    case Ok(issues) =>
      if !Truthy(issues) then WorkflowRun(Ok(NO_ISSUES), fetched.cache)
      else
        match SelectIssue(issues, issueNumber)
        case Err(e) => WorkflowRun(Err(e), fetched.cache)
        case Ok(selected) =>
          match PyGet(selected, "number", JNull)
          case Err(e) => WorkflowRun(Err(e), fetched.cache)
          case Ok(_) => AnalyzePlanExecute(fetched.cache, repoUrl, selected, remotes, svc)
  }

  /** An empty issue list stops the workflow before any other agent runs:
      whatever the later sessions would do, the answer is "No issues found"
      and only agent 1's file may have been written. */
  lemma NoIssuesStopsEarly(cache: Cache, repoUrl: string, issueNumber: Option<int>, remotes: Remotes,
                           svc: Services)
    requires IssueFetcher.FetchAndCacheIssues(cache, repoUrl, remotes.fetch, svc).result.Ok?
    requires !Truthy(IssueFetcher.FetchAndCacheIssues(cache, repoUrl, remotes.fetch, svc).result.value)
    ensures RunFullWorkflow(cache, repoUrl, issueNumber, remotes, svc)
         == WorkflowRun(Ok(NO_ISSUES), IssueFetcher.FetchAndCacheIssues(cache, repoUrl, remotes.fetch, svc).cache)
  {
  }

  /** A completed workflow answers with status `completed`, the selected
      issue, agent 2's analysis of it, the plan of the review session, and
      the result of executing that plan in the same session. */
  lemma CompletedWorkflowParts(cache: Cache, repoUrl: string, selected: Json, remotes: Remotes, svc: Services)
    ensures AnalyzePlanExecute(cache, repoUrl, selected, remotes, svc).result.Ok? ==>
      var a := FeasibilityAnalyzer.AnalyzeIssueFeasibility(cache, selected, repoUrl, remotes.feasibility, svc);
      var d := AnalyzePlanExecute(cache, repoUrl, selected, remotes, svc).result.value;
      && a.result.Ok?
      && var rv := FileReviewer.ReviewFilesAndPlan(FileReviewer.NEW_REVIEWER, a.result.value, remotes.review, svc);
      && rv.result.Ok?
      && FileReviewer.ExecuteChanges(rv.reviewer, remotes.send, remotes.executionPoll, svc).Ok?
      && d == WorkflowDict(selected, a.result.value, rv.result.value,
                           FileReviewer.ExecuteChanges(rv.reviewer, remotes.send, remotes.executionPoll, svc).value)
  {
  }

  /** The parts of a completed workflow's dict read back under their keys. */
  lemma CompletedWorkflowFields(selected: Json, analysis: Json, review: Json, execution: Json)
    ensures var d := WorkflowDict(selected, analysis, review, execution);
      && Lookup(d.fields, "status") == Some(JStr("completed"))
      && Lookup(d.fields, "selected_issue") == Some(selected)
      && Lookup(d.fields, "execution") == Some(execution)
  {
    WorkflowField(selected, analysis, review, execution, 0);
    WorkflowField(selected, analysis, review, execution, 1);
    WorkflowField(selected, analysis, review, execution, 4);
  }

  /** The review session is the one the execution request goes to: when
      planning fails after its session was created, the workflow stops with
      that error and no execution request is sent. */
  lemma FailedReviewStops(cache: Cache, repoUrl: string, selected: Json, remotes: Remotes, remotes2: Remotes,
                          svc: Services)
    requires remotes2 == remotes.(send := remotes2.send, executionPoll := remotes2.executionPoll)
    requires FeasibilityAnalyzer.AnalyzeIssueFeasibility(cache, selected, repoUrl, remotes.feasibility, svc).result.Ok?
    requires FileReviewer.ReviewFilesAndPlan(
               FileReviewer.NEW_REVIEWER,
               FeasibilityAnalyzer.AnalyzeIssueFeasibility(cache, selected, repoUrl, remotes.feasibility, svc).result.value,
               remotes.review, svc).result.Err?
    ensures AnalyzePlanExecute(cache, repoUrl, selected, remotes, svc)
         == AnalyzePlanExecute(cache, repoUrl, selected, remotes2, svc)
    ensures AnalyzePlanExecute(cache, repoUrl, selected, remotes, svc).result.Err?
  {
  }

  /** Analysis, planning and execution write no file besides agent 2's: the
      cache is the one the feasibility analysis left. */
  lemma OnlyFeasibilityWrites(cache: Cache, repoUrl: string, selected: Json, remotes: Remotes, svc: Services)
    ensures AnalyzePlanExecute(cache, repoUrl, selected, remotes, svc).cache
         == FeasibilityAnalyzer.AnalyzeIssueFeasibility(cache, selected, repoUrl, remotes.feasibility, svc).cache
  {
  }
}

=== FILE: core_session.dfy ===
/** The synchronous session manager: the create payload, message sending,
    the live-message high-water mark and the polling loop that waits for a
    session to finish. Every request is a scripted reply; time is a counter
    advanced by each request's latency and by the fixed 5 s sleep. */
module CoreSession {
  import opened Wrappers
  import opened Json
  import opened Markers
  import opened SessionData

  /** Python truthiness of an optional string argument. */
  predicate Given(arg: Option<string>) {
    arg.Some? && |arg.value| > 0
  }

  /** The body of `POST /sessions`: `prompt`, then `repository_url` and
      `file_url` when the corresponding argument is truthy. */
  function CreatePayload(prompt: string, repoUrl: Option<string>, fileUrl: Option<string>): (p: Json)
    ensures p.JObj?
    ensures Lookup(p.fields, "prompt") == Some(JStr(prompt))
    ensures Given(repoUrl) <==> "repository_url" in Keys(p.fields)
    ensures Given(repoUrl) ==> Lookup(p.fields, "repository_url") == Some(JStr(repoUrl.value))
    ensures Given(fileUrl) <==> "file_url" in Keys(p.fields)
    ensures Given(fileUrl) ==> Lookup(p.fields, "file_url") == Some(JStr(fileUrl.value))
    ensures |p.fields| == 1 + (if Given(repoUrl) then 1 else 0) + (if Given(fileUrl) then 1 else 0)
  {
    var withPrompt := [("prompt", JStr(prompt))];
    var withRepo := if Given(repoUrl) then Set(withPrompt, "repository_url", JStr(repoUrl.value)) else withPrompt;
    var withFile := if Given(fileUrl) then Set(withRepo, "file_url", JStr(fileUrl.value)) else withRepo;
    JObj(withFile)
  }

  /** The scripted reply to `POST /sessions`: a transport failure, or a body
      whose `session_id` may be missing. */
  datatype CreateReply = CreateFailed | CreateBody(sessionId: Option<string>)

  /** `create_devin_session`: the new session id; a transport failure is
      re-raised as a plain Exception and a body without `session_id` raises
      KeyError. */
  function CreateSession(reply: CreateReply): (r: Result<string, Exc>)
    ensures r.Ok? <==> reply.CreateBody? && reply.sessionId.Some?
    ensures r.Ok? ==> r.value == reply.sessionId.value
    ensures reply.CreateFailed? ==> r.Err? && r.error.kind == GenericException
    ensures reply.CreateBody? && reply.sessionId.None? ==> r.Err? && r.error.kind == KeyError
  {
    match reply
    case CreateFailed => Err(Exc(GenericException, "Failed to create session"))
    case CreateBody(None) => Err(Exc(KeyError, "'session_id'"))
    case CreateBody(Some(id)) => Ok(id)
  }

  /** The scripted outcome of `POST /session/{id}/message`. */
  datatype SendOutcome =
    | Accepted          // 2xx
    | RequestFailed     // a requests.RequestException (including a non-2xx status)
    | Raised(e: Exc)    // any other exception, which is not caught

  /** `send_session_message`: True exactly when the request succeeded,
      False on a transport error; other exceptions propagate. */
  function SendSessionMessage(o: SendOutcome): (r: Result<bool, Exc>)
    ensures r == Ok(true) <==> o.Accepted?
    ensures r == Ok(false) <==> o.RequestFailed?
    ensures r.Err? <==> o.Raised?
  {
    match o
    case Accepted => Ok(true)
    case RequestFailed => Ok(false)
    case Raised(e) => Err(e)
  }

  // ---------------------------------------------------------------------
  // Live messages

  datatype LiveUpdate = LiveUpdate(count: nat, shown: seq<Message>)

  /** `display_live_messages`: emits the messages at indices
      `[last, len(messages))` and returns the new high-water mark. */
  function DisplayLiveMessages(messages: seq<Message>, last: nat): (r: LiveUpdate)
    ensures |messages| > last ==> r.count == |messages| && messages == messages[..last] + r.shown
    ensures |messages| <= last ==> r == LiveUpdate(last, [])
  {
    if |messages| > last then LiveUpdate(|messages|, messages[last..]) else LiveUpdate(last, [])
  }

  /** Repeated calls, each starting from the count the previous one
      returned: the final mark and everything emitted on the way. */
  function LiveFold(views: seq<seq<Message>>, start: nat): LiveUpdate {
    if |views| == 0 then LiveUpdate(start, [])
    else Advance(LiveFold(views[..|views| - 1], start), views[|views| - 1])
  }

  /** One call on top of the state `b` left by the earlier ones. */
  function Advance(b: LiveUpdate, view: seq<Message>): LiveUpdate {
    var step := DisplayLiveMessages(view, b.count);
    LiveUpdate(step.count, b.shown + step.shown)
  }

  predicate IsPrefix(a: seq<Message>, b: seq<Message>) {
    |a| <= |b| && b[..|a|] == a
  }

  /** When every view extends the previous one, the messages emitted are
      exactly those of the last view, each once and in order, and the mark
      ends at its length. */
  lemma {:induction false} LiveFoldEmitsEachOnce(views: seq<seq<Message>>)
    requires |views| > 0
    requires forall i :: 0 <= i < |views| - 1 ==> IsPrefix(views[i], views[i + 1])
    ensures LiveFold(views, 0).shown == views[|views| - 1]
    ensures LiveFold(views, 0).count == |views[|views| - 1]|
    decreases |views|
  {
    var last := views[|views| - 1];
    if |views| > 1 {
      var front := views[..|views| - 1];
      forall i | 0 <= i < |front| - 1
        ensures IsPrefix(front[i], front[i + 1])
      {
        assert front[i] == views[i] && front[i + 1] == views[i + 1];
      }
      LiveFoldEmitsEachOnce(front);
      var prev := front[|front| - 1];
      assert prev == views[|views| - 2];
      assert IsPrefix(prev, last);
      if |last| > |prev| {
        assert prev + last[|prev|..] == last;
      } else {
        assert prev == last;
      }
    }
  }

  // ---------------------------------------------------------------------
  // The polling loop

  const POLL_INTERVAL: nat := 5

  /** The statuses that end the poll. `working`, `expired` and `finished`,
      which the status display also knows, do not, nor does a missing status. */
  predicate IsTerminal(status: Option<string>)
    ensures IsTerminal(status) ==> status.Some? && status.value !in {"working", "expired", "finished"}
  {
    status.Some? && status.value in {"completed", "failed", "stopped", "blocked"}
  }

  /** The outcome of one `GET /session/{id}`. */
  datatype PollResponse = TransportFailed | Body(data: Snapshot)

  /** One scripted poll: the time the request takes, its outcome, and the
      messages seen by the separate fetch `display_live_messages` makes
      (empty when that fetch fails). */
  datatype PollReply = PollReply(latency: nat, response: PollResponse, live: seq<Message>)

  /** What `wait_for_session_completion` returns or raises: the final
      snapshot, the value `{"error": "timeout"}`, or the exception that
      extracting the final snapshot's attachments raised (only
      RequestException is caught around it). */
  datatype WaitOutcome = Done(data: Snapshot) | TimedOut | Failed(error: Exc)

  /** The outcome together with the number of polls made and the messages
      displayed on the way. */
  datatype WaitRun = WaitRun(outcome: WaitOutcome, polls: nat, shown: seq<Message>)

  /** `outcome` seen as the dict the callers read with `.get`, or the
      exception they receive. */
  function AsSnapshot(outcome: WaitOutcome): Result<Snapshot, Exc> {
    match outcome
    case Done(data) => Ok(data)
    case TimedOut => Ok(TIMEOUT_SNAPSHOT)
    case Failed(e) => Err(e)
  }

  predicate Stops(reply: PollReply) {
    reply.response.Body? && IsTerminal(reply.response.data.statusEnum)
  }

  /** The final snapshot: `message_attachments` is set to the merged
      attachment list when that list is non-empty; a TypeError raised while
      merging ends the call. */
  function WithMessageAttachments(data: Snapshot): (r: Result<Snapshot, Exc>)
    ensures r.Err? <==> StructuredUrls(data.structuredOutput).Err?
    ensures r.Err? ==> r.error.kind == TypeError
    ensures r.Ok? ==> r.value.(messageAttachments := data.messageAttachments) == data
    ensures r.Ok? && |ExtractAttachmentsFromSessionData(data).value| > 0 ==>
      r.value.messageAttachments == Some(ExtractAttachmentsFromSessionData(data).value)
    ensures r.Ok? && |ExtractAttachmentsFromSessionData(data).value| == 0 ==> r.value == data
  {
    match ExtractAttachmentsFromSessionData(data)
    case Err(e) => Err(e)
    case Ok(atts) => Ok(if |atts| > 0 then data.(messageAttachments := Some(atts)) else data)
  }

  /** The loop's result for a terminal snapshot. */
  function Finish(data: Snapshot): WaitOutcome {
    match WithMessageAttachments(data)
    case Ok(d) => Done(d)
    case Err(e) => Failed(e)
  }

  /** The clock at the deadline check before poll `k`: every earlier poll's
      latency plus one sleep after each. */
  function ClockAt(poll: nat -> PollReply, k: nat): nat {
    if k == 0 then 0 else ClockAt(poll, k - 1) + poll(k - 1).latency + POLL_INTERVAL
  }

  lemma {:induction false} ClockAtMonotone(poll: nat -> PollReply, j: nat, k: nat)
    requires j <= k
    ensures ClockAt(poll, j) <= ClockAt(poll, k)
    decreases k - j
  {
    if j < k {
      ClockAtMonotone(poll, j, k - 1);
    }
  }

  /** The live views of the polls before `k` that returned a body. */
  function LiveViews(poll: nat -> PollReply, k: nat): seq<seq<Message>> {
    if k == 0 then []
    else LiveViews(poll, k - 1) + (if poll(k - 1).response.Body? then [poll(k - 1).live] else [])
  }

  /** The display state of the loop before poll `k`: a poll that returned a
      body, with `show_live` set, makes one `display_live_messages` call. */
  function LiveBefore(poll: nat -> PollReply, k: nat, showLive: bool): LiveUpdate {
    if k == 0 then LiveUpdate(0, [])
    else
      var b := LiveBefore(poll, k - 1, showLive);
      if showLive && poll(k - 1).response.Body? then Advance(b, poll(k - 1).live) else b
  }

  /** The loop's display state is the fold of the live views of its
      successful polls. */
  lemma {:induction false} LiveBeforeIsFold(poll: nat -> PollReply, k: nat)
    ensures LiveBefore(poll, k, true) == LiveFold(LiveViews(poll, k), 0)
  {
    if k > 0 {
      LiveBeforeIsFold(poll, k - 1);
      var vs := LiveViews(poll, k);
      if poll(k - 1).response.Body? {
        assert vs[..|vs| - 1] == LiveViews(poll, k - 1);
      } else {
        assert vs == LiveViews(poll, k - 1);
      }
    }
  }

  /** Without `show_live` nothing is displayed. */
  lemma {:induction false} QuietLoopShowsNothing(poll: nat -> PollReply, k: nat)
    ensures LiveBefore(poll, k, false) == LiveUpdate(0, [])
  {
    if k > 0 {
      QuietLoopShowsNothing(poll, k - 1);
    }
  }

  /** None of the polls `k .. n-1` ends the loop. */
  predicate NoStopBetween(poll: nat -> PollReply, k: nat, n: nat)
    decreases n - k
  {
    k >= n || (!Stops(poll(k)) && NoStopBetween(poll, k + 1, n))
  }

  lemma {:induction false} NoStopBetweenMeans(poll: nat -> PollReply, k: nat, n: nat)
    ensures NoStopBetween(poll, k, n) <==> forall j :: k <= j < n ==> !Stops(poll(j))
    decreases n - k
  {
    if k < n {
      NoStopBetweenMeans(poll, k + 1, n);
    }
  }

  /** Where the loop stops: after `polls` polls, because the last of them
      was terminal (`done`) or because the deadline check before the next
      one failed. */
  datatype LoopEnd = LoopEnd(polls: nat, done: bool)

  /** The `while` loop of `wait_for_session_completion` from poll `k` on:
      check the deadline, poll, return on a terminal status, sleep. */
  function WaitLoop(poll: nat -> PollReply, timeout: int, k: nat): (e: LoopEnd)
    ensures e.polls >= k
    ensures e.polls > k ==> ClockAt(poll, e.polls - 1) <= timeout
    ensures !e.done ==> ClockAt(poll, e.polls) > timeout && NoStopBetween(poll, k, e.polls)
    ensures e.done ==> e.polls > k && Stops(poll(e.polls - 1)) && NoStopBetween(poll, k, e.polls - 1)
    decreases timeout - ClockAt(poll, k)
  {
    if ClockAt(poll, k) > timeout then LoopEnd(k, false)
    else if Stops(poll(k)) then LoopEnd(k + 1, true)
    else WaitLoop(poll, timeout, k + 1)
  }

  /** `wait_for_session_completion(session_id, timeout, show_live)`: the
      loop's final snapshot with its merged attachments (or the TypeError
      the merge raises), or the timeout value, and what
      `display_live_messages` emitted on the polls made. A transport error
      on a poll is swallowed: the loop sleeps and polls again. */
  function WaitForSessionCompletion(poll: nat -> PollReply, timeout: int, showLive: bool): (r: WaitRun)
    ensures r.polls > 0 ==> ClockAt(poll, r.polls - 1) <= timeout
    ensures r.outcome.TimedOut? ==> ClockAt(poll, r.polls) > timeout
    ensures r.outcome.TimedOut? ==> forall j :: 0 <= j < r.polls ==> !Stops(poll(j))
    ensures !r.outcome.TimedOut? ==> r.polls > 0 && Stops(poll(r.polls - 1))
    ensures !r.outcome.TimedOut? ==> forall j :: 0 <= j < r.polls - 1 ==> !Stops(poll(j))
    ensures !r.outcome.TimedOut? ==> r.outcome == Finish(poll(r.polls - 1).response.data)
  {
    var e := WaitLoop(poll, timeout, 0);
    NoStopBetweenMeans(poll, 0, e.polls);
    var shown := LiveBefore(poll, e.polls, showLive).shown;
    if e.done then
      NoStopBetweenMeans(poll, 0, e.polls - 1);
      WaitRun(Finish(poll(e.polls - 1).response.data), e.polls, shown)
    else WaitRun(TimedOut, e.polls, shown)
  }

  /** With `show_live`, when each successful poll's message list extends
      the previous one (the conversation only grows), the loop displays
      every message of the last successful poll exactly once, in order. */
  lemma LiveDisplayShowsConversationOnce(poll: nat -> PollReply, timeout: int)
    requires var vs := LiveViews(poll, WaitForSessionCompletion(poll, timeout, true).polls);
      |vs| > 0 && forall i :: 0 <= i < |vs| - 1 ==> IsPrefix(vs[i], vs[i + 1])
    ensures var vs := LiveViews(poll, WaitForSessionCompletion(poll, timeout, true).polls);
      WaitForSessionCompletion(poll, timeout, true).shown == vs[|vs| - 1]
  {
    var n := WaitForSessionCompletion(poll, timeout, true).polls;
    LiveBeforeIsFold(poll, n);
    LiveFoldEmitsEachOnce(LiveViews(poll, n));
  }

  /** k polls that do not end the loop followed by one that does, all
      before the deadline: the loop ends after exactly k+1 polls, returning
      that snapshot with its merged attachments, or raising the TypeError
      that reading its `structured_output` raises. */
  lemma ReturnsAfterFirstTerminalPoll(poll: nat -> PollReply, timeout: int, showLive: bool, k: nat)
    requires forall j :: 0 <= j < k ==> !Stops(poll(j))
    requires Stops(poll(k))
    requires ClockAt(poll, k) <= timeout
    ensures WaitForSessionCompletion(poll, timeout, showLive).polls == k + 1
    ensures WaitForSessionCompletion(poll, timeout, showLive).outcome
         == Finish(poll(k).response.data)
  {
    var r := WaitForSessionCompletion(poll, timeout, showLive);
    if r.outcome.TimedOut? && r.polls <= k {
      ClockAtMonotone(poll, r.polls, k);
    }
  }

  /** The same loop raises, instead of returning, exactly when reading the
      terminal snapshot's `structured_output` raises: only
      RequestException is caught around the merge. */
  lemma TerminalMergeErrorEscapes(poll: nat -> PollReply, timeout: int, showLive: bool, k: nat)
    requires forall j :: 0 <= j < k ==> !Stops(poll(j))
    requires Stops(poll(k))
    requires ClockAt(poll, k) <= timeout
    ensures WaitForSessionCompletion(poll, timeout, showLive).outcome.Failed?
        <==> StructuredUrls(poll(k).response.data.structuredOutput).Err?
  {
    ReturnsAfterFirstTerminalPoll(poll, timeout, showLive, k);
    FinishFailsOnStructuredOutput(poll(k).response.data);
  }

  /** Ending on a snapshot raises exactly when reading its
      `structured_output` raises. */
  lemma FinishFailsOnStructuredOutput(data: Snapshot)
    ensures Finish(data).Failed? <==> StructuredUrls(data.structuredOutput).Err?
  {
  }

  /** A session that never reaches a terminal status (whatever mixture of
      transport errors and non-terminal snapshots the polls see) ends in the
      timeout value, never in an error. */
  lemma NeverTerminalTimesOut(poll: nat -> PollReply, timeout: int, showLive: bool)
    requires forall j :: !Stops(poll(j))
    ensures WaitForSessionCompletion(poll, timeout, showLive).outcome == TimedOut
  {
  }

  /** An unchanging `expired` (or status-less) session is polled until the
      deadline. */
  lemma ExpiredIsNotTerminal(data: Snapshot)
    requires data.statusEnum == Some("expired") || data.statusEnum.None?
    ensures !Stops(PollReply(0, Body(data), []))
  {
  }
}

=== FILE: feasibility_analyzer.dfy ===
/** Agent 2 (`FeasibilityAnalyzerAgent.analyze_issue_feasibility`): the
    cache-first flow of `AgentEnv.CachedDocument` under the category
    `feasibility`, with the `analysis` document of a 600 s session, after a
    guard against an issue given as a string. */
module FeasibilityAnalyzer {
  import opened Wrappers
  import opened Json
  import opened AgentEnv

  const FULL_ANALYSIS_TIMEOUT: int := 600

  /** The dict returned for an issue that is a string. */
  const INVALID_ISSUE: Json := JObj([("error", JStr("Invalid issue format"))])

  /** `analyze_issue_feasibility(issue, repo_url)`. A string issue is
      refused with an error dict; any other value that is not a dict raises
      at `issue.get`. */
  function AnalyzeIssueFeasibility(cache: Cache, issue: Json, repoUrl: string, remote: Remote,
                                   svc: Services): (r: AgentRun)
    ensures issue.JStr? ==> r == AgentRun(Ok(INVALID_ISSUE), cache, false)
    ensures !issue.JStr? && !issue.JObj? ==>
      !r.contacted && r.cache == cache && r.result.Err? && r.result.error.kind == AttributeError
  {
    if issue.JStr? then AgentRun(Ok(INVALID_ISSUE), cache, false)
    else
      match issue
      case JObj(fields) =>
        CachedDocument(cache, fields, repoUrl, "feasibility", "analysis", FULL_ANALYSIS_TIMEOUT, remote, svc)
      case _ => AgentRun(Err(Exc(AttributeError, "object has no attribute 'get'")), cache, false)
  }

  /** A truthy cached analysis is returned unchanged with no session
      created; otherwise the session's analysis comes back stamped with the
      issue's `number` and `title` and is written where it was looked up. */
  lemma FeasibilityIsCacheFirst(cache: Cache, fields: seq<(string, Json)>, repoUrl: string, remote: Remote,
                                svc: Services)
    ensures var path := IssueDocumentFile(repoUrl, "feasibility", fields);
      var r := AnalyzeIssueFeasibility(cache, JObj(fields), repoUrl, remote, svc);
      && (Truthy(CheckCache(cache, path)) ==> path in cache && r == AgentRun(Ok(cache[path]), cache, false))
      && (!Truthy(CheckCache(cache, path)) && r.result.Ok? ==>
            r.contacted && r.cache == cache[path := r.result.value] && r.result.value.JObj?
            && Lookup(r.result.value.fields, "issue_number") == Some(GetOr(fields, "number", JNull))
            && Lookup(r.result.value.fields, "issue_title") == Some(GetOr(fields, "title", JNull)))
  {
    var path := IssueDocumentFile(repoUrl, "feasibility", fields);
    if Truthy(CheckCache(cache, path)) {
      CachedDocumentHit(cache, fields, repoUrl, "feasibility", "analysis", FULL_ANALYSIS_TIMEOUT, remote, svc);
    } else {
      CachedDocumentMiss(cache, fields, repoUrl, "feasibility", "analysis", FULL_ANALYSIS_TIMEOUT, remote, svc);
    }
  }

  /** An immediate second call for the same issue is a hit. */
  lemma SecondAnalysisHits(cache: Cache, issue: Json, repoUrl: string, remote1: Remote, remote2: Remote,
                           svc: Services)
    requires AnalyzeIssueFeasibility(cache, issue, repoUrl, remote1, svc).result.Ok?
    ensures var r1 := AnalyzeIssueFeasibility(cache, issue, repoUrl, remote1, svc);
      AnalyzeIssueFeasibility(r1.cache, issue, repoUrl, remote2, svc) == AgentRun(r1.result, r1.cache, false)
  {
    if issue.JObj? {
      SecondCallHits(cache, issue.fields, repoUrl, "feasibility", "analysis", FULL_ANALYSIS_TIMEOUT, remote1, remote2, svc);
    }
  }
}

=== FILE: file_reviewer.dfy ===
/** Agent 3 (`FileReviewerAgent`): a planning session whose plan is taken
    from the first `plan*.json` attachment, else from the first agent message
    holding JSON, and the execution request sent to the same session, whose
    result is the first `execution*.json` attachment. */
module FileReviewer {
  import opened Wrappers
  import opened Json
  import opened Markers
  import opened SessionData
  import opened JsonExtract
  import Text
  import CoreSession
  import opened AgentEnv

  const FULL_ANALYSIS_TIMEOUT: int := 600

  const NO_PLAN: string := "No plan JSON found in Devin session result"
  const NO_SESSION: string := "No active session. Run review_files_and_plan() first."
  const SEND_FAILED: string := "Failed to send execution command"
  const NO_EXECUTION: string := "No execution JSON file found in session result"

  /** The agent's state: `_current_session_id`. */
  datatype Reviewer = Reviewer(sessionId: Option<string>)

  const NEW_REVIEWER: Reviewer := Reviewer(None)

  /** `if not self._current_session_id`. */
  predicate Active(reviewer: Reviewer) {
    reviewer.sessionId.Some? && |reviewer.sessionId.value| > 0
  }

  datatype ReviewRun = ReviewRun(result: Result<Json, Exc>, reviewer: Reviewer)

  /** `result.get("message_attachments", [])`. */
  function Candidates(snap: Snapshot): seq<Attachment> {
    snap.messageAttachments.GetOr([])
  }

  /** A message the fallback accepts: an agent message whose text holds a
      truthy JSON document. */
  predicate Yields(m: Message, parse: string -> Option<Json>) {
    m.kind == DEVIN_MESSAGE && ExtractJsonFromMessageContent(m.content, parse).Some?
    && Truthy(ExtractJsonFromMessageContent(m.content, parse).value)
  }

  predicate NoneYields(msgs: seq<Message>, parse: string -> Option<Json>) {
    forall i :: 0 <= i < |msgs| ==> !Yields(msgs[i], parse)
  }

  /** The message fallback, oldest message first: the document of the first
      message that yields one, or None. */
  function PlanFromMessages(msgs: seq<Message>, parse: string -> Option<Json>): (r: Option<Json>)
    ensures r.Some? ==> Truthy(r.value)
    ensures r.None? <==> NoneYields(msgs, parse)
  {
    if |msgs| == 0 then None
    else if Yields(msgs[0], parse) then ExtractJsonFromMessageContent(msgs[0].content, parse)
    else
      assert forall i :: 1 <= i < |msgs| ==> msgs[i] == msgs[1..][i - 1];
      PlanFromMessages(msgs[1..], parse)
  }

  /** The fallback's document is that of the first message that yields
      one. */
  lemma {:induction false} PlanFromMessagesIsFirst(msgs: seq<Message>, parse: string -> Option<Json>)
    ensures PlanFromMessages(msgs, parse).Some? ==> exists i ::
      && 0 <= i < |msgs| && Yields(msgs[i], parse)
      && PlanFromMessages(msgs, parse) == ExtractJsonFromMessageContent(msgs[i].content, parse)
      && (forall k :: 0 <= k < i ==> !Yields(msgs[k], parse))
    decreases |msgs|
  {
    if PlanFromMessages(msgs, parse).None? {
    } else if !Yields(msgs[0], parse) {
      var rest := msgs[1..];
      PlanFromMessagesSkip(msgs, parse);
      PlanFromMessagesIsFirst(rest, parse);
      var i :| 0 <= i < |rest| && Yields(rest[i], parse)
        && PlanFromMessages(rest, parse) == ExtractJsonFromMessageContent(rest[i].content, parse)
        && forall k :: 0 <= k < i ==> !Yields(rest[k], parse);
      assert msgs[i + 1] == rest[i];
      forall k | 0 <= k < i + 1
        ensures !Yields(msgs[k], parse)
      {
        if k > 0 {
          assert msgs[k] == rest[k - 1];
        }
      }
      assert Yields(msgs[i + 1], parse)
        && PlanFromMessages(msgs, parse) == ExtractJsonFromMessageContent(msgs[i + 1].content, parse);
    } else {
      assert PlanFromMessages(msgs, parse) == ExtractJsonFromMessageContent(msgs[0].content, parse);
    }
  }

  /** A message that yields nothing is skipped. */
  lemma PlanFromMessagesSkip(msgs: seq<Message>, parse: string -> Option<Json>)
    requires |msgs| > 0 && !Yields(msgs[0], parse)
    ensures PlanFromMessages(msgs, parse) == PlanFromMessages(msgs[1..], parse)
  {
  }

  /** The plan of a finished session: the data of the first `plan*.json`
      attachment that downloads and parses (whatever it is), else the
      message fallback, else ValueError. */
  function ChoosePlan(snap: Snapshot, svc: Services): (r: Result<Json, Exc>)
    ensures r.Err? ==> r.error == Exc(ValueError, NO_PLAN)
  {
    var files := DownloadJsonAttachments(Candidates(snap), "plan", svc.download, svc.parse);
    if |files| > 0 then Ok(files[0].data)
    else
      match PlanFromMessages(snap.messages, svc.parse)
      case Some(p) => Ok(p)
      case None => Err(Exc(ValueError, NO_PLAN))
  }

  /** A plan attachment wins and the messages are not consulted; without
      one, the first yielding message gives the plan; with neither, the call
      raises ValueError. */
  lemma PlanPrecedence(snap: Snapshot, svc: Services, otherMessages: seq<Message>)
    ensures var files := DownloadJsonAttachments(Candidates(snap), "plan", svc.download, svc.parse);
      |files| > 0 ==>
        ChoosePlan(snap, svc) == Ok(files[0].data)
        && ChoosePlan(snap.(messages := otherMessages), svc) == ChoosePlan(snap, svc)
    ensures var files := DownloadJsonAttachments(Candidates(snap), "plan", svc.download, svc.parse);
      |files| == 0 ==>
        (ChoosePlan(snap, svc).Ok? <==> exists i :: 0 <= i < |snap.messages| && Yields(snap.messages[i], svc.parse))
  {
  }

  /** One step of the plan display: `step.get('description')`, and when
      `step.get('files')` is truthy, `', '.join(step['files'])`. A step
      that is not a dict raises AttributeError; the join raises TypeError
      on a value that is not iterable or on an item that is not a string
      (a string joins its characters, a dict its keys). */
  function ShowStep(step: Json): (r: Option<Exc>)
    ensures !step.JObj? ==> r.Some? && r.value.kind == AttributeError
    ensures step.JObj? ==>
      var files := GetOr(step.fields, "files", JNull);
      && (r.None? <==> !Truthy(files) || files.JStr? || files.JObj? || (files.JArr? && AllStrings(files.items)))
      && (r.Some? ==> r.value.kind == TypeError)
  {
    match step
    case JObj(fields) =>
      // a truthy `.get('files')` means the key is present, so
      // `step['files']` is the same value
      var files := GetOr(fields, "files", JNull);
      if !Truthy(files) then None
      else
        (match PyIter(files)
         case Err(e) => Some(e)
         case Ok(names) => if AllStrings(names) then None else Some(Exc(TypeError, "sequence item: expected str instance")))
    case _ => Some(Exc(AttributeError, "object has no attribute 'get'"))
  }

  /** The step loop: the first step that raises ends the display. */
  function ShowSteps(steps: seq<Json>): (r: Option<Exc>)
    ensures r.None? <==> forall i :: 0 <= i < |steps| ==> ShowStep(steps[i]).None?
    ensures |steps| > 0 && ShowStep(steps[0]).Some? ==> r == ShowStep(steps[0])
    ensures r.Some? ==> r.value.kind in {AttributeError, TypeError}
  {
    if |steps| == 0 then None
    else if ShowStep(steps[0]).Some? then ShowStep(steps[0])
    else ShowSteps(steps[1..])
  }

  /** The display step: `"action_plan" in plan` raises TypeError on a value
      that is neither a dict, a list nor a string, and a string or list that
      holds `"action_plan"` passes the test and then raises TypeError at
      `plan["action_plan"]`. A dict's `action_plan` is iterated step by
      step; iterating a string or dict yields strings, which have no
      `.get`. */
  function Displayed(plan: Json): (r: Result<Json, Exc>)
    ensures r.Ok? ==> r.value == plan
    ensures !plan.JObj? && r.Err? ==> r.error.kind == TypeError
    ensures !plan.JObj? ==>
      (r.Err? <==> || plan.JNull? || plan.JBool? || plan.JInt?
                   || (plan.JStr? && Text.Contains(plan.s, "action_plan"))
                   || (plan.JArr? && JStr("action_plan") in plan.items))
    ensures plan.JObj? && Lookup(plan.fields, "action_plan").None? ==> r == Ok(plan)
    ensures plan.JObj? && Lookup(plan.fields, "action_plan").Some? ==>
      var steps := Lookup(plan.fields, "action_plan").value;
      && (steps.JNull? || steps.JBool? || steps.JInt? ==> r.Err? && r.error.kind == TypeError)
      && (steps.JArr? ==> (r.Ok? <==> forall i :: 0 <= i < |steps.items| ==> ShowStep(steps.items[i]).None?))
      && (steps.JStr? || steps.JObj? ==> (r.Ok? <==> !Truthy(steps)))
    ensures r.Err? ==> r.error.kind in {AttributeError, TypeError}
  {
    match PyContains(plan, "action_plan")
    case Err(e) => Err(e)
    case Ok(false) => Ok(plan)
    case Ok(true) =>
      match PySubscript(plan, "action_plan")
      case Err(e) => Err(e)
      case Ok(steps) =>
        match PyIter(steps)
        case Err(e) => Err(e)
        case Ok(items) =>
          assert !steps.JArr? && |items| > 0 ==> ShowStep(items[0]).Some?;
          match ShowSteps(items)
          case Some(e) => Err(e)
          case None => Ok(plan)
  }

  /** A plan whose steps list their files by name is displayed; a step
      given as a bare string raises at `step.get`. */
  lemma StepDisplay(name: string)
    ensures var step := JObj([("description", JStr("edit")), ("files", JArr([JStr(name)]))]);
      Displayed(JObj([("action_plan", JArr([step]))])) == Ok(JObj([("action_plan", JArr([step]))]))
    ensures var r := Displayed(JObj([("action_plan", JArr([JStr(name)]))]));
      r.Err? && r.error.kind == AttributeError
  {
    var fields := [("description", JStr("edit")), ("files", JArr([JStr(name)]))];
    assert GetOr(fields, "files", JNull) == GetOr(fields[1..], "files", JNull) == JArr([JStr(name)]);
    assert AllStrings([JStr(name)]);
    assert ShowStep(JObj(fields)).None?;
    assert ShowStep(JStr(name)).Some?;
  }

  /** `review_files_and_plan(issue_data, repo_url)`: `.get` on the analysis
      (AttributeError on a non-dict), a session waited on for 600 s whose id
      is recorded before anything is extracted, then the plan. */
  function ReviewFilesAndPlan(reviewer: Reviewer, analysis: Json, remote: Remote, svc: Services): (r: ReviewRun)
    ensures !analysis.JObj? ==> r.result.Err? && r.result.error.kind == AttributeError && r.reviewer == reviewer
    ensures analysis.JObj? && CoreSession.CreateSession(remote.create).Err? ==>
      r == ReviewRun(Err(CoreSession.CreateSession(remote.create).error), reviewer)
    ensures analysis.JObj? && CoreSession.CreateSession(remote.create).Ok? ==>
      r.reviewer == Reviewer(Some(CoreSession.CreateSession(remote.create).value))
  {
    if !analysis.JObj? then ReviewRun(Err(Exc(AttributeError, "object has no attribute 'get'")), reviewer)
    else
      match CoreSession.CreateSession(remote.create)
      case Err(e) => ReviewRun(Err(e), reviewer)
      case Ok(sid) =>
        var result :=
          match CoreSession.AsSnapshot(CoreSession.WaitForSessionCompletion(remote.poll, FULL_ANALYSIS_TIMEOUT, false).outcome)
          case Err(e) => Err(e)
          case Ok(snap) =>
            match ChoosePlan(snap, svc)
            case Err(e) => Err(e)
            case Ok(plan) => Displayed(plan);
        ReviewRun(result, Reviewer(Some(sid)))
  }

  /** `execute_changes(plan_data, repo_url)`: refuse without a session; send
      the execution request (a transport failure raises ValueError, another
      exception propagates); wait 600 s; return the first
      `execution*.json` attachment's data, which the display step reads with
      `.get` and whose `changes_made` it walks. */
  function ExecuteChanges(reviewer: Reviewer, send: CoreSession.SendOutcome, poll: nat -> CoreSession.PollReply,
                          svc: Services): (r: Result<Json, Exc>)
    ensures !Active(reviewer) ==> r == Err(Exc(ValueError, NO_SESSION))
    ensures Active(reviewer) && send.RequestFailed? ==> r == Err(Exc(ValueError, SEND_FAILED))
    ensures Active(reviewer) && send.Raised? ==> r == Err(send.e)
    ensures r.Ok? ==> Active(reviewer) && send.Accepted?
  {
    if !Active(reviewer) then Err(Exc(ValueError, NO_SESSION))
    else
      match CoreSession.SendSessionMessage(send)
      case Err(e) => Err(e)
      case Ok(false) => Err(Exc(ValueError, SEND_FAILED))
      case Ok(true) =>
        match CoreSession.AsSnapshot(CoreSession.WaitForSessionCompletion(poll, FULL_ANALYSIS_TIMEOUT, false).outcome)
        case Err(e) => Err(e)
        case Ok(snap) =>
          var files := DownloadJsonAttachments(Candidates(snap), "execution", svc.download, svc.parse);
          if |files| == 0 then Err(Exc(ValueError, NO_EXECUTION))
          else
            match PyGet(files[0].data, "status", JStr("unknown"))
            case Err(e) => Err(e)
            case Ok(_) => ShowChanges(files[0].data.fields)
  }

  /** The display of a dict reply's `changes_made`: when the key is
      present its value is iterated and each change is read with `.get`,
      so a value that is not iterable raises TypeError and an iterated
      item that is not a dict (a file name, a dict's key, a character)
      raises AttributeError. The reply itself is returned. */
  function ShowChanges(fields: seq<(string, Json)>): (r: Result<Json, Exc>)
    ensures r.Ok? ==> r.value == JObj(fields)
    ensures Lookup(fields, "changes_made").None? ==> r.Ok?
    ensures Lookup(fields, "changes_made").Some? ==>
      var v := Lookup(fields, "changes_made").value;
      && (v.JNull? || v.JBool? || v.JInt? ==> r.Err? && r.error.kind == TypeError)
      && (v.JArr? ==> (r.Ok? <==> AllDicts(v.items)))
      && (v.JStr? || v.JObj? ==> (r.Ok? <==> !Truthy(v)))
      && (!v.JNull? && !v.JBool? && !v.JInt? && r.Err? ==> r.error.kind == AttributeError)
  {
    match PyContains(JObj(fields), "changes_made")
    case Err(e) => Err(e)
    case Ok(false) => Ok(JObj(fields))
    case Ok(true) =>
      match PySubscript(JObj(fields), "changes_made")
      case Err(e) => Err(e)
      case Ok(v) =>
        match PyIter(v)
        case Err(e) => Err(e)
        case Ok(changes) =>
          assert !v.JArr? && |changes| > 0 ==> changes[0].JStr?;
          if AllDicts(changes) then Ok(JObj(fields))
          else Err(Exc(AttributeError, "object has no attribute 'get'"))
  }

  /** A reply listing the changed files by name, the shape the execution
      request asks for, raises at the first `change.get`. */
  lemma FileNameChangesRaise(name: string)
    ensures var r := ShowChanges([("status", JStr("changes_made")), ("changes_made", JArr([JStr(name)]))]);
      r.Err? && r.error.kind == AttributeError
  {
    var fields := [("status", JStr("changes_made")), ("changes_made", JArr([JStr(name)]))];
    assert Lookup(fields[1..], "changes_made") == Some(JArr([JStr(name)]));
    assert [JStr(name)][0].JStr?;
  }

  /** After the request is accepted, the result is the first execution
      attachment's document, and ValueError when there is none. */
  lemma ExecutionIsFirstAttachment(reviewer: Reviewer, poll: nat -> CoreSession.PollReply, svc: Services)
    requires Active(reviewer)
    ensures var waited := CoreSession.AsSnapshot(CoreSession.WaitForSessionCompletion(poll, FULL_ANALYSIS_TIMEOUT, false).outcome);
      waited.Err? ==> ExecuteChanges(reviewer, CoreSession.Accepted, poll, svc) == Err(waited.error)
    ensures var waited := CoreSession.AsSnapshot(CoreSession.WaitForSessionCompletion(poll, FULL_ANALYSIS_TIMEOUT, false).outcome);
      waited.Ok? ==>
      var files := DownloadJsonAttachments(Candidates(waited.value), "execution", svc.download, svc.parse);
      var r := ExecuteChanges(reviewer, CoreSession.Accepted, poll, svc);
      && (|files| == 0 ==> r == Err(Exc(ValueError, NO_EXECUTION)))
      && (|files| > 0 && files[0].data.JObj? ==> r == ShowChanges(files[0].data.fields))
      && (|files| > 0 && !files[0].data.JObj? ==> r.Err? && r.error.kind == AttributeError)
      && (r.Ok? ==> |files| > 0 && r.value == files[0].data && Text.StartsWith(files[0].name, "execution"))
  {
  }

  /** The session id is recorded before the plan is extracted: once the
      planning session is created with a non-empty id, the agent is active
      and the execution request is sent, even when the review itself
      raised. */
  lemma ReviewOpensSessionForExecution(reviewer: Reviewer, analysis: Json, remote: Remote, svc: Services,
                                       send: CoreSession.SendOutcome, poll: nat -> CoreSession.PollReply)
    requires analysis.JObj?
    requires CoreSession.CreateSession(remote.create).Ok? && |CoreSession.CreateSession(remote.create).value| > 0
    ensures Active(ReviewFilesAndPlan(reviewer, analysis, remote, svc).reviewer)
    ensures send.RequestFailed? ==>
      ExecuteChanges(ReviewFilesAndPlan(reviewer, analysis, remote, svc).reviewer, send, poll, svc)
        == Err(Exc(ValueError, SEND_FAILED))
  {
  }

  /** A new agent refuses to execute. */
  lemma NewReviewerRefuses(send: CoreSession.SendOutcome, poll: nat -> CoreSession.PollReply, svc: Services)
    ensures ExecuteChanges(NEW_REVIEWER, send, poll, svc) == Err(Exc(ValueError, NO_SESSION))
  {
  }
}

=== FILE: issue_analyzer.dfy ===
/** `analyze_issue_with_devin_context`: a scan for relevant files whose
    failure is swallowed, then one analysis session whose timeout depends on
    whether the scan found anything, then an eight-key result. */
module IssueAnalyzer {
  import opened Wrappers
  import opened Json
  import ApiSession

  const TARGETED_ANALYSIS_TIMEOUT: int := 300
  const FULL_ANALYSIS_TIMEOUT: int := 600

  /** The keys of the returned dict, in insertion order. */
  const ANALYSIS_KEYS: seq<string> := ["score", "action", "scope", "technical_analysis", "effort_estimation",
                                       "related_considerations", "analysis_method", "files_analyzed"]

  /** The file list after the `try`: any exception of the scan becomes the
      empty list. */
  function RelevantFilesOrEmpty(scan: Result<seq<Json>, Exc>): (files: seq<Json>)
    ensures scan.Err? ==> files == []
    ensures scan.Ok? ==> files == scan.value
  {
    match scan
    case Ok(fs) => fs
    case Err(_) => []
  }

  /** The timeout of the analysis session. */
  function AnalysisTimeout(files: seq<Json>): (t: int)
    ensures t == TARGETED_ANALYSIS_TIMEOUT <==> |files| > 0
    ensures t == FULL_ANALYSIS_TIMEOUT <==> |files| == 0
  {
    if |files| > 0 then TARGETED_ANALYSIS_TIMEOUT else FULL_ANALYSIS_TIMEOUT
  }

  /** `', '.join(relevant_files)` in the targeted prompt succeeds only on
      strings. */
  predicate JoinsAsText(files: seq<Json>) {
    forall i :: 0 <= i < |files| ==> files[i].JStr?
  }

  /** The values of the returned dict, in key order. */
  function AnalysisValues(fields: seq<(string, Json)>, files: seq<Json>): seq<Json> {
    [ GetOr(fields, "confidence_score", JInt(0)),
      GetOr(fields, "action_plan", JStr("No action plan available")),
      GetOr(fields, "scope_assessment", JObj([])),
      GetOr(fields, "technical_analysis", JObj([])),
      GetOr(fields, "effort_estimation", JObj([])),
      GetOr(fields, "related_considerations", JObj([])),
      JStr(if |files| > 0 then "targeted" else "full_repository"),
      if |files| > 0 then JArr(files) else JStr("full_repository") ]
  }

  /** The returned dict, built from `structured_output` with `.get` and its
      defaults; `.get` on a structured output that is not a dict raises. */
  function ShapeAnalysis(so: Json, files: seq<Json>): (r: Result<Json, Exc>)
    ensures r.Ok? <==> so.JObj?
    ensures r.Err? ==> r.error.kind == AttributeError
    ensures r.Ok? ==> r.value.JObj? && Keys(r.value.fields) == ANALYSIS_KEYS
  {
    match so
    case JObj(fields) => Ok(JObj(Zip(ANALYSIS_KEYS, AnalysisValues(fields, files))))
    case _ => Err(Exc(AttributeError, "object has no attribute 'get'"))
  }

  /** No key of the dict is written twice. */
  lemma AnalysisKeysDistinct()
    ensures forall i, j :: 0 <= i < j < |ANALYSIS_KEYS| ==> ANALYSIS_KEYS[i] != ANALYSIS_KEYS[j]
  {
    var ks := ANALYSIS_KEYS;
    assert |ks[0]| == 5 && |ks[1]| == 6 && |ks[2]| == 5 && |ks[3]| == 18;
    assert |ks[4]| == 17 && |ks[5]| == 22 && |ks[6]| == 15 && |ks[7]| == 14;
    assert ks[0][3] != ks[2][3];
  }

  /** `score` is the structured output's `confidence_score`, 0 by default. */
  lemma ShapeAnalysisScore(fields: seq<(string, Json)>, files: seq<Json>)
    ensures Lookup(ShapeAnalysis(JObj(fields), files).value.fields, "score")
         == Some(GetOr(fields, "confidence_score", JInt(0)))
  {
    LookupZip(ANALYSIS_KEYS, AnalysisValues(fields, files), 0);
  }

  /** `action` is the structured output's `action_plan`, with its default text. */
  lemma ShapeAnalysisAction(fields: seq<(string, Json)>, files: seq<Json>)
    ensures Lookup(ShapeAnalysis(JObj(fields), files).value.fields, "action")
         == Some(GetOr(fields, "action_plan", JStr("No action plan available")))
  {
    AnalysisKeysDistinct();
    LookupZip(ANALYSIS_KEYS, AnalysisValues(fields, files), 1);
  }

  /** `analysis_method` is `targeted` exactly when relevant files were
      found, and `full_repository` otherwise. */
  lemma ShapeAnalysisMethod(fields: seq<(string, Json)>, files: seq<Json>)
    ensures Lookup(ShapeAnalysis(JObj(fields), files).value.fields, "analysis_method")
         == Some(JStr(if |files| > 0 then "targeted" else "full_repository"))
  {
    AnalysisKeysDistinct();
    LookupZip(ANALYSIS_KEYS, AnalysisValues(fields, files), 6);
  }

  /** `files_analyzed` is the list of files, or the text `full_repository`
      when there are none. */
  lemma ShapeAnalysisFiles(fields: seq<(string, Json)>, files: seq<Json>)
    ensures Lookup(ShapeAnalysis(JObj(fields), files).value.fields, "files_analyzed")
         == Some(if |files| > 0 then JArr(files) else JStr("full_repository"))
  {
    AnalysisKeysDistinct();
    LookupZip(ANALYSIS_KEYS, AnalysisValues(fields, files), 7);
  }

  /** `analyze_issue_with_devin_context` given the outcome of the scan, the
      reply to the creation request and the script of the polls. */
  function AnalyzeIssueWithDevinContext(scan: Result<seq<Json>, Exc>, createReply: Result<Json, Exc>,
                                        poll: nat -> ApiSession.ApiPollReply): (r: Result<Json, Exc>)
    ensures ApiSession.CreateDevinSession(createReply).Err? && JoinsAsText(RelevantFilesOrEmpty(scan)) ==>
      r == Err(ApiSession.CreateDevinSession(createReply).error)
    ensures !JoinsAsText(RelevantFilesOrEmpty(scan)) ==> r.Err? && r.error.kind == TypeError
  {
    var files := RelevantFilesOrEmpty(scan);
    if !JoinsAsText(files) then Err(Exc(TypeError, "sequence item: expected str instance"))
    else
      match ApiSession.CreateDevinSession(createReply)
      case Err(e) => Err(e)
      case Ok(sid) =>
        match ApiSession.WaitForSessionCompletion(poll, PyStr(sid), AnalysisTimeout(files)).result
        case Err(e) => Err(e)
        case Ok(result) =>
          match PyGet(result, "structured_output", JObj([]))
          case Err(e) => Err(e)
          case Ok(so) => ShapeAnalysis(so, files)
  }

  /** A failed scan is indistinguishable from a scan that found nothing: the
      exception never reaches the caller. */
  lemma ScanFailureFallsBack(e: Exc, createReply: Result<Json, Exc>, poll: nat -> ApiSession.ApiPollReply)
    ensures AnalyzeIssueWithDevinContext(Err(e), createReply, poll)
         == AnalyzeIssueWithDevinContext(Ok([]), createReply, poll)
  {
  }

  /** A session that never finishes raises the poller's timeout, after
      300 s when the scan found files and after 600 s when it did not. */
  lemma TimeoutFollowsScan(scan: Result<seq<Json>, Exc>, createReply: Result<Json, Exc>,
                           poll: nat -> ApiSession.ApiPollReply)
    requires JoinsAsText(RelevantFilesOrEmpty(scan))
    requires ApiSession.CreateDevinSession(createReply).Ok?
    requires forall j: nat :: ApiSession.ApiStep(poll(j)).Continue?
    ensures var sid := PyStr(ApiSession.CreateDevinSession(createReply).value);
      AnalyzeIssueWithDevinContext(scan, createReply, poll)
        == Err(ApiSession.TimeoutError(sid, if |RelevantFilesOrEmpty(scan)| > 0 then 300 else 600))
  {
    var sid := PyStr(ApiSession.CreateDevinSession(createReply).value);
    var run := ApiSession.WaitForSessionCompletion(poll, sid, AnalysisTimeout(RelevantFilesOrEmpty(scan)));
    assert run.timedOut;
  }

  /** A finished session gives the eight-key dict of its structured output
      (the defaults when it has none); a `structured_output` that is not a
      dict raises AttributeError. */
  lemma FinishedAnalysisIsShaped(scan: Result<seq<Json>, Exc>, createReply: Result<Json, Exc>,
                                 poll: nat -> ApiSession.ApiPollReply, result: Json)
    ensures JoinsAsText(RelevantFilesOrEmpty(scan))
            && ApiSession.CreateDevinSession(createReply).Ok?
            && ApiSession.WaitForSessionCompletion(poll, PyStr(ApiSession.CreateDevinSession(createReply).value),
                                                   AnalysisTimeout(RelevantFilesOrEmpty(scan))).result == Ok(result)
            && result.JObj? && "structured_output" !in Keys(result.fields) ==>
      var r := AnalyzeIssueWithDevinContext(scan, createReply, poll);
      r.Ok? && var a := r.value;
      a.JObj? && Keys(a.fields) == ANALYSIS_KEYS
      && Lookup(a.fields, "score") == Some(JInt(0))
      && Lookup(a.fields, "action") == Some(JStr("No action plan available"))
    ensures JoinsAsText(RelevantFilesOrEmpty(scan))
            && ApiSession.CreateDevinSession(createReply).Ok?
            && ApiSession.WaitForSessionCompletion(poll, PyStr(ApiSession.CreateDevinSession(createReply).value),
                                                   AnalysisTimeout(RelevantFilesOrEmpty(scan))).result == Ok(result)
            && result.JObj? && Lookup(result.fields, "structured_output").Some? ==>
      AnalyzeIssueWithDevinContext(scan, createReply, poll)
        == ShapeAnalysis(Lookup(result.fields, "structured_output").value, RelevantFilesOrEmpty(scan))
  {
    ShapeAnalysisScore([], RelevantFilesOrEmpty(scan));
    ShapeAnalysisAction([], RelevantFilesOrEmpty(scan));
  }
}

=== FILE: issue_fetcher.dfy ===
/** Agent 1 (`IssueFetcherAgent`): the issue list of a repository, read
    from `issues_{key}.json` when that file exists, otherwise fetched by one
    session, normalised and written back; and the lookup of one cached issue
    by number. */
module IssueFetcher {
  import opened Wrappers
  import opened Json
  import opened Markers
  import opened SessionData
  import opened JsonExtract
  import CoreSession
  import CacheKey
  import opened AgentEnv

  const ISSUES_FETCH_TIMEOUT: int := 120

  /** What one extracted document yields: a non-empty list as it stands, or
      the `issues` value of a dict holding that key; anything else falls
      through. */
  function IssuesOfDocument(doc: Option<Json>): (r: Option<Json>)
    ensures doc.Some? && doc.value.JArr? && |doc.value.items| > 0 ==> r == doc
    ensures doc.Some? && doc.value.JObj? ==> r == Lookup(doc.value.fields, "issues")
    ensures doc.None? || !(doc.value.JArr? || doc.value.JObj?) || !Truthy(doc.value) ==> r.None?
  {
    match doc
    case Some(JArr(items)) => if |items| > 0 then doc else None
    case Some(JObj(fields)) => Lookup(fields, "issues")
    case _ => None
  }

  /** `result.get("message_attachments", [])` as the entries
      `extract_json_from_attachments` reads. */
  function MessageAttachmentRefs(snap: Snapshot): (refs: seq<AttachmentRef>)
    ensures snap.messageAttachments.None? ==> refs == []
  {
    var atts := snap.messageAttachments.GetOr([]);
    seq(|atts|, i requires 0 <= i < |atts| => AsRef(atts[i]))
  }

  /** `_extract_issues_from_result`: the session's `attachments` first, then
      its `message_attachments`, and `[]` when neither yields issues. What
      `attachments` yields wins; `message_attachments` is consulted only
      when it yields nothing. */
  function ExtractIssuesFromResult(snap: Snapshot, download: (string, string) -> Option<string>,
                                   parse: string -> Option<Json>): (r: Json)
    ensures |snap.attachments| == 0 && MessageAttachmentRefs(snap) == [] ==> r == JArr([])
    ensures var a := IssuesOfDocument(ExtractJsonFromAttachments(snap.attachments, download, parse));
      a.Some? ==> r == a.value
    ensures var a := IssuesOfDocument(ExtractJsonFromAttachments(snap.attachments, download, parse));
      var m := IssuesOfDocument(ExtractJsonFromAttachments(MessageAttachmentRefs(snap), download, parse));
      a.None? ==> r == m.GetOr(JArr([]))
  {
    var fromAttachments :=
      if |snap.attachments| > 0 then IssuesOfDocument(ExtractJsonFromAttachments(snap.attachments, download, parse))
      else None;
    if fromAttachments.Some? then fromAttachments.value
    else
      var refs := MessageAttachmentRefs(snap);
      var fromMessages := if |refs| > 0 then IssuesOfDocument(ExtractJsonFromAttachments(refs, download, parse)) else None;
      fromMessages.GetOr(JArr([]))
  }

  /** A list document found among the attachments is returned as it stands,
      whatever the message attachments hold. */
  lemma AttachedListIsReturned(snap: Snapshot, download: (string, string) -> Option<string>,
                               parse: string -> Option<Json>, items: seq<Json>)
    requires ExtractJsonFromAttachments(snap.attachments, download, parse) == Some(JArr(items))
    requires |items| > 0
    ensures ExtractIssuesFromResult(snap, download, parse) == JArr(items)
  {
  }

  /** When no entry of either source downloads and parses, there are no
      issues. */
  lemma NothingDownloadedIsEmpty(snap: Snapshot, download: (string, string) -> Option<string>,
                                 parse: string -> Option<Json>)
    requires forall i :: 0 <= i < |snap.attachments| ==> FetchRef(snap.attachments[i], download, parse).None?
    requires var refs := MessageAttachmentRefs(snap);
      forall i :: 0 <= i < |refs| ==> FetchRef(refs[i], download, parse).None?
    ensures ExtractIssuesFromResult(snap, download, parse) == JArr([])
  {
  }

  /** The keys of a normalised issue, in order. */
  const ISSUE_KEYS: seq<string> := ["number", "title", "body", "created_at", "labels"]

  /** The values of a normalised issue, in key order. */
  function IssueValues(fields: seq<(string, Json)>): seq<Json> {
    [ GetOr(fields, "number", JNull),
      GetOr(fields, "title", JStr("")),
      GetOr(fields, "body", JStr("")),
      GetOr(fields, "created_at", JStr("")),
      GetOr(fields, "labels", JArr([])) ]
  }

  /** The normalised form of one issue dict. */
  function NormalizeIssue(fields: seq<(string, Json)>): (r: Json)
    ensures r.JObj? && Keys(r.fields) == ISSUE_KEYS
  {
    JObj(Zip(ISSUE_KEYS, IssueValues(fields)))
  }

  lemma IssueKeysDistinct()
    ensures forall i, j :: 0 <= i < j < |ISSUE_KEYS| ==> ISSUE_KEYS[i] != ISSUE_KEYS[j]
  {
    var ks := ISSUE_KEYS;
    assert |ks[0]| == 6 && |ks[1]| == 5 && |ks[2]| == 4 && |ks[3]| == 10 && |ks[4]| == 6;
    assert ks[0][0] != ks[4][0];
  }

  /** Each key of the normalised issue is bound to the issue's `.get` of
      it, with its default: `number` None, `title`, `body` and `created_at`
      the empty string, `labels` the empty list. */
  lemma NormalizedField(fields: seq<(string, Json)>, i: nat)
    requires i < |ISSUE_KEYS|
    ensures Lookup(NormalizeIssue(fields).fields, ISSUE_KEYS[i]) == Some(IssueValues(fields)[i])
  {
    IssueKeysDistinct();
    LookupZip(ISSUE_KEYS, IssueValues(fields), i);
  }

  /** Whether the normalisation keeps an issue dict. */
  predicate Kept(issue: Json) {
    issue.JObj? && Truthy(GetOr(issue.fields, "number", JNull))
  }

  /** One pass of the loop body: `.get` raises on an entry that is not a
      dict; a dict is normalised and kept when its number is truthy. */
  function NormalizeOne(issue: Json): (r: Result<seq<Json>, Exc>)
    ensures r.Ok? <==> issue.JObj?
    ensures r.Err? ==> r.error.kind == AttributeError
  {
    match PyGet(issue, "number", JNull)
    case Err(e) => Err(e)
    case Ok(number) => Ok(if Truthy(number) then [NormalizeIssue(issue.fields)] else [])
  }

  /** The `for` loop of the normalisation, issue by issue; the first entry
      that is not a dict raises. */
  function NormalizeIssues(items: seq<Json>): (r: Result<seq<Json>, Exc>)
    ensures r.Ok? <==> AllDicts(items)
    ensures r.Err? ==> r.error.kind == AttributeError
  {
    if |items| == 0 then Ok([])
    else
      assert forall i :: 1 <= i < |items| ==> items[i] == items[1..][i - 1];
      match NormalizeOne(items[0])
      case Err(e) => Err(e)
      case Ok(head) =>
        match NormalizeIssues(items[1..])
        case Err(e) => Err(e)
        case Ok(rest) => Ok(head + rest)
  }

  /** A single issue dict is kept, normalised, exactly when its number is
      truthy. */
  lemma NormalizeSingle(issue: Json)
    requires issue.JObj?
    ensures NormalizeIssues([issue]) == Ok(if Kept(issue) then [NormalizeIssue(issue.fields)] else [])
  {
    assert [issue][0] == issue;
    assert [issue][1..] == [];
    assert NormalizeIssues([]) == Ok([]);
    var h := NormalizeOne(issue).value;
    assert h + [] == h;
  }

  /** A loop that runs `step` on each item and concatenates what it
      returns, stopping at the first exception. */
  function Steps(step: Json -> Result<seq<Json>, Exc>, items: seq<Json>): Result<seq<Json>, Exc> {
    if |items| == 0 then Ok([])
    else
      match step(items[0])
      case Err(e) => Err(e)
      case Ok(head) =>
        match Steps(step, items[1..])
        case Err(e) => Err(e)
        case Ok(rest) => Ok(head + rest)
  }

  /** Such a loop over a concatenation completes when it completes on both
      parts, and returns the concatenation of their results. */
  lemma {:induction false} StepsAppend(step: Json -> Result<seq<Json>, Exc>, a: seq<Json>, b: seq<Json>)
    requires Steps(step, a).Ok? && Steps(step, b).Ok?
    ensures Steps(step, a + b) == Ok(Steps(step, a).value + Steps(step, b).value)
    decreases |a|
  {
    if |a| == 0 {
      assert a + b == b;
      assert [] + Steps(step, b).value == Steps(step, b).value;
    } else {
      StepsAppend(step, a[1..], b);
      assert (a + b)[0] == a[0] && (a + b)[1..] == a[1..] + b;
      var h, ra, rb := step(a[0]).value, Steps(step, a[1..]).value, Steps(step, b).value;
      assert h + (ra + rb) == (h + ra) + rb;
    }
  }

  /** The normalisation is the loop running `NormalizeOne`. */
  lemma {:induction false} NormalizeIssuesSteps(items: seq<Json>)
    ensures NormalizeIssues(items) == Steps(NormalizeOne, items)
    decreases |items|
  {
    if |items| > 0 {
      NormalizeIssuesSteps(items[1..]);
    }
  }

  /** The normalisation works issue by issue: on a concatenation it is the
      concatenation of the results, so the kept issues stay in input
      order. */
  lemma NormalizeIssuesAppend(a: seq<Json>, b: seq<Json>)
    requires NormalizeIssues(a).Ok? && NormalizeIssues(b).Ok?
    ensures NormalizeIssues(a + b) == Ok(NormalizeIssues(a).value + NormalizeIssues(b).value)
  {
    NormalizeIssuesSteps(a);
    NormalizeIssuesSteps(b);
    NormalizeIssuesSteps(a + b);
    StepsAppend(NormalizeOne, a, b);
  }

  /** Every kept issue has a truthy number and is the normalised form of an
      input issue. */
  lemma {:induction false} NormalizedIssuesHaveNumbers(items: seq<Json>)
    requires NormalizeIssues(items).Ok?
    ensures forall x :: x in NormalizeIssues(items).value ==>
      exists i :: 0 <= i < |items| && Kept(items[i]) && x == NormalizeIssue(items[i].fields)
    decreases |items|
  {
    if |items| > 0 {
      var rest := items[1..];
      NormalizedIssuesHaveNumbers(rest);
      forall x | x in NormalizeIssues(items).value
        ensures exists i :: 0 <= i < |items| && Kept(items[i]) && x == NormalizeIssue(items[i].fields)
      {
        if x in NormalizeIssues(rest).value {
          var i :| 0 <= i < |rest| && Kept(rest[i]) && x == NormalizeIssue(rest[i].fields);
          assert rest[i] == items[i + 1];
        } else {
          assert x in NormalizeOne(items[0]).value;
        }
      }
    }
  }

  /** A kept issue's normalised number is its (truthy) number. */
  lemma KeptNumberIsTruthy(issue: Json)
    requires Kept(issue)
    ensures Truthy(GetOr(NormalizeIssue(issue.fields).fields, "number", JNull))
  {
    NormalizedField(issue.fields, 0);
  }

  /** The cache file of the repository's issue list. */
  function IssuesFile(repoUrl: string): string {
    CacheKey.IssuesCacheFile(repoUrl)
  }

  /** `fetch_and_cache_issues`: the stored list when the cache file exists;
      otherwise one session waited on for 120 s, whose extracted issues, when
      truthy, are normalised and written to the cache file (even when no
      issue survives). */
  function FetchAndCacheIssues(cache: Cache, repoUrl: string, remote: Remote, svc: Services): (r: AgentRun)
    ensures !r.contacted ==> r.cache == cache
    ensures r.cache == cache
         || (r.contacted && IssuesFile(repoUrl) !in cache && r.result.Ok?
             && r.cache == cache[IssuesFile(repoUrl) := r.result.value])
  {
    var path := IssuesFile(repoUrl);
    if path in cache then AgentRun(Ok(cache[path]), cache, false)
    else
      match RunSession(remote, ISSUES_FETCH_TIMEOUT, false)
      case Err(e) => AgentRun(Err(e), cache, true)
      case Ok(snap) =>
        var issues := ExtractIssuesFromResult(snap, svc.download, svc.parse);
        if Truthy(issues) then
          match PyIter(issues)
          case Err(e) => AgentRun(Err(e), cache, true)
          case Ok(items) =>
            match NormalizeIssues(items)
            case Err(e) => AgentRun(Err(e), cache, true)
            case Ok(normalized) => AgentRun(Ok(JArr(normalized)), cache[path := JArr(normalized)], true)
        else AgentRun(Ok(issues), cache, true)
  }

  /** When the cache file exists its document is returned and no session is
      created. */
  lemma CacheHitCreatesNoSession(cache: Cache, repoUrl: string, remote: Remote, svc: Services)
    requires IssuesFile(repoUrl) in cache
    ensures FetchAndCacheIssues(cache, repoUrl, remote, svc) == AgentRun(Ok(cache[IssuesFile(repoUrl)]), cache, false)
  {
  }

  /** After a finished session, the file is written exactly when the
      extracted issues are truthy, and then holds the normalised list, which
      may be empty; falsy issues are returned as they are. */
  lemma WrittenIffExtracted(cache: Cache, repoUrl: string, remote: Remote, svc: Services, snap: Snapshot)
    requires IssuesFile(repoUrl) !in cache
    requires RunSession(remote, ISSUES_FETCH_TIMEOUT, false) == Ok(snap)
    ensures var issues := ExtractIssuesFromResult(snap, svc.download, svc.parse);
      var r := FetchAndCacheIssues(cache, repoUrl, remote, svc);
      && (!Truthy(issues) ==> r == AgentRun(Ok(issues), cache, true))
      && (Truthy(issues) && issues.JArr? && NormalizeIssues(issues.items).Ok? ==>
            r.result == Ok(JArr(NormalizeIssues(issues.items).value))
            && r.cache == cache[IssuesFile(repoUrl) := JArr(NormalizeIssues(issues.items).value)])
  {
  }

  /** The file written is the file read: once a call has left the file in
      place, the next call returns the same value without a session. */
  lemma SecondFetchHits(cache: Cache, repoUrl: string, remote1: Remote, remote2: Remote, svc: Services)
    requires IssuesFile(repoUrl) in FetchAndCacheIssues(cache, repoUrl, remote1, svc).cache
    ensures var r1 := FetchAndCacheIssues(cache, repoUrl, remote1, svc);
      FetchAndCacheIssues(r1.cache, repoUrl, remote2, svc) == AgentRun(r1.result, r1.cache, false)
  {
  }

  /** `get_cached_issues`: the stored list, or `[]` without a file. */
  function GetCachedIssues(cache: Cache, repoUrl: string): (r: Json)
    ensures IssuesFile(repoUrl) !in cache ==> r == JArr([])
  {
    if IssuesFile(repoUrl) in cache then cache[IssuesFile(repoUrl)] else JArr([])
  }

  /** `issue.get('number') == n`. */
  predicate HasNumber(issue: Json, n: int)
    requires issue.JObj?
  {
    PyEqInt(GetOr(issue.fields, "number", JNull), n)
  }

  /** Every entry is a dict whose number is not `n`. */
  predicate NoneHasNumber(items: seq<Json>, n: int) {
    forall i :: 0 <= i < |items| ==> items[i].JObj? && !HasNumber(items[i], n)
  }

  /** The first issue whose `number` equals `n`, or None; `.get` on an
      entry that is not a dict raises. */
  function FirstWithNumber(items: seq<Json>, n: int): (r: Result<Option<Json>, Exc>)
    ensures r.Err? ==> r.error.kind == AttributeError
    ensures r == Ok(None) <==> NoneHasNumber(items, n)
  {
    if |items| == 0 then Ok(None)
    else if !items[0].JObj? then Err(Exc(AttributeError, "object has no attribute 'get'"))
    else if HasNumber(items[0], n) then Ok(Some(items[0]))
    else
      assert forall i :: 1 <= i < |items| ==> items[i] == items[1..][i - 1];
      FirstWithNumber(items[1..], n)
  }

  /** A found issue is the first dict with that number, and every entry
      before it is a dict with another number. */
  lemma {:induction false} FirstWithNumberIsFirst(items: seq<Json>, n: int)
    requires FirstWithNumber(items, n).Ok? && FirstWithNumber(items, n).value.Some?
    ensures exists i :: 0 <= i < |items| && items[i] == FirstWithNumber(items, n).value.value
                        && items[i].JObj? && HasNumber(items[i], n)
                        && forall k :: 0 <= k < i ==> items[k].JObj? && !HasNumber(items[k], n)
    decreases |items|
  {
    var found := FirstWithNumber(items, n).value.value;
    if HasNumber(items[0], n) {
      assert items[0] == found;
    } else {
      var rest := items[1..];
      assert FirstWithNumber(items, n) == FirstWithNumber(rest, n);
      FirstWithNumberIsFirst(rest, n);
      var i :| 0 <= i < |rest| && rest[i] == FirstWithNumber(rest, n).value.value
               && rest[i].JObj? && HasNumber(rest[i], n)
               && forall k :: 0 <= k < i ==> rest[k].JObj? && !HasNumber(rest[k], n);
      assert items[i + 1] == rest[i];
      forall k | 0 <= k < i + 1
        ensures items[k].JObj? && !HasNumber(items[k], n)
      {
        if k > 0 {
          assert items[k] == rest[k - 1];
        }
      }
      assert items[i + 1] == found;
    }
  }

  /** `get_single_issue`: the first cached issue with that number, or
      None. */
  function GetSingleIssue(cache: Cache, repoUrl: string, n: int): (r: Result<Option<Json>, Exc>)
    ensures IssuesFile(repoUrl) !in cache ==> r == Ok(None)
  {
    match PyIter(GetCachedIssues(cache, repoUrl))
    case Err(e) => Err(e)
    case Ok(items) => FirstWithNumber(items, n)
  }

  /** After a fetch that wrote the file, the lookup searches exactly the
      list the fetch returned. */
  lemma SingleIssueSearchesFetchedList(cache: Cache, repoUrl: string, remote: Remote, svc: Services, n: int,
                                       items: seq<Json>)
    ensures FetchAndCacheIssues(cache, repoUrl, remote, svc).cache != cache
            && FetchAndCacheIssues(cache, repoUrl, remote, svc).result == Ok(JArr(items)) ==>
      GetSingleIssue(FetchAndCacheIssues(cache, repoUrl, remote, svc).cache, repoUrl, n) == FirstWithNumber(items, n)
  {
  }
}

=== FILE: json.dfy ===
/** JSON documents as the Python code sees them after `json.loads`, with the
    few Python operations the repository applies to them: truthiness,
    `dict.get`, `dict.update`, iteration, `x[0]`, `str(x)` and `x == n`. */
module Json {
  import opened Wrappers
  import Text

  /** An object keeps its key/value pairs in insertion order, as a Python
      dict does. Floating-point numbers are not modelled. */
  datatype Json =
    | JNull
    | JBool(b: bool)
    | JInt(i: int)
    | JStr(s: string)
    | JArr(items: seq<Json>)
    | JObj(fields: seq<(string, Json)>)

  /** Every item is a dict. */
  predicate AllDicts(items: seq<Json>) {
    forall i :: 0 <= i < |items| ==> items[i].JObj?
  }

  /** Every item is a string. */
  predicate AllStrings(items: seq<Json>) {
    forall i :: 0 <= i < |items| ==> items[i].JStr?
  }

  /** Python's `bool(x)`. */
  predicate Truthy(j: Json) {
    match j
    case JNull => false
    case JBool(b) => b
    case JInt(i) => i != 0
    case JStr(s) => |s| > 0
    case JArr(items) => |items| > 0
    case JObj(fields) => |fields| > 0
  }

  /** The falsy JSON values are exactly None, False, 0, "", [] and {}. */
  lemma FalsyValues(j: Json)
    ensures !Truthy(j) <==> j in [JNull, JBool(false), JInt(0), JStr(""), JArr([]), JObj([])]
  {
  }

  function Keys(fields: seq<(string, Json)>): (ks: seq<string>)
    ensures |ks| == |fields|
    ensures forall i :: 0 <= i < |fields| ==> ks[i] == fields[i].0
  {
    if |fields| == 0 then [] else [fields[0].0] + Keys(fields[1..])
  }

  /** The value bound to `key`, looking at the first binding. A document
      from `json.loads` keeps only the last of repeated keys; the objects
      here are taken to have distinct keys, so the two agree. */
  function Lookup(fields: seq<(string, Json)>, key: string): (r: Option<Json>)
    ensures r.None? <==> key !in Keys(fields)
  {
    if |fields| == 0 then None
    else if fields[0].0 == key then Some(fields[0].1)
    else Lookup(fields[1..], key)
  }

  /** A key that is found is bound to the value found. */
  lemma {:induction false} LookupFound(fields: seq<(string, Json)>, key: string)
    ensures Lookup(fields, key).Some? ==> (key, Lookup(fields, key).value) in fields
  {
    if |fields| > 0 && fields[0].0 != key {
      LookupFound(fields[1..], key);
    }
  }

  /** A dict with the given keys and values, in that order. */
  function Zip(ks: seq<string>, vs: seq<Json>): (fields: seq<(string, Json)>)
    requires |ks| == |vs|
    ensures Keys(fields) == ks
  {
    if |ks| == 0 then [] else [(ks[0], vs[0])] + Zip(ks[1..], vs[1..])
  }

  /** A key that occurs nowhere earlier is bound to its own value. */
  lemma {:induction false} LookupZip(ks: seq<string>, vs: seq<Json>, i: nat)
    requires |ks| == |vs| && i < |ks|
    requires forall j :: 0 <= j < i ==> ks[j] != ks[i]
    ensures Lookup(Zip(ks, vs), ks[i]) == Some(vs[i])
    decreases i
  {
    if i > 0 {
      LookupZip(ks[1..], vs[1..], i - 1);
    }
  }

  /** `d[key] = value` (and so `d.update({key: value})`): an existing binding
      is overwritten in place, a new one is appended. */
  function Set(fields: seq<(string, Json)>, key: string, value: Json): (r: seq<(string, Json)>)
    ensures Lookup(r, key) == Some(value)
    ensures forall k :: k != key ==> Lookup(r, k) == Lookup(fields, k)
    ensures |r| == if key in Keys(fields) then |fields| else |fields| + 1
    ensures |r| > 0
  {
    if |fields| == 0 then [(key, value)]
    else if fields[0].0 == key then [(key, value)] + fields[1..]
    else [fields[0]] + Set(fields[1..], key, value)
  }

  /** `d.get(key, default)` on a dict. */
  function GetOr(fields: seq<(string, Json)>, key: string, default: Json): (r: Json)
    ensures key in Keys(fields) ==> Some(r) == Lookup(fields, key)
    ensures key !in Keys(fields) ==> r == default
  {
    Lookup(fields, key).GetOr(default)
  }

  /** `x.get(key, default)` on any value: only a dict has `get`. */
  function PyGet(j: Json, key: string, default: Json): (r: Result<Json, Exc>)
    ensures r.Ok? <==> j.JObj?
    ensures r.Ok? ==> r.value == GetOr(j.fields, key, default)
    ensures r.Err? ==> r.error.kind == AttributeError
  {
    match j
    case JObj(fields) => Ok(GetOr(fields, key, default))
    case _ => Err(Exc(AttributeError, "object has no attribute 'get'"))
  }

  /** `j[key]` with a string key: a dict lookup that raises KeyError when
      the key is missing; any other value raises TypeError. */
  function PySubscript(j: Json, key: string): (r: Result<Json, Exc>)
    ensures r.Ok? <==> j.JObj? && key in Keys(j.fields)
    ensures r.Ok? ==> Lookup(j.fields, key) == Some(r.value)
    ensures r.Err? ==> r.error.kind == (if j.JObj? then KeyError else TypeError)
  {
    match j
    case JObj(fields) =>
      (match Lookup(fields, key)
       case Some(v) => Ok(v)
       case None => Err(Exc(KeyError, "'" + key + "'")))
    case _ => Err(Exc(TypeError, "object is not subscriptable by a string"))
  }

  /** `key in j` for a string `key`: a dict tests its keys, a list its
      items, a string its substrings; numbers, booleans and None raise
      TypeError. */
  function PyContains(j: Json, key: string): (r: Result<bool, Exc>)
    ensures r.Err? <==> j.JNull? || j.JBool? || j.JInt?
    ensures r.Err? ==> r.error.kind == TypeError
    ensures j.JObj? ==> r == Ok(key in Keys(j.fields))
    ensures j.JArr? ==> r == Ok(JStr(key) in j.items)
    ensures j.JStr? ==> r == Ok(Text.Contains(j.s, key))
  {
    match j
    case JObj(fields) => Ok(key in Keys(fields))
    case JArr(items) => Ok(JStr(key) in items)
    case JStr(s) => Ok(Text.Contains(s, key))
    case _ => Err(Exc(TypeError, "argument of type is not iterable"))
  }

  /** What `for x in j` walks over: list items, dict keys, the characters
      of a string; numbers, booleans and None are not iterable. */
  function PyIter(j: Json): (r: Result<seq<Json>, Exc>)
    ensures j.JArr? ==> r == Ok(j.items)
    ensures r.Ok? ==> (|r.value| == 0 <==> !Truthy(j))
    ensures r.Err? <==> (j.JNull? || j.JBool? || j.JInt?)
    ensures (j.JObj? || j.JStr?) && r.Ok? ==> AllStrings(r.value)
  {
    match j
    case JArr(items) => Ok(items)
    case JObj(fields) => Ok(seq(|fields|, i requires 0 <= i < |fields| => JStr(fields[i].0)))
    case JStr(s) => Ok(seq(|s|, i requires 0 <= i < |s| => JStr([s[i]])))
    case _ => Err(Exc(TypeError, "object is not iterable"))
  }

  /** `j[0]`: the first item of a list or character of a string; a dict
      has no key 0 (JSON keys are strings). */
  function PyIndex0(j: Json): (r: Result<Json, Exc>)
    ensures j.JArr? && |j.items| > 0 ==> r == Ok(j.items[0])
    ensures r.Ok? <==> Truthy(j) && (j.JArr? || j.JStr?)
    ensures r.Err? ==> r.error.kind == (if j.JArr? || j.JStr? then IndexError else if j.JObj? then KeyError else TypeError)
  {
    match j
    case JArr(items) =>
      if |items| > 0 then Ok(items[0]) else Err(Exc(IndexError, "list index out of range"))
    case JStr(s) =>
      if |s| > 0 then Ok(JStr([s[0]])) else Err(Exc(IndexError, "string index out of range"))
    case JObj(_) => Err(Exc(KeyError, "0"))
    case _ => Err(Exc(TypeError, "object is not subscriptable"))
  }

  /** `str(j)` for the scalar values an issue number can take; lists and
      dicts render as a placeholder that no integer parse accepts. */
  function PyStr(j: Json): (r: string)
    ensures j.JStr? ==> r == j.s
    ensures j.JInt? ==> Text.ParseInt(r) == Some(j.i)
  {
    match j
    case JNull => "None"
    case JBool(b) => if b then "True" else "False"
    case JInt(i) => Text.IntToStringRoundTrip(i); Text.IntToString(i)
    case JStr(s) => s
    case JArr(_) => "[...]"
    case JObj(_) => "{...}"
  }

  /** Python's `j == n` for an integer `n` (a bool compares as 0 or 1). */
  predicate PyEqInt(j: Json, n: int) {
    match j
    case JInt(i) => i == n
    case JBool(b) => (if b then 1 else 0) == n
    case _ => false
  }
}

=== FILE: json_extract.dfy ===
/** Turning attachments and message text into JSON documents
    (`download_json_attachments`, `extract_json_from_attachments`,
    `extract_json_from_message_content`). Downloading an attachment and
    `json.loads` are parameters: `download(uuid, name)` is `None` when the
    request fails, `parse(text)` is `None` when the text is not JSON. */
module JsonExtract {
  import opened Wrappers
  import opened Json
  import Text
  import opened Markers
  import opened SessionData

  /** One entry `{"name": ..., "data": ...}` of `download_json_attachments`. */
  datatype NamedJson = NamedJson(name: string, data: Json)

  /** Download then parse; an empty download counts as a failure (`if content:`). */
  function Fetch(uuid: string, name: string,
                 download: (string, string) -> Option<string>,
                 parse: string -> Option<Json>): (r: Option<Json>)
    ensures r.Some? ==> download(uuid, name).Some? && |download(uuid, name).value| > 0
    ensures r.Some? ==> parse(download(uuid, name).value) == r
    ensures download(uuid, name).Some? && |download(uuid, name).value| > 0 ==> r == parse(download(uuid, name).value)
  {
    match download(uuid, name)
    case Some(content) => if |content| > 0 then parse(content) else None
    case None => None
  }

  /** The name tests of `download_json_attachments`; an empty filter (or
      `None`) filters nothing. */
  predicate PassesFilter(name: string, nameFilter: string) {
    (|nameFilter| == 0 || Text.StartsWith(name, nameFilter)) && Text.HasJsonExtension(name)
  }

  function DownloadOne(a: Attachment, nameFilter: string,
                       download: (string, string) -> Option<string>,
                       parse: string -> Option<Json>): seq<NamedJson>
  {
    if PassesFilter(a.name, nameFilter) then
      match Fetch(a.uuid, a.name, download, parse)
      case Some(data) => [NamedJson(a.name, data)]
      case None => []
    else []
  }

  /** `download_json_attachments`: every candidate passing the name tests
      whose download and parse succeed, in input order; a failure only
      skips that candidate. */
  function DownloadJsonAttachments(atts: seq<Attachment>, nameFilter: string,
                                   download: (string, string) -> Option<string>,
                                   parse: string -> Option<Json>): (r: seq<NamedJson>)
    ensures |r| <= |atts|
    ensures forall x :: x in r ==> PassesFilter(x.name, nameFilter)
    ensures forall x :: x in r ==>
      exists a :: a in atts && a.name == x.name && Fetch(a.uuid, a.name, download, parse) == Some(x.data)
  {
    if |atts| == 0 then []
    else
      DownloadOne(atts[0], nameFilter, download, parse)
      + DownloadJsonAttachments(atts[1..], nameFilter, download, parse)
  }

  /** The result over a concatenation is the concatenation of the results:
      the kept entries form an in-order subsequence and no failure aborts
      the scan of later candidates. */
  lemma {:induction false} DownloadJsonAttachmentsAppend(a: seq<Attachment>, b: seq<Attachment>, nameFilter: string,
                                                         download: (string, string) -> Option<string>,
                                                         parse: string -> Option<Json>)
    ensures DownloadJsonAttachments(a + b, nameFilter, download, parse)
         == DownloadJsonAttachments(a, nameFilter, download, parse)
          + DownloadJsonAttachments(b, nameFilter, download, parse)
    decreases |a|
  {
    if |a| > 0 {
      assert (a + b)[0] == a[0];
      assert (a + b)[1..] == a[1..] + b;
      DownloadJsonAttachmentsAppend(a[1..], b, nameFilter, download, parse);
    } else {
      assert a + b == b;
    }
  }

  /** A candidate that fails the filter, the download or the parse adds
      nothing; one that passes all three adds exactly its document. */
  lemma DownloadJsonAttachmentsStep(a: Attachment, rest: seq<Attachment>, nameFilter: string,
                                    download: (string, string) -> Option<string>,
                                    parse: string -> Option<Json>)
    ensures !PassesFilter(a.name, nameFilter) || Fetch(a.uuid, a.name, download, parse).None? ==>
      DownloadJsonAttachments([a] + rest, nameFilter, download, parse)
        == DownloadJsonAttachments(rest, nameFilter, download, parse)
    ensures PassesFilter(a.name, nameFilter) && Fetch(a.uuid, a.name, download, parse).Some? ==>
      DownloadJsonAttachments([a] + rest, nameFilter, download, parse)
        == [NamedJson(a.name, Fetch(a.uuid, a.name, download, parse).value)]
         + DownloadJsonAttachments(rest, nameFilter, download, parse)
  {
    assert ([a] + rest)[0] == a;
    assert ([a] + rest)[1..] == rest;
  }

  /** The document `extract_json_from_attachments` gets from one entry:
      uuid and name present and non-empty, a `.json` name, then download
      and parse. */
  function FetchRef(ref: AttachmentRef,
                    download: (string, string) -> Option<string>,
                    parse: string -> Option<Json>): (r: Option<Json>)
    ensures r.Some? ==> ref.uuid.Some? && |ref.uuid.value| > 0 && ref.name.Some? && |ref.name.value| > 0
    ensures r.Some? ==> Text.HasJsonExtension(ref.name.value)
    ensures (ref.uuid.Some? && |ref.uuid.value| > 0 && ref.name.Some? && |ref.name.value| > 0
             && Text.HasJsonExtension(ref.name.value))
            ==> r == Fetch(ref.uuid.value, ref.name.value, download, parse)
  {
    match (ref.uuid, ref.name)
    case (Some(uuid), Some(name)) =>
      if |uuid| > 0 && |name| > 0 && Text.HasJsonExtension(name) then Fetch(uuid, name, download, parse)
      else None
    case _ => None
  }

  /** `extract_json_from_attachments`: the document of the first entry that
      yields one, and `None` when none does. */
  function ExtractJsonFromAttachments(refs: seq<AttachmentRef>,
                                      download: (string, string) -> Option<string>,
                                      parse: string -> Option<Json>): (r: Option<Json>)
    ensures r.Some? ==>
      exists i :: 0 <= i < |refs| && FetchRef(refs[i], download, parse) == r
                  && forall k :: 0 <= k < i ==> FetchRef(refs[k], download, parse).None?
    ensures r.None? <==> forall i :: 0 <= i < |refs| ==> FetchRef(refs[i], download, parse).None?
  {
    if |refs| == 0 then None
    else
      var first := FetchRef(refs[0], download, parse);
      if first.Some? then first
      else
        var rest := ExtractJsonFromAttachments(refs[1..], download, parse);
        assert forall i :: 1 <= i < |refs| ==> refs[i] == refs[1..][i - 1];
        if rest.Some? then
          var i :| 0 <= i < |refs[1..]| && FetchRef(refs[1..][i], download, parse) == rest
            && forall k :: 0 <= k < i ==> FetchRef(refs[1..][k], download, parse).None?;
          assert FetchRef(refs[i + 1], download, parse) == rest;
          rest
        else rest
  }

  /** The span `re.search(r'\{.*\}', s, re.DOTALL)` matches, as the start and
      end (exclusive) indices: from the first `{` to the last `}` after it. */
  function BraceSpan(s: string): (r: Option<(nat, nat)>)
    ensures r.Some? ==> r.value.0 + 2 <= r.value.1 <= |s|
    ensures r.Some? ==> s[r.value.0] == '{' && s[r.value.1 - 1] == '}'
    ensures r.Some? ==> forall k :: 0 <= k < r.value.0 ==> s[k] != '{'
    ensures r.Some? ==> forall k :: r.value.1 <= k < |s| ==> s[k] != '}'
    ensures r.None? <==> forall i, k :: 0 <= i < k < |s| && s[i] == '{' ==> s[k] != '}'
  {
    match (Text.IndexOf(s, '{'), Text.LastIndexOf(s, '}'))
    case (Some(i), Some(j)) => if i < j then Some((i, j + 1)) else None
    case _ => None
  }

  /** `extract_json_from_message_content`: parse the brace span, or `None`
      when there is none or it is not JSON. */
  function ExtractJsonFromMessageContent(content: string, parse: string -> Option<Json>): (r: Option<Json>)
    ensures r.Some? ==> BraceSpan(content).Some?
    ensures BraceSpan(content).Some? ==>
      r == parse(content[BraceSpan(content).value.0..BraceSpan(content).value.1])
  {
    match BraceSpan(content)
    case Some((i, e)) => parse(content[i..e])
    case None => None
  }
}

=== FILE: markers.dfy ===
/** Attachment references embedded in agent messages
    (`extract_attachment_urls_from_messages` and the two patterns it uses):
    the marker grammar `ATTACHMENT:"<url>"` and the url shape
    `.../attachments/{uuid}/{name}`, written as explicit string functions. */
module Markers {
  import opened Wrappers
  import Text

  /** One entry of a session's `messages` list; a missing `type` or
      `message` reads as the empty string, as `msg.get(...)` does. */
  datatype Message = Message(kind: string, content: string)

  /** An attachment found in a message or in `structured_output`. */
  datatype Attachment = Attachment(uuid: string, name: string, url: string)

  const DEVIN_MESSAGE: string := "devin_message"

  /** The literal that opens a marker; the url runs to the next `"`. */
  const MARKER: string := "ATTACHMENT:\""

  const ATTACHMENTS_SEGMENT: string := "/attachments/"

  /** The length of the url of a marker opening `s`: the literal followed by
      at least one character and a closing quote. */
  function MarkerUrlLength(s: string): (r: Option<nat>)
    ensures r.Some? ==> Text.StartsWith(s, MARKER) && 0 < r.value && |MARKER| + r.value < |s|
    ensures r.Some? ==> s[|MARKER| + r.value] == '"' && '"' !in s[|MARKER|..|MARKER| + r.value]
  {
    if Text.StartsWith(s, MARKER) then
      match Text.IndexOf(s[|MARKER|..], '"')
      case Some(q) =>
        if q > 0 then
          assert forall i :: 0 <= i < q ==> s[|MARKER|..|MARKER| + q][i] == s[|MARKER|..][i];
          Some(q)
        else None
      case None => None
    else None
  }

  /** The urls of `re.findall(r'ATTACHMENT:"([^"]+)"', s)`: scanning left to
      right, a marker matches where the literal is followed by at least one
      character and a closing quote; the scan resumes after the quote, and
      a position where nothing matches is skipped. */
  function FindMarkers(s: string): (urls: seq<string>)
    ensures forall u :: u in urls ==> |u| > 0 && '"' !in u
    decreases |s|
  {
    if |s| == 0 then []
    else
      match MarkerUrlLength(s)
      case Some(q) => [s[|MARKER|..|MARKER| + q]] + FindMarkers(s[|MARKER| + q + 1..])
      case None => FindMarkers(s[1..])
  }

  /** The text a list of markers is written as, one after the other. */
  function RenderMarkers(urls: seq<string>): string {
    if |urls| == 0 then "" else MARKER + urls[0] + "\"" + RenderMarkers(urls[1..])
  }

  /** What occurs in a suffix of `s` occurs in `s`. */
  lemma SuffixMarkersOccur(s: string, k: nat)
    requires k <= |s|
    requires forall u :: u in FindMarkers(s[k..]) ==> Text.Occurs(s[k..], MARKER + u + "\"")
    ensures forall u :: u in FindMarkers(s[k..]) ==> Text.Occurs(s, MARKER + u + "\"")
  {
    forall u | u in FindMarkers(s[k..])
      ensures Text.Occurs(s, MARKER + u + "\"")
    {
      Text.OccursInSuffix(s, k, MARKER + u + "\"");
    }
  }

  /** The marker that `MarkerUrlLength` recognises is written at index 0. */
  lemma MarkerOccursAtStart(s: string)
    requires MarkerUrlLength(s).Some?
    ensures Text.OccursAt(s, MARKER + s[|MARKER|..|MARKER| + MarkerUrlLength(s).value] + "\"", 0)
  {
    var q := MarkerUrlLength(s).value;
    var u0 := s[|MARKER|..|MARKER| + q];
    assert s[0..|MARKER| + q + 1] == MARKER + u0 + "\"";
  }

  /** Every url found is really written inside a marker in the text. */
  lemma {:induction false} FoundMarkersOccur(s: string)
    ensures forall u :: u in FindMarkers(s) ==> Text.Occurs(s, MARKER + u + "\"")
    decreases |s|
  {
    if |s| > 0 {
      match MarkerUrlLength(s)
      case Some(q) =>
        var k := |MARKER| + q + 1;
        FoundMarkersOccur(s[k..]);
        SuffixMarkersOccur(s, k);
        MarkerOccursAtStart(s);
      case None =>
        FoundMarkersOccur(s[1..]);
        SuffixMarkersOccur(s, 1);
    }
  }

  /** How a rendered marker followed by more text splits up. */
  lemma RenderedMarkerParts(u: string, tail: string)
    ensures (MARKER + u + "\"" + tail)[..|MARKER|] == MARKER
    ensures (MARKER + u + "\"" + tail)[|MARKER|..] == u + ['"'] + tail
    ensures (MARKER + u + "\"" + tail)[|MARKER|..|MARKER| + |u|] == u
    ensures (MARKER + u + "\"" + tail)[|MARKER| + |u| + 1..] == tail
  {
    assert MARKER + u + "\"" + tail == MARKER + (u + ['"'] + tail);
  }

  /** A rendered marker opening a text is recognised with its own url. */
  lemma RenderedMarkerIsFound(u: string, tail: string)
    requires |u| > 0 && '"' !in u
    ensures MarkerUrlLength(MARKER + u + "\"" + tail) == Some(|u|)
  {
    RenderedMarkerParts(u, tail);
    Text.IndexOfAfter(u, '"', tail);
  }

  /** Parsing the rendering of well-formed urls gives them back, in order. */
  lemma {:induction false} FindMarkersOfRender(urls: seq<string>)
    requires forall u :: u in urls ==> |u| > 0 && '"' !in u
    ensures FindMarkers(RenderMarkers(urls)) == urls
    decreases |urls|
  {
    if |urls| > 0 {
      RenderedMarkerParts(urls[0], RenderMarkers(urls[1..]));
      RenderedMarkerIsFound(urls[0], RenderMarkers(urls[1..]));
      FindMarkersOfRender(urls[1..]);
    }
  }

  /** Text without the letter `A` cannot open a marker, so putting it in
      front of a message changes nothing. */
  lemma {:induction false} PlainTextFindsNothing(plain: string, s: string)
    requires 'A' !in plain
    ensures FindMarkers(plain + s) == FindMarkers(s)
    decreases |plain|
  {
    if |plain| > 0 {
      var t := plain + s;
      assert t[0] == plain[0] && t[0] != MARKER[0];
      assert !Text.StartsWith(t, MARKER);
      assert t[1..] == plain[1..] + s;
      PlainTextFindsNothing(plain[1..], s);
    } else {
      assert plain + s == s;
    }
  }

  /** `re.search(r'/attachments/([^/]+)/([^/]+)$', url)`: the name is the
      text after the last `/`, the uuid the text between the last two, and
      they must both be non-empty and follow `/attachments/`. */
  function SplitAttachmentUrl(url: string): (r: Option<(string, string)>)
    ensures r.Some? ==> |r.value.0| > 0 && |r.value.1| > 0
    ensures r.Some? ==> '/' !in r.value.0 && '/' !in r.value.1
    ensures r.Some? ==> Text.EndsWith(url, ATTACHMENTS_SEGMENT + r.value.0 + "/" + r.value.1)
  {
    match Text.LastIndexOf(url, '/')
    case None => None
    case Some(k) =>
      var name := url[k + 1..];
      var head := url[..k];
      match Text.LastIndexOf(head, '/')
      case None => None
      case Some(j) =>
        var uuid := head[j + 1..];
        if |uuid| > 0 && |name| > 0 && Text.EndsWith(head[..j], "/attachments") then
          SplitFacts(url, k, j);
          Some((uuid, name))
        else None
  }

  lemma SplitFacts(url: string, k: nat, j: nat)
    requires k < |url| && url[k] == '/' && forall i :: k < i < |url| ==> url[i] != '/'
    requires j < k && url[..k][j] == '/' && forall i :: j < i < k ==> url[..k][i] != '/'
    requires Text.EndsWith(url[..k][..j], "/attachments")
    ensures '/' !in url[k + 1..] && '/' !in url[..k][j + 1..]
    ensures Text.EndsWith(url, ATTACHMENTS_SEGMENT + url[..k][j + 1..] + "/" + url[k + 1..])
  {
    var head := url[..k];
    var name := url[k + 1..];
    var uuid := head[j + 1..];
    assert '/' !in name by {
      forall i | 0 <= i < |name| ensures name[i] == url[k + 1 + i] {}
    }
    assert '/' !in uuid by {
      forall i | 0 <= i < |uuid| ensures uuid[i] == head[j + 1 + i] {}
    }
    var front := head[..j];
    assert head == front + "/" + uuid;
    assert url == head + "/" + name;
    var p := |front| - |"/attachments"|;
    assert front == front[..p] + "/attachments";
    var suffix := ATTACHMENTS_SEGMENT + uuid + "/" + name;
    assert url == front[..p] + suffix;
    assert url[|url| - |suffix|..] == suffix;
  }

  /** Every url of the shape `<anything>/attachments/{uuid}/{name}` with
      slash-free, non-empty uuid and name is split into exactly those two. */
  lemma SplitAttachmentUrlComplete(prefix: string, uuid: string, name: string)
    requires |uuid| > 0 && |name| > 0 && '/' !in uuid && '/' !in name
    ensures SplitAttachmentUrl(prefix + ATTACHMENTS_SEGMENT + uuid + "/" + name) == Some((uuid, name))
  {
    var front := prefix + "/attachments";
    var head := front + ['/'] + uuid;
    var url := head + ['/'] + name;
    assert prefix + ATTACHMENTS_SEGMENT + uuid + "/" + name == url;
    Text.LastIndexOfBefore(head, '/', name);
    assert url[..|head|] == head;
    assert url[|head| + 1..] == name;
    Text.LastIndexOfBefore(front, '/', uuid);
    assert head[|front| + 1..] == uuid;
    assert head[..|front|] == front;
  }

  /** A parsed attachment: the url ends in `/attachments/{uuid}/{name}`. */
  predicate WellFormed(a: Attachment) {
    && |a.uuid| > 0 && |a.name| > 0
    && '/' !in a.uuid && '/' !in a.name
    && Text.EndsWith(a.url, ATTACHMENTS_SEGMENT + a.uuid + "/" + a.name)
  }

  /** The attachment of one url: none when it does not have the shape. */
  function UrlAttachment(url: string): (r: seq<Attachment>)
    ensures |r| <= 1
    ensures |r| == 1 <==> SplitAttachmentUrl(url).Some?
    ensures forall a :: a in r ==> a.url == url && SplitAttachmentUrl(url) == Some((a.uuid, a.name))
  {
    match SplitAttachmentUrl(url)
    case Some((uuid, name)) => [Attachment(uuid, name, url)]
    case None => []
  }

  /** The attachments of a list of urls, dropping the urls that do not
      have the attachment shape (the inner loop of
      `extract_attachment_urls_from_messages`). */
  function UrlsToAttachments(urls: seq<string>): (r: seq<Attachment>)
    ensures |r| <= |urls|
    ensures forall a :: a in r ==> WellFormed(a) && a.url in urls
    ensures forall a :: a in r ==> SplitAttachmentUrl(a.url) == Some((a.uuid, a.name))
  {
    if |urls| == 0 then [] else UrlAttachment(urls[0]) + UrlsToAttachments(urls[1..])
  }

  /** Urls without the attachment shape are dropped and the others keep
      their order, one attachment each. */
  lemma {:induction false} UrlsToAttachmentsAppend(a: seq<string>, b: seq<string>)
    ensures UrlsToAttachments(a + b) == UrlsToAttachments(a) + UrlsToAttachments(b)
    decreases |a|
  {
    if |a| > 0 {
      assert (a + b)[0] == a[0];
      assert (a + b)[1..] == a[1..] + b;
      assert UrlsToAttachments(a + b) == UrlAttachment(a[0]) + UrlsToAttachments(a[1..] + b);
      UrlsToAttachmentsAppend(a[1..], b);
    } else {
      assert a + b == b;
    }
  }

  /** The attachments one message contributes: only `devin_message`s. */
  function MessageAttachments(m: Message): (r: seq<Attachment>)
    ensures m.kind != DEVIN_MESSAGE ==> r == []
  {
    if m.kind == DEVIN_MESSAGE then UrlsToAttachments(FindMarkers(m.content)) else []
  }

  /** `extract_attachment_urls_from_messages`. */
  function ExtractAttachmentUrlsFromMessages(msgs: seq<Message>): (r: seq<Attachment>)
    ensures forall a :: a in r ==> WellFormed(a)
    ensures forall a :: a in r ==>
      exists i :: 0 <= i < |msgs| && msgs[i].kind == DEVIN_MESSAGE && a.url in FindMarkers(msgs[i].content)
  {
    if |msgs| == 0 then []
    else
      var rest := ExtractAttachmentUrlsFromMessages(msgs[1..]);
      assert forall a :: a in rest ==>
        exists i :: 1 <= i < |msgs| && msgs[i].kind == DEVIN_MESSAGE && a.url in FindMarkers(msgs[i].content)
      by {
        forall a | a in rest
          ensures exists i :: 1 <= i < |msgs| && msgs[i].kind == DEVIN_MESSAGE && a.url in FindMarkers(msgs[i].content)
        {
          var i :| 0 <= i < |msgs[1..]| && msgs[1..][i].kind == DEVIN_MESSAGE && a.url in FindMarkers(msgs[1..][i].content);
          assert msgs[1..][i] == msgs[i + 1];
        }
      }
      MessageAttachments(msgs[0]) + rest
  }

  /** Message order, then marker order within a message: the attachments
      of a conversation are those of its parts, concatenated. */
  lemma {:induction false} ExtractAttachmentUrlsAppend(a: seq<Message>, b: seq<Message>)
    ensures ExtractAttachmentUrlsFromMessages(a + b)
         == ExtractAttachmentUrlsFromMessages(a) + ExtractAttachmentUrlsFromMessages(b)
    decreases |a|
  {
    if |a| > 0 {
      assert (a + b)[0] == a[0];
      assert (a + b)[1..] == a[1..] + b;
      ExtractAttachmentUrlsAppend(a[1..], b);
    } else {
      assert a + b == b;
    }
  }
}

=== FILE: plan_agent.dfy ===
/** Agent 3 (`PlanAgent`): the cache-first flow of
    `AgentEnv.CachedDocument` under the category `plan`, with the `plan`
    document of a session waited on for the poller's default 300 s, and the
    plan kept by the agent for `get_stored_plan`. */
module PlanAgent {
  import opened Wrappers
  import opened Json
  import opened AgentEnv

  /** The default `timeout` of `wait_for_session_completion`. */
  const PLAN_TIMEOUT: int := 300

  /** The agent's state: `_plan_data`. */
  datatype Planner = Planner(plan: Json)

  /** A new agent holds no plan. */
  const NEW_PLANNER: Planner := Planner(JNull)

  datatype PlanRun = PlanRun(run: AgentRun, planner: Planner)

  /** `review_files_and_plan(issue_data, repo_url)`: the cached or newly made
      plan, which also becomes the stored plan; when the call raises, the
      stored plan is left as it was. */
  function ReviewFilesAndPlan(planner: Planner, cache: Cache, issue: Json, repoUrl: string, remote: Remote,
                              svc: Services): (r: PlanRun)
    ensures r.run.result.Ok? ==> r.planner.plan == r.run.result.value
    ensures r.run.result.Err? ==> r.planner == planner
    ensures !issue.JObj? ==> r.run.result.Err? && r.run.result.error.kind == AttributeError && !r.run.contacted
  {
    match issue
    case JObj(fields) =>
      var run := CachedDocument(cache, fields, repoUrl, "plan", "plan", PLAN_TIMEOUT, remote, svc);
      PlanRun(run, if run.result.Ok? then Planner(run.result.value) else planner)
    case _ => PlanRun(AgentRun(Err(Exc(AttributeError, "object has no attribute 'get'")), cache, false), planner)
  }

  /** `get_stored_plan()`. */
  function GetStoredPlan(planner: Planner): Json {
    planner.plan
  }

  /** Before any planning call there is no stored plan; after a successful
      call the stored plan is the value just returned, whether it came from
      the cache or from a session. */
  lemma StoredPlanFollowsLastSuccess(cache: Cache, issue: Json, repoUrl: string, remote: Remote, svc: Services,
                                     planner: Planner)
    ensures GetStoredPlan(NEW_PLANNER) == JNull
    ensures var r := ReviewFilesAndPlan(planner, cache, issue, repoUrl, remote, svc);
      r.run.result.Ok? ==> GetStoredPlan(r.planner) == r.run.result.value
  {
  }

  /** A truthy cached plan is returned and stored with no session created;
      on a miss the plan is stamped and written under the `plan` file of the
      issue. */
  lemma PlanIsCacheFirst(cache: Cache, fields: seq<(string, Json)>, repoUrl: string, remote: Remote,
                         svc: Services, planner: Planner)
    ensures var path := IssueDocumentFile(repoUrl, "plan", fields);
      var r := ReviewFilesAndPlan(planner, cache, JObj(fields), repoUrl, remote, svc);
      && (Truthy(CheckCache(cache, path)) ==>
            r == PlanRun(AgentRun(Ok(cache[path]), cache, false), Planner(cache[path])))
      && (!Truthy(CheckCache(cache, path)) && r.run.result.Ok? ==>
            r.run.contacted && r.run.cache == cache[path := r.run.result.value]
            && Lookup(r.run.result.value.fields, "issue_number") == Some(GetOr(fields, "number", JNull))
            && Lookup(r.run.result.value.fields, "issue_title") == Some(GetOr(fields, "title", JNull)))
  {
    var path := IssueDocumentFile(repoUrl, "plan", fields);
    if Truthy(CheckCache(cache, path)) {
      CachedDocumentHit(cache, fields, repoUrl, "plan", "plan", PLAN_TIMEOUT, remote, svc);
    } else {
      CachedDocumentMiss(cache, fields, repoUrl, "plan", "plan", PLAN_TIMEOUT, remote, svc);
    }
  }
}

=== FILE: ranking.dfy ===
/** Python's `sorted(xs, key=score, reverse=True)` and the top-`n` slice
    taken from it. The keys the sort can compare are numbers (a bool counts
    as 0 or 1) and strings (code point by code point). `reverse=True` keeps
    the sort stable: entries with equal keys stay in input order. Every
    entry carries its position in the input, so stability is ordinary
    ordering on the key and then the position. */
module Ranking {
  import opened Json

  /** A sort key as Python compares it. */
  datatype Score = Num(n: int) | Str(s: string)

  /** Python's `a < b` on two strings: the first differing code point
      decides, and a proper prefix comes first. */
  predicate StrLess(a: string, b: string)
    decreases |a|
  {
    0 < |b| && (|a| == 0 || a[0] < b[0] || (a[0] == b[0] && StrLess(a[1..], b[1..])))
  }

  /** Python's `a < b` on two keys of the same kind. The ranking never
      compares a number with a string (that comparison raises TypeError
      first); numbers are put before strings only so that `Less` is a total
      order. */
  predicate Less(a: Score, b: Score) {
    match (a, b)
    case (Num(x), Num(y)) => x < y
    case (Str(x), Str(y)) => StrLess(x, y)
    case (Num(_), Str(_)) => true
    case (Str(_), Num(_)) => false
  }

  lemma {:induction false} StrLessIrreflexive(a: string)
    ensures !StrLess(a, a)
    decreases |a|
  {
    if 0 < |a| {
      StrLessIrreflexive(a[1..]);
    }
  }

  lemma {:induction false} StrLessTransitive(a: string, b: string, c: string)
    requires StrLess(a, b) && StrLess(b, c)
    ensures StrLess(a, c)
    decreases |a|
  {
    if 0 < |a| && a[0] == b[0] && b[0] == c[0] {
      StrLessTransitive(a[1..], b[1..], c[1..]);
    }
  }

  /** Two different strings are ordered one way or the other. */
  lemma {:induction false} StrLessTotal(a: string, b: string)
    requires a != b
    ensures StrLess(a, b) || StrLess(b, a)
    decreases |a|
  {
    if 0 < |a| && 0 < |b| && a[0] == b[0] {
      assert a == [a[0]] + a[1..] && b == [b[0]] + b[1..];
      StrLessTotal(a[1..], b[1..]);
    }
  }

  /** `Less` is a strict total order. */
  lemma LessIrreflexive(a: Score)
    ensures !Less(a, a)
  {
    if a.Str? {
      StrLessIrreflexive(a.s);
    }
  }

  lemma LessTransitive(a: Score, b: Score, c: Score)
    requires Less(a, b) && Less(b, c)
    ensures Less(a, c)
  {
    if a.Str? && b.Str? && c.Str? {
      StrLessTransitive(a.s, b.s, c.s);
    }
  }

  lemma LessTotal(a: Score, b: Score)
    requires a != b
    ensures Less(a, b) || Less(b, a)
  {
    if a.Str? && b.Str? {
      StrLessTotal(a.s, b.s);
    }
  }

  /** An input entry with its sort key and its position in the input. */
  datatype Ranked = Ranked(score: Score, index: nat, entry: Json)

  /** `a` may come before `b` in the output: a greater key, or the same key
      and an earlier position. */
  predicate Precedes(a: Ranked, b: Ranked) {
    Less(b.score, a.score) || (a.score == b.score && a.index <= b.index)
  }

  /** Of two entries, one may come before the other. */
  lemma PrecedesTotal(a: Ranked, b: Ranked)
    ensures Precedes(a, b) || Precedes(b, a)
  {
    if a.score != b.score {
      LessTotal(a.score, b.score);
    }
  }

  lemma PrecedesTransitive(a: Ranked, b: Ranked, c: Ranked)
    requires Precedes(a, b) && Precedes(b, c)
    ensures Precedes(a, c)
  {
    if Less(b.score, a.score) && Less(c.score, b.score) {
      LessTransitive(c.score, b.score, a.score);
    }
  }

  predicate Sorted(s: seq<Ranked>) {
    forall i :: 0 < i < |s| ==> Precedes(s[i - 1], s[i])
  }

  /** The entries of a list, numbered by position. */
  predicate Numbered(s: seq<Ranked>) {
    forall i :: 0 <= i < |s| ==> s[i].index == i
  }

  /** Insert into a sorted list after every entry that precedes it. */
  function Insert(x: Ranked, s: seq<Ranked>): (r: seq<Ranked>)
    ensures |r| == |s| + 1
    ensures multiset(r) == multiset(s) + multiset{x}
    ensures |s| > 0 ==> r[0] == x || r[0] == s[0]
    ensures Sorted(s) ==> Sorted(r)
  {
    if |s| == 0 then [x]
    else if Precedes(x, s[0]) then [x] + s
    else
      assert s == [s[0]] + s[1..];
      PrecedesTotal(x, s[0]);
      [s[0]] + Insert(x, s[1..])
  }

  /** `sorted(..., reverse=True)` on the keys. */
  function SortByScore(s: seq<Ranked>): (r: seq<Ranked>)
    ensures |r| == |s|
    ensures multiset(r) == multiset(s)
    ensures Sorted(r)
  {
    if |s| == 0 then []
    else
      assert s == [s[0]] + s[1..];
      Insert(s[0], SortByScore(s[1..]))
  }

  lemma LessAsymmetric(a: Score, b: Score)
    ensures !(Less(a, b) && Less(b, a))
  {
    if Less(a, b) && Less(b, a) {
      LessTransitive(a, b, a);
      LessIrreflexive(a);
    }
  }

  /** Sortedness of neighbours extends to every pair. */
  lemma {:induction false} SortedPairwise(s: seq<Ranked>)
    requires Sorted(s)
    ensures forall i, j :: 0 <= i < j < |s| ==> Precedes(s[i], s[j])
    decreases |s|
  {
    if |s| > 1 {
      var t := s[..|s| - 1];
      assert Sorted(t);
      SortedPairwise(t);
      forall i | 0 <= i < |s| - 1
        ensures Precedes(s[i], s[|s| - 1])
      {
        PrecedesLast(s, i);
      }
    }
  }

  lemma {:induction false} PrecedesLast(s: seq<Ranked>, i: nat)
    requires Sorted(s) && i < |s|
    ensures Precedes(s[i], s[|s| - 1])
    decreases |s| - i
  {
    if i < |s| - 1 {
      PrecedesLast(s, i + 1);
      PrecedesTransitive(s[i], s[i + 1], s[|s| - 1]);
    } else {
      assert s[i].score == s[|s| - 1].score;
    }
  }

  /** In a numbered input, an entry is determined by its position. */
  lemma NumberedDistinct(s: seq<Ranked>, a: Ranked, b: Ranked)
    requires Numbered(s) && a in s && b in s
    ensures a.index == b.index ==> a == b
  {
  }

  /** The sorted list is stable: equal keys keep their input order, and
      otherwise keys never increase. */
  lemma SortIsStable(s: seq<Ranked>)
    requires Numbered(s)
    ensures forall i, j :: 0 <= i < j < |SortByScore(s)| ==>
      Less(SortByScore(s)[j].score, SortByScore(s)[i].score)
      || (SortByScore(s)[i].score == SortByScore(s)[j].score && SortByScore(s)[i].index < SortByScore(s)[j].index)
  {
    var r := SortByScore(s);
    SortedPairwise(r);
    forall i, j | 0 <= i < j < |r|
      ensures Less(r[j].score, r[i].score) || (r[i].score == r[j].score && r[i].index < r[j].index)
    {
      assert r[i] in multiset(s) && r[j] in multiset(s);
      NumberedDistinct(s, r[i], r[j]);
      NumberedNoRepeats(s, r[i]);
      DistinctPositions(r, i, j);
    }
  }

  /** An entry found at two positions is counted twice. */
  lemma DistinctPositions(r: seq<Ranked>, i: nat, j: nat)
    requires i < j < |r|
    ensures r[i] == r[j] ==> multiset(r)[r[i]] >= 2
  {
    if r[i] == r[j] {
      var a := r[..j];
      assert r == a + r[j..];
      assert r[i] in a;
      assert multiset(a)[r[i]] >= 1;
      assert multiset(r[j..])[r[j]] >= 1 by { assert r[j..][0] == r[j]; }
    }
  }

  /** A numbered input has no repeated entry. */
  lemma NumberedNoRepeats(s: seq<Ranked>, x: Ranked)
    requires Numbered(s)
    ensures multiset(s)[x] <= 1
  {
    if x in s {
      var i :| 0 <= i < |s| && s[i] == x;
      assert s == s[..i] + [x] + s[i + 1..];
      assert x !in s[..i] && x !in s[i + 1..];
    }
  }

  function Min(a: nat, b: nat): nat {
    if a < b then a else b
  }

  /** The first `n` entries of the sorted list. */
  function TopN(s: seq<Ranked>, n: nat): seq<Ranked> {
    SortByScore(s)[..Min(n, |s|)]
  }

  /** `sorted(...)[:n]` keeps `min(n, len)` entries taken from the input, in
      non-increasing key order, and leaves out no entry whose key is
      strictly greater than that of one it keeps. */
  lemma TopNSpec(s: seq<Ranked>, n: nat)
    ensures |TopN(s, n)| == Min(n, |s|)
    ensures forall x :: x in TopN(s, n) ==> x in s
    ensures forall i, j :: 0 <= i < j < |TopN(s, n)| ==> !Less(TopN(s, n)[i].score, TopN(s, n)[j].score)
    ensures forall x, y :: x in s && y in TopN(s, n) && Less(y.score, x.score) ==> x in TopN(s, n)
  {
    var r := SortByScore(s);
    var t := TopN(s, n);
    SortedPairwise(r);
    forall i, j | 0 <= i < j < |t|
      ensures !Less(t[i].score, t[j].score)
    {
      assert Precedes(r[i], r[j]);
      LessAsymmetric(t[i].score, t[j].score);
      LessIrreflexive(t[i].score);
    }
    forall x | x in t
      ensures x in s
    {
      assert x in r;
      assert x in multiset(s);
    }
    forall x, y | x in s && y in t && Less(y.score, x.score)
      ensures x in t
    {
      assert x in multiset(r);
      var j :| 0 <= j < |r| && r[j] == x;
      var i :| 0 <= i < |t| && t[i] == y;
      if j >= |t| {
        assert Precedes(r[i], r[j]);
        LessAsymmetric(y.score, x.score);
        LessIrreflexive(x.score);
      }
    }
  }
}

=== FILE: repository_scanner.dfy ===
/** `scan_repository_for_relevant_files`: one API session, then the paths
    of the ten highest-scoring entries of
    `structured_output["relevant_files"]`, ties kept in input order. */
module RepositoryScanner {
  import opened Wrappers
  import opened Json
  import opened Ranking
  import ApiSession

  const SCAN_TIMEOUT: int := 180

  /** How many paths the scan returns at most. */
  const TOP_FILES: nat := 10

  /** The key `sorted` compares for a `relevance_score` value: an int, a
      bool as 0 or 1, or a string. None, lists and dicts are not keys the
      ranking orders. */
  function KeyOf(k: Json): (r: Option<Score>)
    ensures r.Some? <==> k.JInt? || k.JBool? || k.JStr?
    ensures k.JStr? ==> r == Some(Str(k.s))
    ensures r.Some? && r.value.Num? <==> k.JInt? || k.JBool?
  {
    match k
    case JInt(i) => Some(Num(i))
    case JBool(b) => Some(Num(if b then 1 else 0))
    case JStr(s) => Some(Str(s))
    case _ => None
  }

  /** `x.get("relevance_score", 0)` for every entry, in order, as `sorted`
      computes its keys before comparing; the first entry that is not a
      dict raises AttributeError. */
  function ScoreValues(files: seq<Json>): (r: Result<seq<Json>, Exc>)
    ensures r.Ok? <==> forall i :: 0 <= i < |files| ==> files[i].JObj?
    ensures r.Ok? ==> |r.value| == |files|
    ensures r.Ok? ==> forall i :: 0 <= i < |files| ==> r.value[i] == GetOr(files[i].fields, "relevance_score", JInt(0))
    ensures r.Err? ==> r.error.kind == AttributeError
  {
    if |files| == 0 then Ok([])
    else
      match PyGet(files[0], "relevance_score", JInt(0))
      case Err(e) => Err(e)
      case Ok(k) =>
        match ScoreValues(files[1..])
        case Err(e) => Err(e)
        case Ok(ks) => Ok([k] + ks)
  }

  predicate AllNumeric(keys: seq<Json>) {
    forall i :: 0 <= i < |keys| ==> keys[i].JInt? || keys[i].JBool?
  }

  /** Keys that Python's `<` orders pairwise: all numbers, or all strings. */
  predicate Comparable(keys: seq<Json>) {
    AllNumeric(keys) || AllStrings(keys)
  }

  /** The key an entry sorts by; a dict without `relevance_score` scores 0.
      A value that is no key reads as 0: it is only ever read when there is
      a single entry, which is never compared. */
  function ScoreKey(f: Json): (r: Score)
    ensures f.JObj? && "relevance_score" !in Keys(f.fields) ==> r == Num(0)
    ensures f.JObj? && KeyOf(GetOr(f.fields, "relevance_score", JInt(0))).Some? ==>
      r == KeyOf(GetOr(f.fields, "relevance_score", JInt(0))).value
  {
    if f.JObj? then KeyOf(GetOr(f.fields, "relevance_score", JInt(0))).GetOr(Num(0)) else Num(0)
  }

  /** The entries numbered by position, with their keys. */
  function Entries(files: seq<Json>): (r: seq<Ranked>)
    ensures |r| == |files| && Numbered(r)
  {
    seq(|files|, i requires 0 <= i < |files| => Ranked(ScoreKey(files[i]), i, files[i]))
  }

  /** `f["path"]` for each kept entry, in order; the first entry without a
      path raises. */
  function Paths(top: seq<Ranked>): (r: Result<seq<Json>, Exc>)
    ensures r.Ok? <==> forall i :: 0 <= i < |top| ==> PySubscript(top[i].entry, "path").Ok?
    ensures r.Ok? ==> |r.value| == |top|
    ensures r.Ok? ==> forall i :: 0 <= i < |top| ==> PySubscript(top[i].entry, "path") == Ok(r.value[i])
    ensures r.Err? ==> exists i :: 0 <= i < |top| && PySubscript(top[i].entry, "path") == Err(r.error)
  {
    if |top| == 0 then Ok([])
    else
      match PySubscript(top[0].entry, "path")
      case Err(e) => Err(e)
      case Ok(p) =>
        match Paths(top[1..])
        case Err(e) =>
          assert forall i :: 0 <= i < |top[1..]| ==> top[1..][i] == top[i + 1];
          Err(e)
        case Ok(ps) =>
          assert forall i :: 0 <= i < |top[1..]| ==> top[1..][i] == top[i + 1];
          Ok([p] + ps)
  }

  /** The sort and the slice. The keys come first (AttributeError at the
      first entry that is not a dict). With two or more entries every entry
      is compared with the entries next to it in the sorted order, so a key
      that is neither a number nor a string, or numbers mixed with strings,
      make a comparison raise TypeError. Then the paths of the ten best
      entries (KeyError at the first without one). */
  function RankRelevantFiles(files: seq<Json>): (r: Result<seq<Json>, Exc>)
    ensures r.Err? ==> r.error.kind in {AttributeError, TypeError, KeyError}
    ensures r.Err? && r.error.kind == AttributeError <==> ScoreValues(files).Err?
    ensures r.Err? && r.error.kind == TypeError <==>
      ScoreValues(files).Ok? && |files| >= 2 && !Comparable(ScoreValues(files).value)
  {
    match ScoreValues(files)
    case Err(e) => Err(e)
    case Ok(keys) =>
      if |files| >= 2 && !Comparable(keys) then
        Err(Exc(TypeError, "'<' not supported between the relevance scores"))
      else
        TopEntriesFacts(files);
        Paths(TopN(Entries(files), TOP_FILES))
  }

  /** The positions in the input of the entries that are kept, best first. */
  function TopPositions(files: seq<Json>): (r: seq<nat>)
    ensures |r| == Min(TOP_FILES, |files|)
    ensures forall i :: 0 <= i < |r| ==> r[i] < |files|
  {
    var top := TopN(Entries(files), TOP_FILES);
    TopNSpec(Entries(files), TOP_FILES);
    TopEntriesFacts(files);
    seq(|top|, i requires 0 <= i < |top| => top[i].index)
  }

  /** The input the scan ranks without error: dicts with a path each, and
      keys that compare (or a single entry, which is never compared). */
  predicate Rankable(files: seq<Json>) {
    && (forall i :: 0 <= i < |files| ==> files[i].JObj? && "path" in Keys(files[i].fields))
    && ScoreValues(files).Ok?
    && (|files| < 2 || Comparable(ScoreValues(files).value))
  }

  /** Each kept entry is the input entry at its position, with its key. */
  lemma TopEntriesFacts(files: seq<Json>)
    ensures forall i :: 0 <= i < |TopN(Entries(files), TOP_FILES)| ==>
      var e := TopN(Entries(files), TOP_FILES)[i];
      e.index < |files| && e.entry == files[e.index] && e.score == ScoreKey(files[e.index])
  {
    var es := Entries(files);
    var top := TopN(es, TOP_FILES);
    TopNSpec(es, TOP_FILES);
    forall i | 0 <= i < |top|
      ensures top[i].index < |files| && top[i].entry == files[top[i].index] && top[i].score == ScoreKey(files[top[i].index])
    {
      assert top[i] in es;
    }
  }

  /** On rankable input the scan returns `min(10, n)` paths, those of the
      input entries at `TopPositions`, in that order. */
  lemma RankingPaths(files: seq<Json>)
    requires Rankable(files)
    ensures RankRelevantFiles(files).Ok?
    ensures |RankRelevantFiles(files).value| == |TopPositions(files)| == Min(TOP_FILES, |files|)
    ensures forall i :: 0 <= i < |TopPositions(files)| ==>
      TopPositions(files)[i] < |files|
      && Lookup(files[TopPositions(files)[i]].fields, "path") == Some(RankRelevantFiles(files).value[i])
  {
    var top := TopN(Entries(files), TOP_FILES);
    TopNSpec(Entries(files), TOP_FILES);
    TopEntriesFacts(files);
    assert RankRelevantFiles(files) == Paths(top);
  }

  /** The kept positions are ordered best first: keys never increase (in
      Python's order on numbers or on strings), and equal keys keep input
      order. */
  lemma RankingOrder(files: seq<Json>)
    ensures forall i, k :: 0 <= i < k < |TopPositions(files)| ==>
      Less(ScoreKey(files[TopPositions(files)[k]]), ScoreKey(files[TopPositions(files)[i]]))
      || (ScoreKey(files[TopPositions(files)[i]]) == ScoreKey(files[TopPositions(files)[k]])
          && TopPositions(files)[i] < TopPositions(files)[k])
  {
    var es := Entries(files);
    var top := TopN(es, TOP_FILES);
    SortIsStable(es);
    TopEntriesFacts(files);
    assert forall i :: 0 <= i < |top| ==> top[i] == SortByScore(es)[i];
  }

  /** No entry left out has a strictly greater key than a kept one. */
  lemma RankingOmitsNoHigher(files: seq<Json>)
    ensures forall j, i :: 0 <= j < |files| && j !in TopPositions(files) && 0 <= i < |TopPositions(files)| ==>
      !Less(ScoreKey(files[TopPositions(files)[i]]), ScoreKey(files[j]))
  {
    var es := Entries(files);
    var top := TopN(es, TOP_FILES);
    var pos := TopPositions(files);
    TopNSpec(es, TOP_FILES);
    TopEntriesFacts(files);
    forall j, i | 0 <= j < |files| && j !in pos && 0 <= i < |pos|
      ensures !Less(ScoreKey(files[pos[i]]), ScoreKey(files[j]))
    {
      var x := es[j];
      assert x in es;
      assert x !in top by {
        forall m | 0 <= m < |top|
          ensures top[m] != x
        {
          assert pos[m] == top[m].index;
        }
      }
      assert top[i] in top;
    }
  }

  function File(path: string, score: Json): Json {
    JObj([("path", JStr(path)), ("relevance_score", score)])
  }

  lemma FileFields(path: string, score: Json)
    ensures GetOr(File(path, score).fields, "relevance_score", JInt(0)) == score
    ensures PySubscript(File(path, score), "path") == Ok(JStr(path))
  {
    assert "path"[0] != "relevance_score"[0];
    assert Lookup(File(path, score).fields, "relevance_score") == Some(score);
  }

  /** The two entries of the example below, sorted. */
  lemma SortExample(ea: Ranked, eb: Ranked)
    requires ea.score == Str("10") && eb.score == Str("9")
    ensures SortByScore([ea, eb]) == [eb, ea]
  {
    assert StrLess("10", "9");
    assert Insert(ea, [eb]) == [eb, ea];
    assert SortByScore([eb]) == [eb];
    assert [ea, eb][1..] == [eb];
  }

  /** The paths of two entries that each have one. */
  lemma PathsExample(a: Ranked, b: Ranked)
    requires PySubscript(a.entry, "path").Ok? && PySubscript(b.entry, "path").Ok?
    ensures Paths([a, b]) == Ok([PySubscript(a.entry, "path").value, PySubscript(b.entry, "path").value])
  {
    var top := [a, b];
    assert forall i :: 0 <= i < 2 ==> PySubscript(top[i].entry, "path").Ok?;
    var r := Paths(top);
    assert PySubscript(top[0].entry, "path") == Ok(r.value[0]);
    assert PySubscript(top[1].entry, "path") == Ok(r.value[1]);
    assert r.value == [r.value[0], r.value[1]];
  }

  /** String scores are ranked as strings, code point by code point, not
      as numbers: "9" comes before "10". */
  lemma StringScoresRankAsStrings()
    ensures RankRelevantFiles([File("a", JStr("10")), File("b", JStr("9"))]) == Ok([JStr("b"), JStr("a")])
  {
    var files := [File("a", JStr("10")), File("b", JStr("9"))];
    FileFields("a", JStr("10"));
    FileFields("b", JStr("9"));
    assert ScoreValues(files).value == [JStr("10"), JStr("9")];
    var ea, eb := Ranked(Str("10"), 0, files[0]), Ranked(Str("9"), 1, files[1]);
    assert Entries(files) == [ea, eb];
    SortExample(ea, eb);
    assert TopN(Entries(files), TOP_FILES) == [eb, ea];
    PathsExample(eb, ea);
  }

  /** An integer score next to a string score raises TypeError. */
  lemma MixedScoresRaise()
    ensures RankRelevantFiles([File("a", JInt(8)), File("b", JStr("9"))]).Err?
    ensures RankRelevantFiles([File("a", JInt(8)), File("b", JStr("9"))]).error.kind == TypeError
  {
    var files := [File("a", JInt(8)), File("b", JStr("9"))];
    FileFields("a", JInt(8));
    FileFields("b", JStr("9"));
    var keys := ScoreValues(files).value;
    assert keys[0] == JInt(8) && keys[1] == JStr("9");
    assert !Comparable(keys);
  }

  /** The post-processing of the finished session: a missing
      `structured_output` or `relevant_files` reads as empty; `.get` on a
      non-dict raises AttributeError and iterating a number raises
      TypeError. */
  function TopRelevantFiles(result: Json): (r: Result<seq<Json>, Exc>)
    ensures result.JObj? && "structured_output" !in Keys(result.fields) ==> r == Ok([])
    ensures !result.JObj? ==> r.Err? && r.error.kind == AttributeError
    ensures r.Err? ==> r.error.kind in {AttributeError, TypeError, KeyError}
  {
    match PyGet(result, "structured_output", JObj([]))
    case Err(e) => Err(e)
    case Ok(so) =>
      match PyGet(so, "relevant_files", JArr([]))
      case Err(e) => Err(e)
      case Ok(rf) =>
        match PyIter(rf)
        case Err(e) => Err(e)
        case Ok(files) => RankRelevantFiles(files)
  }

  /** A structured output without `relevant_files` gives no paths, and a
      list of files is ranked as it stands. */
  lemma TopRelevantFilesOfStructuredOutput(result: Json, so: Json)
    requires result.JObj? && Lookup(result.fields, "structured_output") == Some(so) && so.JObj?
    ensures "relevant_files" !in Keys(so.fields) ==> TopRelevantFiles(result) == Ok([])
    ensures forall files :: Lookup(so.fields, "relevant_files") == Some(JArr(files)) ==>
      TopRelevantFiles(result) == RankRelevantFiles(files)
  {
  }

  /** `scan_repository_for_relevant_files`: create the session, wait up to
      180 s, rank. Creation, polling and timeout exceptions propagate. */
  function ScanRepositoryForRelevantFiles(createReply: Result<Json, Exc>,
                                          poll: nat -> ApiSession.ApiPollReply): (r: Result<seq<Json>, Exc>)
    ensures ApiSession.CreateDevinSession(createReply).Err? ==> r == Err(ApiSession.CreateDevinSession(createReply).error)
    ensures ApiSession.CreateDevinSession(createReply).Ok? ==>
      var sid := PyStr(ApiSession.CreateDevinSession(createReply).value);
      ApiSession.WaitForSessionCompletion(poll, sid, SCAN_TIMEOUT).timedOut ==>
        r == Err(ApiSession.TimeoutError(sid, SCAN_TIMEOUT))
  {
    match ApiSession.CreateDevinSession(createReply)
    case Err(e) => Err(e)
    case Ok(sid) =>
      match ApiSession.WaitForSessionCompletion(poll, PyStr(sid), SCAN_TIMEOUT).result
      case Err(e) => Err(e)
      case Ok(result) => TopRelevantFiles(result)
  }
}

=== FILE: session_data.dfy ===
/** A session snapshot as returned by `GET /session/{id}`, and the merge of
    its message-derived and `structured_output`-derived attachments
    (`extract_attachments_from_session_data`). */
module SessionData {
  import opened Wrappers
  import opened Json
  import opened Markers
  import Text

  /** An entry of a result's `attachments` list: `uuid` and `name` may be
      missing. */
  datatype AttachmentRef = AttachmentRef(uuid: Option<string>, name: Option<string>)

  /** The keys of a session snapshot that the code reads; an absent list
      reads as empty, an absent `status_enum`, `structured_output` or
      `message_attachments` as `None`. */
  datatype Snapshot = Snapshot(
    statusEnum: Option<string>,
    messages: seq<Message>,
    structuredOutput: Option<Json>,
    attachments: seq<AttachmentRef>,
    messageAttachments: Option<seq<Attachment>>)

  /** The dict `{"error": "timeout"}` seen through `.get(key, default)`. */
  const TIMEOUT_SNAPSHOT: Snapshot := Snapshot(None, [], None, [], None)

  function AsRef(a: Attachment): (r: AttachmentRef)
    ensures r.uuid == Some(a.uuid) && r.name == Some(a.name)
  {
    AttachmentRef(Some(a.uuid), Some(a.name))
  }

  /** The strings of a list of string items. */
  function StringItems(items: seq<Json>): (r: seq<string>)
    requires AllStrings(items)
    ensures |r| == |items|
    ensures forall i :: 0 <= i < |items| ==> items[i] == JStr(r[i])
  {
    seq(|items|, i requires 0 <= i < |items| => items[i].s)
  }

  /** The urls under `structured_output["attachments"]`, read only when the
      structured output is truthy and holds `"attachments"`. The `in` test
      raises TypeError on a number or a bool; a string or a list that holds
      `"attachments"` passes it and then raises TypeError at the subscript;
      iterating None, a number or a bool raises TypeError, and so does
      `re.search` on an item that is not a string. */
  function StructuredUrls(so: Option<Json>): (r: Result<seq<string>, Exc>)
    ensures r.Err? ==> r.error.kind == TypeError
    ensures so.None? || !Truthy(so.value) ==> r == Ok([])
    ensures so.Some? && Truthy(so.value) && (so.value.JBool? || so.value.JInt?) ==> r.Err?
    ensures so.Some? && so.value.JStr? ==> (r.Err? <==> Text.Contains(so.value.s, "attachments"))
    ensures so.Some? && so.value.JArr? ==> (r.Err? <==> JStr("attachments") in so.value.items)
    ensures so.Some? && so.value.JObj? && "attachments" !in Keys(so.value.fields) ==> r == Ok([])
    ensures forall v :: so.Some? && so.value.JObj? && Lookup(so.value.fields, "attachments") == Some(v) ==>
      && (r.Err? <==> v.JNull? || v.JBool? || v.JInt? || (v.JArr? && !AllStrings(v.items)))
      && (r.Ok? ==> PyIter(v).Ok? && PyIter(v).value == seq(|r.value|, i requires 0 <= i < |r.value| => JStr(r.value[i])))
  {
    if so.None? || !Truthy(so.value) then Ok([])
    else
      match PyContains(so.value, "attachments")
      case Err(e) => Err(e)
      case Ok(false) => Ok([])
      case Ok(true) =>
        match PySubscript(so.value, "attachments")
        case Err(e) => Err(e)
        case Ok(v) =>
          match PyIter(v)
          case Err(e) => Err(e)
          case Ok(items) =>
            if AllStrings(items) then Ok(StringItems(items))
            else Err(Exc(TypeError, "expected string or bytes-like object"))
  }

  /** An attachment item that is a dict makes the merge raise TypeError
      (`re.search` needs a string). */
  lemma DictItemRaises()
    ensures StructuredUrls(Some(JObj([("attachments", JArr([JObj([("url", JStr("x"))])]))]))).Err?
  {
    var item := JObj([("url", JStr("x"))]);
    assert Lookup([("attachments", JArr([item]))], "attachments") == Some(JArr([item]));
    assert !AllStrings([item]) by { assert ![item][0].JStr?; }
  }

  /** An `attachments` value that is None makes the merge raise TypeError
      (None is not iterable). */
  lemma NullAttachmentsRaise()
    ensures StructuredUrls(Some(JObj([("attachments", JNull)]))).Err?
  {
    assert Lookup([("attachments", JNull)], "attachments") == Some(JNull);
  }

  /** A structured output that is a text mentioning attachments makes the
      merge raise TypeError (a string is not subscriptable by a string). */
  lemma TextMentioningAttachmentsRaises()
    ensures StructuredUrls(Some(JStr("see attachments"))).Err?
  {
    assert Text.StartsWith("attachments", "attachments");
    assert Text.Contains("ee attachments"[1..], "attachments");
    assert Text.Contains("e attachments"[1..], "attachments");
    assert Text.Contains(" attachments"[1..], "attachments");
    assert Text.Contains("see attachments", "attachments");
  }

  /** The uuids of a list of attachments. */
  function UuidSet(atts: seq<Attachment>): (r: set<string>)
    ensures forall a :: a in atts ==> a.uuid in r
    decreases |atts|
  {
    if |atts| == 0 then {}
    else
      assert forall a :: a in atts ==> a == atts[0] || a in atts[1..];
      {atts[0].uuid} + UuidSet(atts[1..])
  }

  predicate UniqueUuids(atts: seq<Attachment>) {
    forall i, j :: 0 <= i < j < |atts| ==> atts[i].uuid != atts[j].uuid
  }

  /** The first candidate carrying `uuid`, if any. */
  function FirstWithUuid(cands: seq<Attachment>, uuid: string): (r: Option<Attachment>)
    ensures r.Some? ==> r.value in cands && r.value.uuid == uuid
    ensures r.None? ==> forall a :: a in cands ==> a.uuid != uuid
  {
    if |cands| == 0 then None
    else if cands[0].uuid == uuid then Some(cands[0])
    else FirstWithUuid(cands[1..], uuid)
  }

  /** The de-duplicating loop: a candidate is kept when its uuid was not seen
      before, and its uuid is then marked as seen. */
  function Dedup(cands: seq<Attachment>, seen: set<string>): (r: seq<Attachment>)
    ensures |r| <= |cands|
    decreases |cands|
  {
    if |cands| == 0 then []
    else if cands[0].uuid in seen then Dedup(cands[1..], seen)
    else [cands[0]] + Dedup(cands[1..], seen + {cands[0].uuid})
  }

  /** The loop keeps only candidates whose uuid was not seen. */
  lemma {:induction false} DedupKeepsNewUuids(cands: seq<Attachment>, seen: set<string>)
    ensures forall a :: a in Dedup(cands, seen) ==> a in cands && a.uuid !in seen
    decreases |cands|
  {
    if |cands| > 0 {
      if cands[0].uuid in seen {
        DedupKeepsNewUuids(cands[1..], seen);
      } else {
        DedupKeepsNewUuids(cands[1..], seen + {cands[0].uuid});
      }
    }
  }

  /** The kept entries carry pairwise distinct uuids. */
  lemma {:induction false} DedupUnique(cands: seq<Attachment>, seen: set<string>)
    ensures UniqueUuids(Dedup(cands, seen))
    decreases |cands|
  {
    if |cands| > 0 {
      var c0 := cands[0];
      if c0.uuid in seen {
        DedupUnique(cands[1..], seen);
      } else {
        var rt := Dedup(cands[1..], seen + {c0.uuid});
        DedupUnique(cands[1..], seen + {c0.uuid});
        DedupKeepsNewUuids(cands[1..], seen + {c0.uuid});
        var r := [c0] + rt;
        forall i, j | 0 <= i < j < |r|
          ensures r[i].uuid != r[j].uuid
        {
          assert r[j] == rt[j - 1] && rt[j - 1] in rt;
          if i > 0 {
            assert r[i] == rt[i - 1];
          }
        }
      }
    }
  }

  /** Every candidate's uuid was either seen before or is kept. */
  lemma {:induction false} DedupCovers(cands: seq<Attachment>, seen: set<string>)
    ensures forall c :: c in cands ==> c.uuid in seen || c.uuid in UuidSet(Dedup(cands, seen))
    decreases |cands|
  {
    if |cands| > 0 {
      var c0 := cands[0];
      assert forall c :: c in cands ==> c == c0 || c in cands[1..];
      if c0.uuid in seen {
        DedupCovers(cands[1..], seen);
      } else {
        var rt := Dedup(cands[1..], seen + {c0.uuid});
        DedupCovers(cands[1..], seen + {c0.uuid});
        assert UuidSet([c0] + rt) == {c0.uuid} + UuidSet(rt);
      }
    }
  }

  /** Each kept entry is the first candidate carrying its uuid. */
  lemma {:induction false} DedupKeepsFirst(cands: seq<Attachment>, seen: set<string>)
    ensures forall k :: 0 <= k < |Dedup(cands, seen)| ==>
      FirstWithUuid(cands, Dedup(cands, seen)[k].uuid) == Some(Dedup(cands, seen)[k])
    decreases |cands|
  {
    if |cands| > 0 {
      var c0 := cands[0];
      if c0.uuid in seen {
        var r := Dedup(cands[1..], seen);
        DedupKeepsFirst(cands[1..], seen);
        DedupKeepsNewUuids(cands[1..], seen);
        forall k | 0 <= k < |r|
          ensures FirstWithUuid(cands, r[k].uuid) == Some(r[k])
        {
          assert r[k] in r;
        }
      } else {
        var rt := Dedup(cands[1..], seen + {c0.uuid});
        DedupKeepsFirst(cands[1..], seen + {c0.uuid});
        DedupKeepsNewUuids(cands[1..], seen + {c0.uuid});
        var r := [c0] + rt;
        forall k | 0 <= k < |r|
          ensures FirstWithUuid(cands, r[k].uuid) == Some(r[k])
        {
          if k > 0 {
            assert r[k] == rt[k - 1] && rt[k - 1] in rt;
          }
        }
      }
    }
  }

  /** Deduplicating two lists in a row is deduplicating the first, then the
      second against every uuid of the first. */
  lemma {:induction false} DedupAppend(a: seq<Attachment>, b: seq<Attachment>, seen: set<string>)
    ensures Dedup(a + b, seen) == Dedup(a, seen) + Dedup(b, seen + UuidSet(a))
    decreases |a|
  {
    if |a| == 0 {
      assert a + b == b;
      assert seen + UuidSet(a) == seen;
    } else {
      var head := if a[0].uuid in seen then [] else [a[0]];
      var seen' := if a[0].uuid in seen then seen else seen + {a[0].uuid};
      DedupStep(a, b, seen);
      DedupAppend(a[1..], b, seen');
      assert seen' + UuidSet(a[1..]) == seen + UuidSet(a);
      var d1, d2 := Dedup(a[1..], seen'), Dedup(b, seen + UuidSet(a));
      assert head + (d1 + d2) == (head + d1) + d2;
    }
  }

  /** One step of the loop over `a` and over `a + b`. */
  lemma DedupStep(a: seq<Attachment>, b: seq<Attachment>, seen: set<string>)
    requires |a| > 0
    ensures var head := if a[0].uuid in seen then [] else [a[0]];
      var seen' := if a[0].uuid in seen then seen else seen + {a[0].uuid};
      && Dedup(a + b, seen) == head + Dedup(a[1..] + b, seen')
      && Dedup(a, seen) == head + Dedup(a[1..], seen')
  {
    assert (a + b)[0] == a[0];
    assert (a + b)[1..] == a[1..] + b;
  }

  /** The attachments named in `structured_output`, when reading it does
      not raise. */
  function StructuredAttachments(snap: Snapshot): seq<Attachment> {
    match StructuredUrls(snap.structuredOutput)
    case Ok(urls) => UrlsToAttachments(urls)
    case Err(_) => []
  }

  /** `extract_attachments_from_session_data`: message-derived attachments,
      then the structured-output ones, keeping the first of each uuid; the
      TypeError of reading `structured_output` propagates. */
  function ExtractAttachmentsFromSessionData(snap: Snapshot): (r: Result<seq<Attachment>, Exc>)
    ensures r.Err? <==> StructuredUrls(snap.structuredOutput).Err?
    ensures r.Err? ==> r.error.kind == TypeError
    ensures r.Ok? ==> r.value == Dedup(ExtractAttachmentUrlsFromMessages(snap.messages) + StructuredAttachments(snap), {})
  {
    match StructuredUrls(snap.structuredOutput)
    case Err(e) => Err(e)
    case Ok(urls) => Ok(Dedup(ExtractAttachmentUrlsFromMessages(snap.messages) + UrlsToAttachments(urls), {}))
  }

  /** The merged list names every uuid found in either source exactly once,
      and each entry is the first candidate carrying its uuid, messages
      before structured output. */
  lemma MergedAttachmentsSpec(snap: Snapshot)
    ensures ExtractAttachmentsFromSessionData(snap).Ok? ==>
      var merged := ExtractAttachmentsFromSessionData(snap).value;
      var cands := ExtractAttachmentUrlsFromMessages(snap.messages) + StructuredAttachments(snap);
      && UniqueUuids(merged)
      && (forall a :: a in merged ==> WellFormed(a))
      && (forall a :: a in cands ==> a.uuid in UuidSet(merged))
      && (forall k :: 0 <= k < |merged| ==> FirstWithUuid(cands, merged[k].uuid) == Some(merged[k]))
  {
    var fromMessages := ExtractAttachmentUrlsFromMessages(snap.messages);
    var fromStructured := StructuredAttachments(snap);
    var cands := fromMessages + fromStructured;
    DedupUnique(cands, {});
    DedupKeepsNewUuids(cands, {});
    DedupCovers(cands, {});
    DedupKeepsFirst(cands, {});
    assert forall a :: a in cands ==> a in fromMessages || a in fromStructured;
  }

  /** Message-derived attachments come first, and a structured-output entry
      survives only when no message already named its uuid. */
  lemma MessageAttachmentsComeFirst(snap: Snapshot)
    ensures ExtractAttachmentsFromSessionData(snap).Ok? ==>
      ExtractAttachmentsFromSessionData(snap).value
         == Dedup(ExtractAttachmentUrlsFromMessages(snap.messages), {})
          + Dedup(StructuredAttachments(snap), UuidSet(ExtractAttachmentUrlsFromMessages(snap.messages)))
  {
    var m := ExtractAttachmentUrlsFromMessages(snap.messages);
    DedupAppend(m, StructuredAttachments(snap), {});
    assert {} + UuidSet(m) == UuidSet(m);
  }
}

=== FILE: text.dfy ===
/** String helpers with the semantics of the Python `str` methods the
    repository uses: `startswith`, `endswith`, `lower` (ASCII letters only),
    `find`/`rfind` of one character, `replace`, `str(int)` and `int(str)`. */
module Text {
  import opened Wrappers

  predicate StartsWith(s: string, prefix: string) {
    |prefix| <= |s| && s[..|prefix|] == prefix
  }

  predicate EndsWith(s: string, suffix: string) {
    |suffix| <= |s| && s[|s| - |suffix|..] == suffix
  }

  /** `t` occurs inside `s` starting at index `i`. */
  predicate OccursAt(s: string, t: string, i: int) {
    0 <= i <= |s| - |t| && s[i..i + |t|] == t
  }

  /** `t` occurs somewhere inside `s`. */
  ghost predicate Occurs(s: string, t: string) {
    exists i :: OccursAt(s, t, i)
  }

  /** Python's `t in s` on two strings: `t` is a substring of `s`. */
  predicate Contains(s: string, t: string)
    decreases |s|
  {
    StartsWith(s, t) || (0 < |s| && Contains(s[1..], t))
  }

  lemma OccursInSuffix(s: string, k: nat, t: string)
    requires k <= |s|
    requires Occurs(s[k..], t)
    ensures Occurs(s, t)
  {
    var i :| OccursAt(s[k..], t, i);
    assert s[k + i..k + i + |t|] == s[k..][i..i + |t|];
    assert OccursAt(s, t, k + i);
  }

  function LowerChar(c: char): (r: char)
    ensures 'A' <= c <= 'Z' ==> r as int == c as int + 32
    ensures !('A' <= c <= 'Z') ==> r == c
  {
    if 'A' <= c <= 'Z' then (c as int + 32) as char else c
  }

  /** `s.lower()` restricted to ASCII letters. */
  function Lower(s: string): (r: string)
    ensures |r| == |s|
    ensures forall i :: 0 <= i < |s| ==> r[i] == LowerChar(s[i])
  {
    seq(|s|, i requires 0 <= i < |s| => LowerChar(s[i]))
  }

  /** `name.lower().endswith('.json')`. */
  predicate HasJsonExtension(name: string) {
    EndsWith(Lower(name), ".json")
  }

  /** Index of the first occurrence of `c`, as `s.find(c)` when it is not -1. */
  function IndexOf(s: string, c: char): (r: Option<nat>)
    ensures r.Some? ==> r.value < |s| && s[r.value] == c
    ensures r.Some? ==> forall i :: 0 <= i < r.value ==> s[i] != c
    ensures r.None? <==> c !in s
  {
    if |s| == 0 then None
    else if s[0] == c then Some(0)
    else
      match IndexOf(s[1..], c)
      case None => None
      case Some(k) => Some(k + 1)
  }

  /** Index of the last occurrence of `c`, as `s.rfind(c)` when it is not -1. */
  function LastIndexOf(s: string, c: char): (r: Option<nat>)
    ensures r.Some? ==> r.value < |s| && s[r.value] == c
    ensures r.Some? ==> forall i :: r.value < i < |s| ==> s[i] != c
    ensures r.None? <==> c !in s
  {
    if |s| == 0 then None
    else if s[|s| - 1] == c then Some(|s| - 1)
    else LastIndexOf(s[..|s| - 1], c)
  }

  /** The first `c` of `pre + [c] + post` is the one after `pre` when `pre`
      has none. */
  lemma IndexOfAfter(pre: string, c: char, post: string)
    requires c !in pre
    ensures IndexOf(pre + [c] + post, c) == Some(|pre|)
  {
    var s := pre + [c] + post;
    assert s[|pre|] == c;
    assert forall i :: 0 <= i < |pre| ==> s[i] == pre[i];
  }

  /** The last `c` of `pre + [c] + post` is the one before `post` when
      `post` has none. */
  lemma {:induction false} LastIndexOfBefore(pre: string, c: char, post: string)
    requires c !in post
    ensures LastIndexOf(pre + [c] + post, c) == Some(|pre|)
    decreases |post|
  {
    var s := pre + [c] + post;
    if |post| > 0 {
      assert s[|s| - 1] == post[|post| - 1];
      assert s[..|s| - 1] == pre + [c] + post[..|post| - 1];
      LastIndexOfBefore(pre, c, post[..|post| - 1]);
    } else {
      assert s == pre + [c];
    }
  }

  /** `s.replace(pat, rep)`: left-to-right, non-overlapping replacement of
      every occurrence of a non-empty pattern. */
  function ReplaceAll(s: string, pat: string, rep: string): string
    requires |pat| > 0
    decreases |s|
  {
    if |s| == 0 then ""
    else if StartsWith(s, pat) then rep + ReplaceAll(s[|pat|..], pat, rep)
    else [s[0]] + ReplaceAll(s[1..], pat, rep)
  }

  /** Replacing a single character by another leaves none of the first. */
  lemma {:induction false} ReplaceCharRemovesIt(s: string, c: char, d: char)
    requires c != d
    ensures c !in ReplaceAll(s, [c], [d])
    decreases |s|
  {
    if |s| > 0 {
      ReplaceCharRemovesIt(s[1..], c, d);
      if StartsWith(s, [c]) {
        assert s[|[c]|..] == s[1..];
      }
    }
  }

  /** A pattern holding a character that `s` lacks is never replaced. */
  lemma {:induction false} ReplaceAbsentIsIdentity(s: string, pat: string, rep: string, c: char)
    requires |pat| > 0 && c in pat && c !in s
    ensures ReplaceAll(s, pat, rep) == s
    decreases |s|
  {
    if |s| > 0 {
      ReplaceAbsentIsIdentity(s[1..], pat, rep, c);
      assert s == [s[0]] + s[1..];
    }
  }

  /** Replacement distributes over a split that no occurrence straddles;
      a single character pattern never straddles. */
  lemma {:induction false} ReplaceCharAppend(a: string, b: string, c: char, d: string)
    ensures ReplaceAll(a + b, [c], d) == ReplaceAll(a, [c], d) + ReplaceAll(b, [c], d)
    decreases |a|
  {
    if |a| > 0 {
      assert (a + b)[1..] == a[1..] + b;
      assert (a + b)[0] == a[0];
      ReplaceCharAppend(a[1..], b, c, d);
      assert StartsWith(a + b, [c]) <==> StartsWith(a, [c]);
    } else {
      assert a + b == b;
    }
  }

  // ---------------------------------------------------------------------
  // Decimal rendering and parsing of integers

  predicate IsDigit(c: char) { '0' <= c <= '9' }

  function DigitChar(d: nat): (c: char)
    requires d < 10
    ensures IsDigit(c)
  {
    ('0' as int + d) as char
  }

  function DigitValue(c: char): (d: nat)
    requires IsDigit(c)
    ensures d < 10
  {
    c as int - '0' as int
  }

  /** The value of a string of decimal digits, most significant first. */
  function DigitsValue(s: string): nat
    requires forall i :: 0 <= i < |s| ==> IsDigit(s[i])
  {
    if |s| == 0 then 0 else DigitsValue(s[..|s| - 1]) * 10 + DigitValue(s[|s| - 1])
  }

  /** `str(n)` for a natural number: the shortest decimal rendering. */
  function NatToString(n: nat): (r: string)
    ensures |r| > 0
    ensures forall i :: 0 <= i < |r| ==> IsDigit(r[i])
    ensures r[0] == '0' ==> n == 0
  {
    if n < 10 then [DigitChar(n)] else NatToString(n / 10) + [DigitChar(n % 10)]
  }

  /** `str(n)` for an integer. */
  function IntToString(n: int): (r: string)
    ensures |r| > 0
    ensures n < 0 <==> r[0] == '-'
  {
    if n < 0 then "-" + NatToString(-n) else NatToString(n)
  }

  predicate AllDigits(s: string) {
    |s| > 0 && forall i :: 0 <= i < |s| ==> IsDigit(s[i])
  }

  /** `int(s)` for a string made of an optional sign and decimal digits;
      `None` stands for the ValueError Python raises on anything else. */
  function ParseInt(s: string): (r: Option<int>)
    ensures r.Some? ==> |s| > 0
  {
    if |s| > 0 && (s[0] == '-' || s[0] == '+') then
      if AllDigits(s[1..]) then
        (if s[0] == '-' then Some(-(DigitsValue(s[1..]) as int)) else Some(DigitsValue(s[1..])))
      else None
    else if AllDigits(s) then Some(DigitsValue(s))
    else None
  }

  lemma {:induction false} DigitsOfNatToString(n: nat)
    ensures DigitsValue(NatToString(n)) == n
    decreases n
  {
    var r := NatToString(n);
    if n >= 10 {
      DigitsOfNatToString(n / 10);
      assert r[..|r| - 1] == NatToString(n / 10);
      assert r[|r| - 1] == DigitChar(n % 10);
    }
  }

  /** `int(str(n)) == n`. */
  lemma IntToStringRoundTrip(n: int)
    ensures ParseInt(IntToString(n)) == Some(n)
  {
    var r := IntToString(n);
    if n < 0 {
      DigitsOfNatToString(-n);
      assert r[1..] == NatToString(-n);
    } else {
      DigitsOfNatToString(n);
    }
  }
}

=== FILE: workflows.dfy ===
/** The business workflows of `core/workflows.py`: the issue listing in
    frontend format sorted by numeric id, the per-issue feasibility and plan
    stages with their error dicts, and the plan execution step. The two
    stages of `process_issue_parallel` run on a thread pool; they touch
    different cache files, so they are modelled one after the other. */
module Workflows {
  import opened Wrappers
  import opened Json
  import Text
  import opened Ranking
  import opened AgentEnv
  import CacheKey
  import IssueFetcher
  import FeasibilityAnalyzer
  import PlanAgent

  // ---------------------------------------------------------------------
  // fetch_repository_issues

  /** The keys of a listed issue, in order. */
  const FRONTEND_KEYS: seq<string> := ["id", "title", "state", "body", "created_at", "updated_at"]

  /** `str(issue_data.get('number', ''))`. */
  function IdText(fields: seq<(string, Json)>): string {
    PyStr(GetOr(fields, "number", JStr("")))
  }

  /** `int(x["id"])`, or None where Python raises ValueError. */
  function IdKey(fields: seq<(string, Json)>): Option<int> {
    Text.ParseInt(IdText(fields))
  }

  function FrontendValues(fields: seq<(string, Json)>): seq<Json> {
    [ JStr(IdText(fields)),
      GetOr(fields, "title", JStr("No title")),
      GetOr(fields, "state", JStr("open")),
      GetOr(fields, "body", JStr("")),
      GetOr(fields, "created_at", JStr("")),
      GetOr(fields, "updated_at", JStr("")) ]
  }

  /** One issue in frontend format. */
  function FrontendIssue(fields: seq<(string, Json)>): (r: Json)
    ensures r.JObj? && Keys(r.fields) == FRONTEND_KEYS
  {
    JObj(Zip(FRONTEND_KEYS, FrontendValues(fields)))
  }

  lemma FrontendKeysDistinct()
    ensures forall i, j :: 0 <= i < j < |FRONTEND_KEYS| ==> FRONTEND_KEYS[i] != FRONTEND_KEYS[j]
  {
    var ks := FRONTEND_KEYS;
    assert |ks[0]| == 2 && |ks[1]| == 5 && |ks[2]| == 5 && |ks[3]| == 4 && |ks[4]| == 10 && |ks[5]| == 10;
    assert ks[1][0] != ks[2][0] && ks[4][0] != ks[5][0];
  }

  /** Each key of a listed issue is bound to its value: `id` the text of the
      number (empty when missing), `title` "No title", `state` "open" and
      the other fields the empty string by default. */
  lemma FrontendField(fields: seq<(string, Json)>, i: nat)
    requires i < |FRONTEND_KEYS|
    ensures Lookup(FrontendIssue(fields).fields, FRONTEND_KEYS[i]) == Some(FrontendValues(fields)[i])
  {
    FrontendKeysDistinct();
    LookupZip(FRONTEND_KEYS, FrontendValues(fields), i);
  }

  predicate AllKeyed(items: seq<Json>)
    requires AllDicts(items)
  {
    forall i :: 0 <= i < |items| ==> IdKey(items[i].fields).Some?
  }

  /** The sort keys, entry by entry. */
  function SortKeys(items: seq<Json>): (keys: seq<int>)
    requires AllDicts(items) && AllKeyed(items)
    ensures |keys| == |items|
    ensures forall i :: 0 <= i < |items| ==> IdKey(items[i].fields) == Some(keys[i])
  {
    seq(|items|, i requires 0 <= i < |items| => IdKey(items[i].fields).value)
  }

  /** The keys as the entries of a descending stable sort: ascending on
      `int(id)` is descending on its negation. */
  function KeyEntries(keys: seq<int>): (es: seq<Ranked>)
    ensures |es| == |keys| && Numbered(es)
    ensures forall i :: 0 <= i < |keys| ==> es[i] == Ranked(Num(-keys[i]), i, JNull)
  {
    seq(|keys|, i requires 0 <= i < |keys| => Ranked(Num(-keys[i]), i, JNull))
  }

  /** The input positions in the order `list.sort(key=...)` leaves them. */
  function SortOrder(keys: seq<int>): (order: seq<nat>)
    ensures |order| == |keys|
    ensures forall i :: 0 <= i < |order| ==> order[i] < |keys|
  {
    var s := SortByScore(KeyEntries(keys));
    SortedEntriesAreEntries(keys);
    var order := seq(|s|, i requires 0 <= i < |s| => s[i].index);
    assert forall i :: 0 <= i < |order| ==> order[i] == s[i].index;
    order
  }

  /** Each sorted entry is the entry of its position, carrying its key. */
  lemma SortedEntriesAreEntries(keys: seq<int>)
    ensures forall x :: x in SortByScore(KeyEntries(keys)) ==> x.index < |keys| && x.score == Num(-keys[x.index])
  {
    var s := SortByScore(KeyEntries(keys));
    forall x | x in s
      ensures x.index < |keys| && x.score == Num(-keys[x.index])
    {
      assert x in multiset(s);
      EntryOfKeys(keys, x);
    }
  }

  /** An entry of the keyed list carries the key of its position. */
  lemma EntryOfKeys(keys: seq<int>, x: Ranked)
    requires x in multiset(KeyEntries(keys))
    ensures x.index < |keys| && x.score == Num(-keys[x.index])
  {
    var es := KeyEntries(keys);
    var k :| 0 <= k < |es| && es[k] == x;
  }

  /** The sort is a stable ascending sort: a permutation of the positions
      under which the keys never decrease and equal keys keep input order. */
  lemma SortOrderSpec(keys: seq<int>)
    ensures forall i, j :: 0 <= i < j < |SortOrder(keys)| ==> SortOrder(keys)[i] != SortOrder(keys)[j]
    ensures forall i, j :: 0 <= i < j < |SortOrder(keys)| ==>
      keys[SortOrder(keys)[i]] < keys[SortOrder(keys)[j]]
      || (keys[SortOrder(keys)[i]] == keys[SortOrder(keys)[j]] && SortOrder(keys)[i] < SortOrder(keys)[j])
  {
    var es := KeyEntries(keys);
    var s := SortByScore(es);
    var order := SortOrder(keys);
    SortIsStable(es);
    SortedEntriesAreEntries(keys);
    forall i, j | 0 <= i < j < |order|
      ensures keys[order[i]] < keys[order[j]] || (keys[order[i]] == keys[order[j]] && order[i] < order[j])
    {
      assert order[i] == s[i].index && order[j] == s[j].index;
      assert s[i].score == Num(-keys[order[i]]) && s[j].score == Num(-keys[order[j]]);
      assert Less(s[j].score, s[i].score) || (s[i].score == s[j].score && s[i].index < s[j].index);
    }
  }

  /** Every position appears in the order: it is a permutation. */
  lemma SortOrderCovers(keys: seq<int>, j: nat)
    requires j < |keys|
    ensures j in SortOrder(keys)
  {
    var es := KeyEntries(keys);
    var s := SortByScore(es);
    assert es[j] in multiset(s);
    var i :| 0 <= i < |s| && s[i] == es[j];
    assert SortOrder(keys)[i] == j;
  }

  /** The listing of an agent result: one frontend entry per issue, sorted
      by `int(id)`. Iterating a non-iterable raises TypeError, `.get` on a
      non-dict AttributeError, and an id that is not an integer ValueError. */
  function ListIssues(data: Json): (r: Result<seq<Json>, Exc>)
    ensures r.Err? ==> r.error.kind in {TypeError, AttributeError, ValueError}
  {
    match PyIter(data)
    case Err(e) => Err(e)
    case Ok(items) =>
      if !AllDicts(items) then Err(Exc(AttributeError, "object has no attribute 'get'"))
      else if !AllKeyed(items) then Err(Exc(ValueError, "invalid literal for int() with base 10"))
      else
        var order := SortOrder(SortKeys(items));
        SortOrderSpec(SortKeys(items));
        Ok(seq(|items|, i requires 0 <= i < |items| => FrontendIssue(items[order[i]].fields)))
  }

  /** A list of issue dicts with integer ids is listed completely, each
      issue exactly once, in ascending `int(id)` order with ties in input
      order. */
  lemma ListIssuesSpec(items: seq<Json>)
    requires AllDicts(items) && AllKeyed(items)
    ensures ListIssues(JArr(items)).Ok?
    ensures |ListIssues(JArr(items)).value| == |items|
    ensures forall j :: 0 <= j < |items| ==> FrontendIssue(items[j].fields) in ListIssues(JArr(items)).value
    ensures forall i :: 0 <= i < |items| ==>
      ListIssues(JArr(items)).value[i] == FrontendIssue(items[SortOrder(SortKeys(items))[i]].fields)
    ensures forall i, k :: 0 <= i < k < |items| ==>
      var keys, a, b := SortKeys(items), SortOrder(SortKeys(items))[i], SortOrder(SortKeys(items))[k];
      keys[a] < keys[b] || (keys[a] == keys[b] && a < b)
  {
    var keys := SortKeys(items);
    var out := ListIssues(JArr(items)).value;
    var order := SortOrder(keys);
    SortOrderSpec(keys);
    forall j | 0 <= j < |items|
      ensures FrontendIssue(items[j].fields) in out
    {
      SortOrderCovers(keys, j);
      var i :| 0 <= i < |order| && order[i] == j;
      assert out[i] == FrontendIssue(items[j].fields);
    }
  }

  /** `fetch_repository_issues(repo_url)`: agent 1, then the listing. */
  datatype Listing = Listing(result: Result<seq<Json>, Exc>, cache: Cache)

  function FetchRepositoryIssues(cache: Cache, repoUrl: string, remote: Remote, svc: Services): (r: Listing)
    ensures IssueFetcher.FetchAndCacheIssues(cache, repoUrl, remote, svc).result.Err? ==>
      r.result == Err(IssueFetcher.FetchAndCacheIssues(cache, repoUrl, remote, svc).result.error)
    ensures r.cache == IssueFetcher.FetchAndCacheIssues(cache, repoUrl, remote, svc).cache
  {
    var run := IssueFetcher.FetchAndCacheIssues(cache, repoUrl, remote, svc);
    match run.result
    case Err(e) => Listing(Err(e), run.cache)
    case Ok(data) => Listing(ListIssues(data), run.cache)
  }

  // ---------------------------------------------------------------------
  // process_issue_parallel and execute_issue_plan

  /** The error dict of the `except` clauses: FileNotFoundError from
      anywhere in the `try` reads "Issue not found", any other exception
      its message. */
  function ErrorDict(issueId: string, e: Exc): (r: Json)
    ensures r.JObj? && Lookup(r.fields, "issue_id") == Some(JStr(issueId))
    ensures Lookup(r.fields, "error") == Some(JStr(if e.kind == FileNotFoundError then "Issue not found" else e.msg))
    ensures "status" !in Keys(r.fields)
  {
    JObj([("issue_id", JStr(issueId)),
          ("error", JStr(if e.kind == FileNotFoundError then "Issue not found" else e.msg))])
  }

  /** `run_feasibility` and `run_planning`: the cached document of
      `(repo, category, issue_id)` when `check_cache` finds a truthy one,
      else the agent. */
  function RunStage(cache: Cache, repoUrl: string, category: string, issueId: string, issue: Json,
                    remote: Remote, svc: Services): (r: AgentRun)
    requires category in {"feasibility", "plan"}
    ensures Truthy(CheckCache(cache, CacheKey.CacheFile(repoUrl, category, issueId))) ==>
      r == AgentRun(Ok(cache[CacheKey.CacheFile(repoUrl, category, issueId)]), cache, false)
  {
    var path := CacheKey.CacheFile(repoUrl, category, issueId);
    if Truthy(CheckCache(cache, path)) then AgentRun(Ok(cache[path]), cache, false)
    else if category == "feasibility" then FeasibilityAnalyzer.AnalyzeIssueFeasibility(cache, issue, repoUrl, remote, svc)
    else PlanAgent.ReviewFilesAndPlan(PlanAgent.NEW_PLANNER, cache, issue, repoUrl, remote, svc).run
  }

  /** The keys of a completed issue's dict, in order. */
  const COMPLETED_KEYS: seq<string> := ["issue_id", "status", "analysis", "plan"]

  /** The dict of a completed issue. */
  function CompletedDict(issueId: string, analysis: Json, plan: Json): (r: Json)
    ensures r.JObj? && Keys(r.fields) == COMPLETED_KEYS
  {
    JObj(Zip(COMPLETED_KEYS, CompletedValues(issueId, analysis, plan)))
  }

  lemma CompletedKeysDistinct()
    ensures forall i, j :: 0 <= i < j < |COMPLETED_KEYS| ==> COMPLETED_KEYS[i] != COMPLETED_KEYS[j]
  {
    var ks := COMPLETED_KEYS;
    assert |ks[0]| == 8 && |ks[1]| == 6 && |ks[2]| == 8 && |ks[3]| == 4;
    assert ks[0][0] != ks[2][0];
  }

  function CompletedValues(issueId: string, analysis: Json, plan: Json): seq<Json> {
    [JStr(issueId), JStr("completed"), analysis, plan]
  }

  /** Each key of a completed dict is bound to its value: the id, the text
      `completed`, the analysis and the plan. */
  lemma CompletedField(issueId: string, analysis: Json, plan: Json, i: nat)
    requires i < |COMPLETED_KEYS|
    ensures Lookup(CompletedDict(issueId, analysis, plan).fields, COMPLETED_KEYS[i])
         == Some(CompletedValues(issueId, analysis, plan)[i])
  {
    CompletedKeysDistinct();
    LookupZip(COMPLETED_KEYS, CompletedValues(issueId, analysis, plan), i);
  }

  /** The dict `process_issue_parallel` returns once both stages have run:
      the feasibility stage's exception is read first. */
  function Respond(issueId: string, analysis: Result<Json, Exc>, plan: Result<Json, Exc>): Json {
    if analysis.Err? then ErrorDict(issueId, analysis.error)
    else if plan.Err? then ErrorDict(issueId, plan.error)
    else CompletedDict(issueId, analysis.value, plan.value)
  }

  /** The status is `completed` exactly when both stages succeed; otherwise
      the dict is the error dict of the first failing stage. */
  lemma RespondSpec(issueId: string, analysis: Result<Json, Exc>, plan: Result<Json, Exc>)
    ensures var r := Respond(issueId, analysis, plan);
      && (Lookup(r.fields, "status") == Some(JStr("completed")) <==> analysis.Ok? && plan.Ok?)
      && (analysis.Ok? && plan.Ok? ==>
            Lookup(r.fields, "analysis") == Some(analysis.value) && Lookup(r.fields, "plan") == Some(plan.value))
      && (analysis.Err? ==> r == ErrorDict(issueId, analysis.error))
      && (analysis.Ok? && plan.Err? ==> r == ErrorDict(issueId, plan.error))
  {
    if analysis.Ok? && plan.Ok? {
      CompletedField(issueId, analysis.value, plan.value, 1);
      CompletedField(issueId, analysis.value, plan.value, 2);
      CompletedField(issueId, analysis.value, plan.value, 3);
    }
  }

  /** What a workflow returns, the cache afterwards, and whether any agent
      created a session. */
  datatype Outcome = Outcome(response: Json, cache: Cache, contacted: bool)

  /** `process_issue_parallel(repo_url, issue_id)` given the outcome of
      `load_issue` (imported from utils.utils, not defined in the modelled
      files). Both stages run, the plan stage on the cache the
      feasibility stage left. */
  function ProcessIssueParallel(cache: Cache, repoUrl: string, issueId: string, load: Result<Json, Exc>,
                                feasibilityRemote: Remote, planRemote: Remote, svc: Services): (r: Outcome)
    ensures load.Err? ==> r == Outcome(ErrorDict(issueId, load.error), cache, false)
  {
    match load
    case Err(e) => Outcome(ErrorDict(issueId, e), cache, false)
    case Ok(issue) =>
      var f := RunStage(cache, repoUrl, "feasibility", issueId, issue, feasibilityRemote, svc);
      var p := RunStage(f.cache, repoUrl, "plan", issueId, issue, planRemote, svc);
      Outcome(Respond(issueId, f.result, p.result), p.cache, f.contacted || p.contacted)
  }

  /** The workflow's cache files are the agents' cache files when the issue
      id is the text of the issue's integer number. */
  lemma StagePathIsAgentPath(repoUrl: string, category: string, issueId: string, fields: seq<(string, Json)>, n: int)
    requires Lookup(fields, "number") == Some(JInt(n)) && issueId == Text.IntToString(n)
    ensures CacheKey.CacheFile(repoUrl, category, issueId) == IssueDocumentFile(repoUrl, category, fields)
  {
  }

  /** The feasibility and plan files of one issue are different files. */
  lemma StageFilesDiffer(repoUrl: string, issueId: string)
    ensures CacheKey.CacheFile(repoUrl, "feasibility", issueId) != CacheKey.CacheFile(repoUrl, "plan", issueId)
  {
    var f := CacheKey.CacheFile(repoUrl, "feasibility", issueId);
    var p := CacheKey.CacheFile(repoUrl, "plan", issueId);
    assert f[0] == 'f' && p[0] == 'p';
  }

  /** Once an issue has been processed to completion, processing it again
      reads both results from the cache: no session is created and the
      response is the same. */
  lemma SecondProcessingUsesCache(cache: Cache, repoUrl: string, issueId: string, fields: seq<(string, Json)>, n: int,
                                  remote1: Remote, remote2: Remote, remote3: Remote, remote4: Remote, svc: Services)
    requires Lookup(fields, "number") == Some(JInt(n)) && issueId == Text.IntToString(n)
    ensures var r1 := ProcessIssueParallel(cache, repoUrl, issueId, Ok(JObj(fields)), remote1, remote2, svc);
      r1.response.JObj? && Lookup(r1.response.fields, "status") == Some(JStr("completed")) ==>
      var r2 := ProcessIssueParallel(r1.cache, repoUrl, issueId, Ok(JObj(fields)), remote3, remote4, svc);
      !r2.contacted && r2.response == r1.response && r2.cache == r1.cache
  {
    var issue := JObj(fields);
    var fPath := CacheKey.CacheFile(repoUrl, "feasibility", issueId);
    var pPath := CacheKey.CacheFile(repoUrl, "plan", issueId);
    var f := RunStage(cache, repoUrl, "feasibility", issueId, issue, remote1, svc);
    var p := RunStage(f.cache, repoUrl, "plan", issueId, issue, remote2, svc);
    RespondSpec(issueId, f.result, p.result);
    if f.result.Ok? && p.result.Ok? {
      StageFilesDiffer(repoUrl, issueId);
      StagePathIsAgentPath(repoUrl, "feasibility", issueId, fields, n);
      StagePathIsAgentPath(repoUrl, "plan", issueId, fields, n);
      StageLeavesTruthyFile(cache, repoUrl, "feasibility", issueId, fields, remote1, svc);
      StageLeavesTruthyFile(f.cache, repoUrl, "plan", issueId, fields, remote2, svc);
      assert f.cache == cache || f.cache == cache[fPath := f.result.value];
      assert p.cache == f.cache || p.cache == f.cache[pPath := p.result.value];
      assert p.cache[fPath] == f.cache[fPath];
      var f2 := RunStage(p.cache, repoUrl, "feasibility", issueId, issue, remote3, svc);
      assert f2 == AgentRun(Ok(f.result.value), p.cache, false);
      var p2 := RunStage(f2.cache, repoUrl, "plan", issueId, issue, remote4, svc);
      assert p2 == AgentRun(Ok(p.result.value), p.cache, false);
    }
  }

  /** A stage that succeeds on an issue dict leaves its file holding its
      (truthy) result, and writes no other file. */
  lemma StageLeavesTruthyFile(cache: Cache, repoUrl: string, category: string, issueId: string,
                              fields: seq<(string, Json)>, remote: Remote, svc: Services)
    requires category in {"feasibility", "plan"}
    requires CacheKey.CacheFile(repoUrl, category, issueId) == IssueDocumentFile(repoUrl, category, fields)
    requires RunStage(cache, repoUrl, category, issueId, JObj(fields), remote, svc).result.Ok?
    ensures var r := RunStage(cache, repoUrl, category, issueId, JObj(fields), remote, svc);
      var path := CacheKey.CacheFile(repoUrl, category, issueId);
      && path in r.cache && r.cache[path] == r.result.value && Truthy(r.result.value)
      && (r.cache == cache || r.cache == cache[path := r.result.value])
  {
  }

  /** The rest of `execute_issue_plan` once the plan agent has answered
      (through `safe_devin_api_call`, which is not part of this model): a
      falsy plan stops with "No plan available"; otherwise the executor
      runs and `pr_url` is read from a truthy result. */
  function PlanStage(issueId: string, plan: Result<Json, Exc>, execute: Json -> Result<Json, Exc>): (r: Json)
    ensures r.JObj? && Lookup(r.fields, "issue_id") == Some(JStr(issueId))
    ensures plan.Ok? && !Truthy(plan.value) ==>
      r == JObj([("issue_id", JStr(issueId)), ("error", JStr("No plan available"))])
  {
    match plan
    case Err(e) => ErrorDict(issueId, e)
    case Ok(p) =>
      if !Truthy(p) then JObj([("issue_id", JStr(issueId)), ("error", JStr("No plan available"))])
      else
        match execute(p)
        case Err(e) => ErrorDict(issueId, e)
        case Ok(result) =>
          match (if Truthy(result) then PyGet(result, "pr_url", JNull) else Ok(JNull))
          case Err(e) => ErrorDict(issueId, e)
          case Ok(prUrl) => ExecutedDict(issueId, result, prUrl)
  }

  /** The keys of an executed issue's dict, in order. */
  const EXECUTED_KEYS: seq<string> := ["issue_id", "status", "result", "pr_url"]

  /** The dict of an executed plan. */
  function ExecutedDict(issueId: string, result: Json, prUrl: Json): (r: Json)
    ensures r.JObj? && Keys(r.fields) == EXECUTED_KEYS
  {
    JObj(Zip(EXECUTED_KEYS, ExecutedValues(issueId, result, prUrl)))
  }

  lemma ExecutedKeysDistinct()
    ensures forall i, j :: 0 <= i < j < |EXECUTED_KEYS| ==> EXECUTED_KEYS[i] != EXECUTED_KEYS[j]
  {
    var ks := EXECUTED_KEYS;
    assert |ks[0]| == 8 && |ks[1]| == 6 && |ks[2]| == 6 && |ks[3]| == 6;
    assert ks[1][0] != ks[2][0] && ks[1][0] != ks[3][0] && ks[2][0] != ks[3][0];
  }

  function ExecutedValues(issueId: string, result: Json, prUrl: Json): seq<Json> {
    [JStr(issueId), JStr("completed"), result, prUrl]
  }

  /** Each key of an executed dict is bound to its value: the id, the text
      `completed`, the executor's result and its PR link. */
  lemma ExecutedField(issueId: string, result: Json, prUrl: Json, i: nat)
    requires i < |EXECUTED_KEYS|
    ensures Lookup(ExecutedDict(issueId, result, prUrl).fields, EXECUTED_KEYS[i])
         == Some(ExecutedValues(issueId, result, prUrl)[i])
  {
    ExecutedKeysDistinct();
    LookupZip(EXECUTED_KEYS, ExecutedValues(issueId, result, prUrl), i);
  }

  /** A falsy plan never reaches the executor: any two executors give the
      same dict. */
  lemma FalsyPlanSkipsExecutor(issueId: string, plan: Json, execute1: Json -> Result<Json, Exc>,
                               execute2: Json -> Result<Json, Exc>)
    requires !Truthy(plan)
    ensures PlanStage(issueId, Ok(plan), execute1) == PlanStage(issueId, Ok(plan), execute2)
  {
  }

  /** A completed execution reports the result's `pr_url`, or None when the
      result is falsy. */
  lemma PrUrlOfResult(issueId: string, plan: Json, execute: Json -> Result<Json, Exc>)
    requires Truthy(plan) && execute(plan).Ok?
    requires var res := execute(plan).value; !Truthy(res) || res.JObj?
    ensures var res := execute(plan).value;
      Lookup(PlanStage(issueId, Ok(plan), execute).fields, "pr_url")
        == Some(if Truthy(res) then GetOr(res.fields, "pr_url", JNull) else JNull)
    ensures Lookup(PlanStage(issueId, Ok(plan), execute).fields, "status") == Some(JStr("completed"))
  {
    var res := execute(plan).value;
    var prUrl := if Truthy(res) then GetOr(res.fields, "pr_url", JNull) else JNull;
    ExecutedField(issueId, res, prUrl, 1);
    ExecutedField(issueId, res, prUrl, 3);
  }

  /** `execute_issue_plan(repo_url, issue_id)` given the outcome of
      `load_issue` and the executor agent as parameters. */
  function ExecuteIssuePlan(cache: Cache, repoUrl: string, issueId: string, load: Result<Json, Exc>,
                            planRemote: Remote, svc: Services, execute: Json -> Result<Json, Exc>): (r: Outcome)
    ensures load.Err? ==> r == Outcome(ErrorDict(issueId, load.error), cache, false)
  {
    match load
    case Err(e) => Outcome(ErrorDict(issueId, e), cache, false)
    case Ok(issue) =>
      var p := PlanAgent.ReviewFilesAndPlan(PlanAgent.NEW_PLANNER, cache, issue, repoUrl, planRemote, svc).run;
      Outcome(PlanStage(issueId, p.result, execute), p.cache, p.contacted)
  }

  /** Every plan the plan agent returns is truthy, so with the agent called
      directly the "No plan available" answer cannot occur. */
  lemma AgentPlansAreTruthy(cache: Cache, issue: Json, repoUrl: string, remote: Remote, svc: Services)
    requires PlanAgent.ReviewFilesAndPlan(PlanAgent.NEW_PLANNER, cache, issue, repoUrl, remote, svc).run.result.Ok?
    ensures Truthy(PlanAgent.ReviewFilesAndPlan(PlanAgent.NEW_PLANNER, cache, issue, repoUrl, remote, svc).run.result.value)
  {
  }
}

=== FILE: wrappers.dfy ===
/** Failure-carrying datatypes shared by every module of the model, and the
    model of the Python exceptions that the agents raise and catch. */
module Wrappers {

  datatype Option<+T> = None | Some(value: T) {
    function GetOr(default: T): T {
      match this
      case Some(v) => v
      case None => default
    }
  }

  datatype Result<+R, +E> = Ok(value: R) | Err(error: E)

  /** The Python exception classes that matter to the callers: the workflows
      tell FileNotFoundError apart from every other exception. */
  datatype ExcKind =
    | ValueError
    | KeyError
    | AttributeError
    | TypeError
    | IndexError
    | FileNotFoundError
    | TransportError
    | GenericException

  /** A raised exception; `msg` is what `str(e)` yields. */
  datatype Exc = Exc(kind: ExcKind, msg: string)
}
